=== FILE: README.md ===
# Pass-rush pursuit pipeline — a Dafny model

This project models the algorithmic core of the nfl-linemen analysis. That analysis takes NFL tracking data, which records every player and the ball in 0.1-second frames, and measures how well a pass rusher pursues the quarterback. The model covers five stages.

1. **The play window.** The ball frames run from the `ball_snap` to the first event that ends the pass rush. This is `determine_pertinent_frames`, which appears in two copies (module `Window`).
2. **Frame alignment.** This stage covers:
   - the shift that gives each tracking row its next position (`add_next`);
   - the ball series cut to the window, together with the quarterback's hold time;
   - each player's series without its last row;
   - the left join on frame id, and the first/last-row trim;
   - the scouting matchup (`matchup_finder`) and the opponent column names.

   This is module `Frames`.
3. **The metric composer** (`build_metrics`). For every analysis row it computes:
   - the movement vectors and the relative vectors;
   - the change in distance and the distance ratio;
   - the cosine alignments (colinearity, pursuit factor, escape factor);
   - the projections, true pursuit, force, and `pursuit1`–`pursuit4`;
   - all of these after recentring on the snap point.

   This is module `Metrics`, built on the plane geometry of `Geometry` and the real-number facts of `RealArith`.
4. **Per-play aggregation and the weekly batch.** `pull_metrics` reduces the frame columns to means, sums and maxima (module `Stats`). `play_player_metrics_builder` runs the pipeline for every scouted rush of the week and skips entries that raise (module `Aggregate`).
5. **The first version of the pipeline** in nfl_functions.py (module `Legacy`). It covers:
   - the ball window searched over all ball rows;
   - the rusher merge;
   - the `distance`, `diff` and `pursuit_angle` columns;
   - `test_factor_a` and the two means.

   The row-level conversions made while loading the tables are in module `Prep`: height, clock, yards to score, offense and defense score, pressure and block-fail sums, and the week check. Decimal parsing and printing are in `Digits`.

Data frames become sequences of records. A missing cell (NaN) becomes `None`. An exception becomes the `Failure` of a `Result`, with one error constructor per place the source raises. Column discovery by regular expression becomes columns tagged with their prefix. The blocker pattern `pass_blocker_?\d?$` is still modelled as written (`Metrics.BlockerTag`). Magnitudes and cosines take the square root as a parameter `root` constrained by `Geometry.IsRoot`, and `Geometry.RootUnique` shows that any two such roots agree.

The window follows the code. The scanner returns the 1-based positions just after the snap label and just after the ending label. So the event list `ball_snap, None, None, pass_forward` gives the window (1, 4) (`Window.ExamplePassAfterSkips`).

## Model

| member | source | states |
|---|---|---|
| Window.Scan | nfl_frame_builder.py:353-368 | from any point of the loop: a returned window meets the declarative window definition, and returning nothing means no armed ending label is left |
| Window.PertinentFrames | nfl_frame_builder.py:341-370 | the window starts just after a `ball_snap` and ends just after the first ending label that follows a snap, so end > start; nothing is returned exactly when no label after a snap ends the scan |
| Window.WindowEnds | nfl_frame_builder.py:357-366 | a found window's start position holds `ball_snap`, its end position holds an ending label, and both lie inside the event list |
| Window.WindowUnique | nfl_frame_builder.py:353-368 | at most one pair of bounds meets the window definition |
| Window.PertinentFramesIff | nfl_frame_builder.py:341-370 | the scanner returns a window exactly when that window meets the declarative definition (both directions) |
| Window.WindowPrefixStable | nfl_frame_builder.py:355-368 | events after the window's end never change the window: the loop returns before reading them |
| Window.WindowDropLast | nfl_frame_builder.py:236-239 | dropping the last ball frame before the search keeps every window that ends before that frame; it can only lose a window that ends on that frame |
| Window.NoSnapNoWindow | nfl_frame_builder.py:355-370 | without a `ball_snap` the loop falls through and returns nothing |
| Window.LegacyPertinentFrames | nfl_functions.py:133-155 | the legacy loop, with its trigger flag and early return, returns exactly what the frame builder's scanner returns |
| Window.ExamplePassAfterSkips | nfl_frame_builder.py:355-368 | skip-list labels after the snap do not end the window; `pass_forward` three frames later gives (1, 4) |
| Window.ExampleRepeatedSnap | nfl_frame_builder.py:355-365 | a label before any snap is ignored, and a second snap restarts the window instead of ending it |
| Frames.PlayRows | nfl_frame_builder.py:35 | every selected row belongs to the requested game and play |
| Frames.PlayRowsMembers | nfl_frame_builder.py:35 | a row is selected exactly when it is a week row of that game and play |
| Frames.PlayRowsAppend | nfl_frame_builder.py:35 | selecting from two concatenated pieces of the week table concatenates the two selections |
| Frames.AddNext | nfl_frame_builder.py:63-76 | every row is kept; row k's next position is row k+1's position; only the last row has none |
| Frames.OfEntity | nfl_frame_builder.py:227 | every row of an entity's series belongs to that entity |
| Frames.OfEntityMembers | nfl_frame_builder.py:264 | the entity filter keeps exactly the play rows of that entity |
| Frames.OfEntityHead | nfl_frame_builder.py:227-230 | the entity filter starts with the entity's first row: no earlier row belongs to that entity |
| Frames.OfEntityFirstRow | nfl_frame_builder.py:227-230 | the first row of an entity's shifted series is that entity's first row of the play |
| Frames.OfEntityBlock | nfl_frame_builder.py:264 | when an entity's rows form one contiguous block, its series is that slice of the table |
| Frames.SeriesNextIsOwn | nfl_frame_builder.py:73-74 | inside a contiguous block, each row's shifted next position is the same entity's next row; the block's last row takes the following entity's position, which is why that row is dropped |
| Frames.DropLast | nfl_frame_builder.py:236 | `[:-1]` keeps every row but the last, in order, and keeps nothing of an empty table |
| Frames.BallSeries | nfl_frame_builder.py:227-236 | the searched ball series has one frame fewer than the ball's rows |
| Frames.PlayerFrames | nfl_frame_builder.py:253-272 | a player's series holds only that player's frames |
| Frames.KeepWindow | nfl_frame_builder.py:245 | every kept ball frame has a frame id between snap and end, inclusive |
| Frames.KeepWindowMembers | nfl_frame_builder.py:245 | a ball frame is kept exactly when it is in the series and its id lies in [snap, end] |
| Frames.PlayFbFrames | nfl_frame_builder.py:215-250 | it fails for lack of ball rows exactly when the play has none, and for lack of a window exactly when the shortened series has none; on success: hold time × 10 = end − snap > 0, the snap point is the position of the play's first ball row, taken before the last row is dropped, and the frames are the window filter of the shortened series |
| Frames.FbFramesAreWindow | nfl_frame_builder.py:239-245 | with frame ids 1, 2, …, the kept frames are the slice from the snap frame to the ending frame: they start on `ball_snap` and end on an ending label |
| Frames.WindowFrames | nfl_frame_builder.py:245 | on a numbered series the inclusive filter keeps the snap frame first and the ending frame last |
| Frames.FbFramesMembers | nfl_frame_builder.py:245 | the kept frames are exactly the shortened ball series' frames inside the found window |
| Frames.WindowSlice | nfl_frame_builder.py:245 | on frames numbered from 1 the filter [snap, end] is the slice of positions snap−1 … end−1 |
| Frames.Matches | nfl_frame_builder.py:428 | the right rows a left row meets all carry its frame id |
| Frames.MatchesMembers | nfl_frame_builder.py:428 | a right row is met exactly when it has the left row's frame id |
| Frames.JoinRow | nfl_frame_builder.py:428 | a left row yields one row per matching right row, or one row with an empty slot; each keeps the ball frame and gains one slot |
| Frames.MergeFrames | nfl_frame_builder.py:417-430 | a left join never loses a left row |
| Frames.Lookup | nfl_frame_builder.py:428 | the picked-up frame has the row's frame id and comes from the right series; nothing is picked up exactly when no right frame has that id |
| Frames.MatchesUnique | nfl_frame_builder.py:428 | with unique frame ids on the right, a left row meets at most one right row |
| Frames.JoinRowUnique | nfl_frame_builder.py:428 | with unique frame ids on the right, a left row yields exactly itself plus the looked-up slot |
| Frames.MergeKeepsRows | nfl_frame_builder.py:417-430 | with unique frame ids on the right, the join keeps the left length and order, and row k is left row k plus the right frame of its id (absent when there is none) |
| Frames.PlayerFramesUnique | nfl_frame_builder.py:253-272 | a player with contiguous rows and no repeated frame id gets a series with unique frame ids |
| Frames.PlayerFramesOfBlock | nfl_frame_builder.py:253-272 | for a player whose rows are the block [lo, hi), the series has hi − lo − 1 frames (the last row dropped), frame k being the frame of table row lo + k |
| Frames.TrimEnds | nfl_frame_builder.py:157 | `[1:-1]` leaves max(n − 2, 0) rows; row k is original row k + 1 |
| Frames.PlayBlocks | nfl_frame_builder.py:390 | the play's scouting rows are exactly the rows of that game and play |
| Frames.BlockedBy | nfl_frame_builder.py:401 | the rushers listed for a blocker are exactly the `rusher_blocked` values of that blocker's rows |
| Frames.BlockersOf | nfl_frame_builder.py:410 | the blockers listed for a rusher are exactly the blockers whose rows name that rusher |
| Frames.PlayBlocksAppend | nfl_frame_builder.py:390 | filtering two stretches of the scouting table one after the other gives the two filtered stretches in table order |
| Frames.PlayBlocksSingle | nfl_frame_builder.py:390 | a single scouting row is kept exactly when its game and play match |
| Frames.BlockedByAppend | nfl_frame_builder.py:401 | a blocker's rusher list over two stretches of rows is the first stretch's list followed by the second's, so table order and repeats are kept |
| Frames.BlockedBySingle | nfl_frame_builder.py:401 | one row contributes its `rusher_blocked` exactly when it is the blocker's row |
| Frames.BlockersOfAppend | nfl_frame_builder.py:410 | a rusher's blocker list over two stretches of rows is the first stretch's list followed by the second's |
| Frames.BlockersOfSingle | nfl_frame_builder.py:410 | one row contributes its blocker exactly when it names the rusher |
| Frames.MatchupFinder | nfl_frame_builder.py:373-414 | the blocker check comes first; a role contradicting the table gives no result; a blocker's opponents are the rushers it blocked and a rusher's opponents are the blockers that blocked it, as the ordered lists `BlockedBy` / `BlockersOf` of the play's rows (duplicates kept); a player in neither column gets no opponent type and no opponents |
| Frames.BlockedBySymmetric | nfl_frame_builder.py:401-410 | x is among y's blocked rushers exactly when y is among x's blockers |
| Frames.OpponentTag | nfl_frame_builder.py:466-482 | a single opponent is named by role alone; otherwise the name is the role, "_" and the opponent's number |
| Frames.OpponentTagsDistinct | nfl_frame_builder.py:476-482 | differently numbered opponents get different column names |
| Frames.OpponentTags | nfl_frame_builder.py:185-196 | the names of opponents done+1 … count in merge order, one per remaining opponent; position i is opponent done + i + 1's name (`Frames.OpponentTagsAt`) |
| Frames.OpponentSeries | nfl_frame_builder.py:190-194 | one series per opponent, in the order of the opponent list: series i is `get_play_player_frames` of opponent i |
| Frames.OpponentTagsAt | nfl_frame_builder.py:188-196 | position i of the merge order holds the name of opponent done + i + 1 |
| Frames.OpponentTagsCons | nfl_frame_builder.py:188-196 | the merge order starting after opponent done begins with opponent done + 1's name |
| Frames.MergeOpponents | nfl_frame_builder.py:185-198 | the loop over opponents never loses a row |
| Frames.OwnRows | nfl_frame_builder.py:148-155 | joining the player's series onto the ball frames never loses a ball frame |
| Frames.AnalysisRows | nfl_frame_builder.py:146-209 | the analysis table keeps at least every ball frame but the first and last |
| Frames.Columns | nfl_frame_builder.py:146-209 | the first column of the analysis table is the analysed player's role |
| Frames.JoinRowExtends | nfl_frame_builder.py:428 | each joined row is the left row with one more slot, under the new tag, holding a frame from the right series or nothing |
| Frames.MergeShape | nfl_frame_builder.py:417-430 | joining adds the new tag as the last column of a uniform table and keeps the owner of its first column |
| Frames.JoinRowShape | nfl_frame_builder.py:428 | the rows one left row yields carry its tags plus the new tag and keep its first column |
| Frames.MergeOpponentsShape | nfl_frame_builder.py:185-198 | the opponent loop appends the opponents' names in order and keeps the first column |
| Frames.AnalysisRowsShape | nfl_frame_builder.py:146-209 | every analysis row has the columns of `Columns`, and its first column holds only the analysed player's frames |
| Frames.OwnRowsFirst | nfl_frame_builder.py:148-155 | the player's own slot only ever holds that player's frames |
| Frames.OwnRowsFrom | nfl_frame_builder.py:428 | joining one entity's series onto bare ball rows gives one slot per row, filled only with that entity's frames |
| Frames.CreatePlayAnalysisFrames | nfl_frame_builder.py:115-212 | succeeds exactly when the ball frames, the matchup and the mode (PvB or PvP) all succeed; an unknown mode is the only other failure; on success the hold time, the snap point, the columns and the rows are those of the window and matchup |
| Frames.OpponentSlots | nfl_frame_builder.py:188-196 | a frame gets one slot from every remaining opponent |
| Frames.MergeOpponentsLength | nfl_frame_builder.py:185-198 | with unique frame ids per opponent, the loop keeps the table length |
| Frames.MergeOpponentsRow | nfl_frame_builder.py:185-198 | with unique frame ids per opponent, row k gains, in order, each opponent's frame of its id under that opponent's name |
| Frames.OwnRowsShape | nfl_frame_builder.py:148-155 | one row per ball frame, holding that frame and the player's frame of its id |
| Frames.PvBRows | nfl_frame_builder.py:146-162 | PvB rows are ball frames 1 … n−2, each with the player's frame of its id under the role name |
| Frames.PvPRows | nfl_frame_builder.py:164-209 | PvP rows are ball frames 1 … n−2, each with the player's frame, then each opponent's frame under that opponent's name |
| Frames.PvPWithoutOpponents | nfl_frame_builder.py:200-201 | PvP for a player with no listed opponents gives the PvB table |
| Geometry.Displacement | nfl_build_metrics.py:92-101 | the movement vector carries the current position onto the next one |
| Geometry.NormFacts | nfl_build_metrics.py:641 | a norm is non-negative, squares to x² + y², and is zero only for the zero vector |
| Geometry.Distance | nfl_build_metrics.py:539-554 | the distance is the non-negative number whose square is the sum of the squared coordinate differences |
| Geometry.DistanceFacts | nfl_build_metrics.py:539-554 | `euclidean_distance` is non-negative, symmetric and zero exactly for equal points |
| Geometry.Component | nfl_build_metrics.py:625-645 | the projection lies on the line of `onto`; the remainder v − projection is orthogonal to `onto` |
| Geometry.ComponentIsMultiple | nfl_build_metrics.py:643-645 | the projection is a scalar multiple of `onto` |
| Geometry.ComponentIdempotent | nfl_build_metrics.py:625-645 | projecting twice equals projecting once; `onto` projects to itself |
| Geometry.Cosine | nfl_build_metrics.py:592-597 | 1 − cosine distance lies in [−1, 1], times the two norms is the dot product, and has the sign of the dot product |
| Geometry.CosineSymmetric | nfl_build_metrics.py:592-597 | the cosine does not depend on argument order |
| Geometry.CosineScale | nfl_build_metrics.py:592-597 | scaling one vector by k keeps the cosine for k > 0 and negates it for k < 0 |
| Geometry.CosineSelfAndOpposite | nfl_build_metrics.py:592-597 | a vector has cosine 1 with itself and −1 with its negation |
| Geometry.CosineParallel | nfl_build_metrics.py:592-597 | same-direction parallel vectors have cosine 1 |
| Geometry.Reorient | nfl_build_metrics.py:522-536 | the coordinate measured from the new origin, plus the origin, is the original coordinate |
| Geometry.Recenter | nfl_build_metrics.py:52-77 | a point measured from the snap point, plus the snap point, is the point |
| Geometry.DisplacementRecentered | nfl_build_metrics.py:52-77 | displacements are the same before and after recentring |
| Metrics.Between | nfl_build_metrics.py:92-101 | the relative vector exists exactly when both ends do, and carries the first onto the second |
| Metrics.Magnitude | nfl_build_metrics.py:400-403 | a present vector's magnitude is a non-negative root of x² + y², zero only for the zero vector |
| Metrics.BallMove | nfl_build_metrics.py:92-101 | the ball's movement exists exactly when it has a next position, and carries its position onto it |
| Metrics.RusherMove | nfl_build_metrics.py:92-101 | the rusher's movement exists exactly when the rusher has a frame with a next position, and carries its position onto it |
| Metrics.RusherToBall | nfl_build_metrics.py:116-117 | the rusher-to-ball vector exists exactly when the rusher has a frame and the ball a next position, and carries the rusher's current position onto the ball's next one |
| Metrics.BallToRusher | nfl_build_metrics.py:132-133 | the ball-to-rusher vector exists exactly when both have a next position, and carries the rusher's next position onto the ball's next one |
| Metrics.CurrentDistance | nfl_build_metrics.py:152-153 | the current distance exists exactly when the rusher has a frame, and is the distance from the rusher to the ball |
| Metrics.NextDistance | nfl_build_metrics.py:150-151 | the next distance exists exactly when both have a next position, and is the distance between those next positions |
| Metrics.TowardBall | nfl_build_metrics.py:286-302 | the pursuit projection exists exactly when the rusher has a frame with a next position, the ball has a next position, and that differs from the rusher's current position; it is parallel to the rusher-to-ball vector and leaves a remainder perpendicular to it |
| Metrics.AwayFromRusher | nfl_build_metrics.py:343-358 | the escape projection exists exactly when both have next positions and these differ; it is parallel to the ball-to-rusher vector and leaves a remainder perpendicular to it |
| Metrics.BlockerIds | nfl_frame_builder.py:331-336 | one id per blocker column, present exactly when that blocker has a frame, and then the blocker's `nflId` |
| Metrics.Alignment | nfl_build_metrics.py:576-597 | the cosine of the angle between two vectors: defined exactly for two present non-zero vectors; then c·‖u‖·‖v‖ = u·v, c is in [−1, 1], and c is positive, zero or negative exactly as u·v is (1 aligned, 0 orthogonal, −1 opposite) |
| Metrics.Projection | nfl_build_metrics.py:625-645 | defined exactly when both are present and `onto` is non-zero; then the result lies on `onto` and the remainder is orthogonal to it |
| Metrics.ChangeInDistance | nfl_build_metrics.py:138-161 | the growth in rusher-to-ball distance, or 0.0001 when that growth is missing or not above 0.0001; never below 0.0001 |
| Metrics.DistanceRatio | nfl_build_metrics.py:164-185 | defined exactly when both distances are and the next one is non-zero; then ratio × next = current |
| Metrics.Pursuit1 | nfl_build_metrics.py:410-439 | defined exactly when pursuit-vs-escape is; always within [−8, 6] |
| Metrics.Pursuit1IsClamp | nfl_build_metrics.py:422-435 | the two branches of `pursuit1` clamp −(pursuit vs escape ÷ change) to [−8, 6] |
| Metrics.Pursuit1Antitone | nfl_build_metrics.py:422-435 | more pursuit than escape never raises `pursuit1` |
| Metrics.PerBallMovement | nfl_build_metrics.py:474-517 | a zero ball movement returns the numerator unchanged; otherwise the result × ball movement = numerator |
| Metrics.PerBallMovementNonNegative | nfl_build_metrics.py:481-489 | a non-negative numerator gives a non-negative `pursuit3` |
| Metrics.Force | nfl_build_metrics.py:363-384 | defined exactly when acceleration and pursuit factor are; then it is mass × 0.414764863 × acceleration × pursuit factor, so with positive mass and acceleration it has the pursuit factor's sign |
| Metrics.ForceBounded | nfl_build_metrics.py:376-382 | with a non-negative mass and a pursuit factor in [−1, 1], the magnitude of the force is at most mass × 0.414764863 × the magnitude of the acceleration: the full force of the rusher's mass and acceleration |
| Metrics.Difference | nfl_build_metrics.py:400-405 | pursuit minus escape is defined exactly when both are, and adds back to pursuit |
| Metrics.Product | nfl_build_metrics.py:454-455 | `pursuit2` is defined exactly when pursuit-vs-escape and the distance ratio are, and is their product: positive exactly when the two share a sign, negative exactly when the signs differ, zero when pursuit-vs-escape is zero |
| Metrics.TwoDigitsNotBlocker | nfl_build_metrics.py:570 | a column name ending in two digits never matches the blocker pattern |
| Metrics.BlockerTags | nfl_build_metrics.py:557-573 | the pattern finds a lone blocker and blockers 1–9; it misses blockers numbered 10 and above; it never takes a rusher column |
| Metrics.BlockerTagIff | nfl_build_metrics.py:570 | `re.search(r'pass_blocker_?\d?$', col)` holds exactly when the tag splits into a part ending in `pass_blocker` and an ending that is empty, `_`, one digit, or `_` and one digit (both directions) |
| Metrics.SlotOf | nfl_build_metrics.py:557-573 | a column is found exactly when some slot has its name, and the first such slot is returned |
| Metrics.BlockerSlots | nfl_build_metrics.py:569-571 | every column taken as a blocker matches the blocker pattern |
| Metrics.BlockerSlotsMembers | nfl_build_metrics.py:569-571 | a column is taken as a blocker exactly when its tag matches the pattern |
| Metrics.BlockerSlotsAppend | nfl_build_metrics.py:569-571 | columns are scanned in order: the blockers of two runs of columns are those of the first followed by those of the second |
| Metrics.BlockerSlotsSingle | nfl_build_metrics.py:570-571 | a single column is appended exactly when its tag matches |
| Metrics.Colinearity | nfl_build_metrics.py:219-241 | the cosine between the rusher's move and the ball's move: defined exactly when both moves exist and neither is zero; then c·‖u‖·‖v‖ = u·v, c is in [−1, 1], and its sign is the dot product's (1 aligned, 0 orthogonal, −1 opposite) |
| Metrics.PursuitFactor | nfl_build_metrics.py:244-270 | the cosine between the rusher-to-ball vector and the rusher's move: defined exactly when both exist and are non-zero (so missing without a rusher frame); then c·‖u‖·‖v‖ = u·v, c is in [−1, 1], negative when moving away, zero when perpendicular, positive when moving toward the ball |
| Metrics.EscapeFactor | nfl_build_metrics.py:307-328 | the cosine between the ball's move and the ball-to-rusher vector: defined exactly when both exist and are non-zero; then c·‖u‖·‖v‖ = u·v, c is in [−1, 1], and its sign is the dot product's |
| Metrics.TruePursuit | nfl_build_metrics.py:387-407 | true pursuit is defined exactly when both projections are, and is the pursuit projection's length minus the escape projection's length; it is missing without a rusher frame |
| Metrics.BlockerDistances | nfl_build_metrics.py:188-216 | one distance per blocker column, present exactly when the rusher and that blocker both have a frame, and then the distance between them |
| Metrics.RowMetrics | nfl_build_metrics.py:17-47 | for one row: the change in distance is at least 0.0001, `pursuit1` is in [−8, 6], `pursuit3` ≥ 0, one blocker distance per blocker, and every rusher-dependent metric is missing without a rusher frame |
| Metrics.RowCosinesBounded | nfl_build_metrics.py:592-597 | colinearity, pursuit factor and escape factor of a row are in [−1, 1] |
| Metrics.PursuitFactorHeadOn | nfl_build_metrics.py:600-622 | the pursuit factor is computed before the projection overwrites its inputs: a rusher moving along the line to the ball's next position scores 1 toward it and −1 away from it |
| Metrics.CaughtBallLeavesEscapeUndefined | nfl_build_metrics.py:331-358 | a rusher ending the interval on the ball's next position leaves a zero ball-to-rusher vector, so the escape factor, the ball's projection away from the rusher, pursuit-vs-escape and pursuit1, pursuit2 and pursuit4 are all undefined |
| Metrics.RecenterEntity | nfl_build_metrics.py:52-77 | recentring keeps a frame's presence, id and acceleration |
| Metrics.RecenterRow | nfl_build_metrics.py:52-77 | adding the snap point back to every recentred position (ball and each column, current and next) gives the original one; frame ids, events, column names, presence, nflIds and accelerations are unchanged |
| Metrics.BetweenRecentered | nfl_build_metrics.py:52-77 | relative vectors are unchanged by recentring |
| Metrics.RowMetricsRecentered | nfl_build_metrics.py:52-77 | recentring on the snap point changes no metric of a row |
| Metrics.SlotOfRecentered | nfl_build_metrics.py:52-77 | recentring keeps which columns exist and recentres the frame found |
| Metrics.BlockerSlotsRecentered | nfl_build_metrics.py:52-77 | recentring keeps the blocker columns |
| Metrics.MetricsOfRecentered | nfl_build_metrics.py:52-77 | a recentred row keeps its rusher column and all its metrics |
| Metrics.RecenteredRows | nfl_build_metrics.py:52-77 | every recentred row has a rusher column and the metrics of the row as given |
| Metrics.RecenteredMetrics | nfl_build_metrics.py:17-47 | composing after recentring gives, row by row, the metrics of the rows as given |
| Metrics.RusherMass | nfl_build_metrics.py:379 | the mass is the weight of the largest rusher id, and is missing exactly when there is no id or no weight for it |
| Metrics.BuildMetrics | nfl_build_metrics.py:17-47 | fails exactly when the rusher column or the rusher's weight is missing, naming which; on success there is one metrics row per analysis row, each the metrics of that row |
| Stats.Mean | nfl_use_metrics.py:77-87 | the mean is missing exactly when no cell of the column is defined |
| Stats.SumAppend | nfl_use_metrics.py:86 | summing a column in two pieces adds the two sums |
| Stats.MeanBounds | nfl_use_metrics.py:77-87 | the mean lies within any bounds of the defined cells |
| Stats.MeanAtLeast | nfl_use_metrics.py:77-87 | a lower bound of the cells bounds the mean; non-negative cells give a non-negative sum |
| Stats.SumIsMeanTimesCount | nfl_use_metrics.py:84-86 | the sum is the mean times the number of defined cells |
| Stats.SumOfNothing | nfl_use_metrics.py:86 | a column with no defined cell sums to 0 |
| Stats.MaxId | nfl_use_metrics.py:76 | the maximum is a defined cell at least every defined cell, and is missing exactly when no cell is defined |
| Aggregate.BlockerColumns | nfl_use_metrics.py:91 | the blocker columns are exactly the table's columns that match the blocker pattern |
| Aggregate.BlockerIdsOf | nfl_use_metrics.py:92-94 | one id per blocker column, the maximum of that column |
| Aggregate.PullMetrics | nfl_use_metrics.py:65-113 | the hold time passes through, and the blocker count is the number of blocker ids collected, one per blocker column |
| Aggregate.Pursuit3SumFollowsPursuit2 | nfl_use_metrics.py:86 | `pursuit3_sum` depends only on the pursuit2 column and is 0 when pursuit2 has no defined cell |
| Aggregate.Pursuit3SumIsMeanTimesCount | nfl_use_metrics.py:84-86 | `pursuit3_sum` is the pursuit2 mean times the number of frames where pursuit2 is defined |
| Aggregate.MetricsOfInRange | nfl_build_metrics.py:17-47 | every composed frame meets the cosine, `pursuit1`, `pursuit3` and change-in-distance ranges |
| Aggregate.PullMetricsInRange | nfl_use_metrics.py:77-87 | the per-play means keep those ranges: cosine means in [−1, 1], `pursuit1` in [−8, 6], `pursuit3` ≥ 0 |
| Aggregate.Pipeline | nfl_use_metrics.py:141-158 | a successful pipeline names the scouted player as `pass_rusher` |
| Aggregate.PipelineOutcome | nfl_use_metrics.py:141-158 | the pipeline succeeds exactly when the frame table and the metrics do; its result then meets the range guarantees |
| Aggregate.RusherIsEntry | nfl_use_metrics.py:76 | the maximum of the rusher column of a successful pipeline is the scouted player's id |
| Aggregate.EntryRowsOwned | nfl_use_metrics.py:146-152 | every analysis row of an entry has the scouted rusher's frames, and only those, in its first column |
| Aggregate.RusherColumnIsIds | nfl_build_metrics.py:17-47 | the metrics' rusher column is the rows' rusher id column, and it has a defined maximum |
| Aggregate.RusherIdsOfMetrics | nfl_build_metrics.py:17-47 | each composed frame carries the id of its row's rusher frame |
| Aggregate.OwnedRusherIds | nfl_use_metrics.py:76 | a rusher column owned by one player has that player as its defined maximum |
| Aggregate.FirstSlotIsRusher | nfl_use_metrics.py:76 | a row whose first column is the rusher's finds the rusher there |
| Aggregate.JoinEntry | nfl_use_metrics.py:160-164 | the inner merge gives at most one row, the entry with its metrics |
| Aggregate.Outcomes | nfl_use_metrics.py:139-171 | one outcome per entry, in order; a success names its entry's player |
| Aggregate.Collect | nfl_use_metrics.py:139-171 | the loop adds at most one row per entry |
| Aggregate.CollectAdded | nfl_use_metrics.py:166 | the loop records an addition exactly when some entry's pipeline succeeded |
| Aggregate.CollectRows | nfl_use_metrics.py:160-166 | every output row is an entry whose pipeline succeeded, with exactly those metrics |
| Aggregate.Successes | nfl_use_metrics.py:139-171 | no entry succeeded exactly when the count is zero |
| Aggregate.CollectOnePerSuccess | nfl_use_metrics.py:160-166 | when successes name their own players, each adds exactly one row |
| Aggregate.CollectAppend | nfl_use_metrics.py:139-171 | running the loop over two lists in turn is running it over their concatenation |
| Aggregate.FailureSkipped | nfl_use_metrics.py:170-171 | an entry that raises, wherever it is, changes nothing |
| Aggregate.WeekGames | nfl_use_metrics.py:135 | the week's games are exactly the game ids of its tracking rows |
| Aggregate.InWeek | nfl_use_metrics.py:137 | an entry is processed exactly when it is scouted and its game is in the week |
| Aggregate.MetricsBuilder | nfl_use_metrics.py:116-175 | a produced table is the loop's rows over the week's scouted entries |
| Aggregate.MetricsBuilderOutcome | nfl_use_metrics.py:116-175 | the batch fails exactly when no entry gets through; otherwise it has one row per successful entry, each a scouted entry of the week with that player as rusher |
| Aggregate.BatchOutcome | nfl_use_metrics.py:139-171 | over sound outcomes: an addition exactly when some entry succeeded, one row per success, each row's entry from the list with its own player as rusher |
| Aggregate.OutcomeIsPipeline | nfl_use_metrics.py:141-158 | each outcome is its entry's pipeline result |
| Legacy.LegacySeries | nfl_functions.py:104 | one ball frame per ball row, the last row kept |
| Legacy.LegacyFbFrames | nfl_functions.py:99-116 | raises at `iloc[0]` exactly when there are no ball rows; succeeds exactly when the full ball series has a window; the line of scrimmage is the x of the play's first ball row; kept frames lie in [snap, end] |
| Legacy.FirstBallRow | nfl_functions.py:107 | the first legacy ball frame is at the position of the play's first ball row |
| Legacy.SeriesEventsDropLast | nfl_functions.py:104-110 | the frame builder's event list is the legacy one without its last label |
| Legacy.LegacyWindowAgrees | nfl_functions.py:110 | every window the frame builder finds, the legacy search finds too; a legacy window that ends before the last row is also the frame builder's |
| Legacy.ExampleLastRowEnds | nfl_functions.py:110 | a pass on the last ball row is found by the legacy search and lost by the frame builder's |
| Legacy.RusherRows | nfl_functions.py:124 | a play row is selected exactly when it belongs to the rusher |
| Legacy.RowsAt | nfl_functions.py:124-125 | the matching rows carry the ball frame's id; none match when no row has it |
| Legacy.RowsAtMembers | nfl_functions.py:124-125 | a row matches exactly when it has that frame id |
| Legacy.RowsAtUnique | nfl_functions.py:124-125 | with distinct frame ids at most one row matches |
| Legacy.LegacyJoinRow | nfl_functions.py:124-125 | a ball frame yields at least one row, each holding that ball frame |
| Legacy.LegacyJoin | nfl_functions.py:119-127 | the left merge never loses a ball frame |
| Legacy.LegacyJoinUnique | nfl_functions.py:119-127 | with distinct rusher frame ids, one row per ball frame in order, with a rusher row exactly when one has that frame id |
| Legacy.RusherPos | nfl_functions.py:184-185 | the rusher position is present exactly when the merge found a row |
| Legacy.Distances | nfl_functions.py:184-185 | the distance is present exactly when the rusher is, is non-negative, and squares to the squared rusher-to-ball offset |
| Legacy.Diff | nfl_functions.py:189 | one cell per row; the first is always missing |
| Legacy.DiffTelescopes | nfl_functions.py:189 | on a fully defined column the changes in distance add up to the last distance minus the first |
| Legacy.AngleAt | nfl_functions.py:218-239 | cell 0 is the placeholder and no other is; every other cell is the cosine between the rusher's move since the previous row and the line from the previous rusher position to the ball: defined exactly when both are non-zero, c·‖u‖·‖v‖ = u·v, c in [−1, 1], negative moving away, zero perpendicular, positive toward |
| Legacy.PursuitAngles | nfl_functions.py:218-241 | one pursuit-angle cell per row |
| Legacy.PursuitAngleHeadOn | nfl_functions.py:231-237 | a rusher moving straight at the ball's current position scores 1 |
| Legacy.TestFactor | nfl_functions.py:209-210 | defined exactly when there is a cosine, `dis`, a change and a non-zero distance; then factor × distance = angle × dis − change |
| Legacy.KeptAngles | nfl_functions.py:199 | the angles that survive `[1:-1]` are cells 1 … n−2 |
| Legacy.KeptFactors | nfl_functions.py:199-210 | one factor per row surviving `[1:-1]` |
| Legacy.LegacyMetrics | nfl_functions.py:179-212 | the pursuit-angle mean is in [−1, 1]; with two rows or fewer both means are missing |
| Legacy.PlaceholderNeverAveraged | nfl_functions.py:199-212 | the placeholder never reaches the mean, which is defined exactly when some kept row has a computed cosine |
| Legacy.KeptAnglesDefined | nfl_functions.py:199-212 | the kept angles have a mean exactly when some kept row has a computed cosine |
| Legacy.LegacyPlay | nfl_functions.py:99-212 | the legacy play path succeeds exactly when the ball window is found, and its pursuit-angle mean is then in [−1, 1] |
| Digits.ParseInt | nfl_acquire_and_prep.py:35 | an optionally signed run of ASCII digits parses, to its decimal value; any other text gives nothing |
| Digits.NatToString | nfl_frame_builder.py:477 | `str(n)` is a non-empty digit string without leading zeros |
| Digits.DigitsValueOfNatToString | nfl_frame_builder.py:477 | reading back the printed number gives the number |
| Digits.ParseIntOfNatToString | nfl_frame_builder.py:477 | `int(str(n)) == n` |
| Digits.NatToStringInjective | nfl_frame_builder.py:477-482 | different opponent numbers print differently |
| Prep.HeightInches | nfl_acquire_and_prep.py:35 | succeeds exactly when the first character is a digit and the text from index 2 parses; then 12 × feet + inches |
| Prep.HeightRoundTrip | nfl_acquire_and_prep.py:35 | a printed "F-I" height reads back as 12·F + I inches |
| Prep.HeightIgnoresSeparator | nfl_acquire_and_prep.py:35 | the character at index 1 is never read |
| Prep.ClockSeconds | nfl_acquire_and_prep.py:53 | succeeds exactly when characters 0–1 and the text from index 3 parse; the clock is then longer than 3 characters and reads as 60 × minutes + seconds |
| Prep.ClockRoundTrip | nfl_acquire_and_prep.py:53 | a zero-padded "MM:SS" reads back as 60·MM + SS seconds |
| Prep.ClockNeedsPadding | nfl_acquire_and_prep.py:53 | an unpadded "9:05" is rejected |
| Prep.YardsToScore | nfl_acquire_and_prep.py:50 | 100 − yardline on the offense's own side, the yardline otherwise |
| Prep.YardsToScoreComplement | nfl_acquire_and_prep.py:50 | for the two teams the yards to score add up to 100 |
| Prep.YardsToScoreMidfield | nfl_acquire_and_prep.py:50 | at the 50 the side does not matter |
| Prep.TeamScore | nfl_acquire_and_prep.py:61-62 | the home score exactly when the team is the home team, else the visitor score |
| Prep.ScoresPartition | nfl_acquire_and_prep.py:61-62 | when one side is home and the other visits, o_score and d_score are the two scores, one each |
| Prep.Pressure | nfl_acquire_and_prep.py:166-171 | pressure is hit + hurry + sack of the cells cast with `astype(int)`; it is undefined exactly when a cell is NaN, where the cast raises |
| Prep.CastInt | nfl_acquire_and_prep.py:166-168 | `astype(int)` truncates a float cell toward zero (within one of the value, same sign) and is undefined on NaN |
| Prep.CastIntWhole | nfl_acquire_and_prep.py:166-168 | a whole-number cell casts to itself |
| Prep.PressureOfIndicators | nfl_acquire_and_prep.py:170-171 | on 0/1 indicator cells the pressure is the number of flags set: at most 3, positive exactly when one occurred, 3 exactly when all did |
| Prep.BlockFail | nfl_acquire_and_prep.py:213-221 | block_fail is beaten + hit allowed + hurry allowed + sack allowed of the cells cast with `astype(int)`; undefined exactly when a cell is NaN |
| Prep.BlockFailOfIndicators | nfl_acquire_and_prep.py:220-221 | on 0/1 indicator cells block_fail is the number of flags set: at most 4, positive exactly when one occurred, 4 exactly when all did |
| Prep.WeekFile | nfl_acquire_and_prep.py:126-131 | only weeks 1–8 give a file; its name carries the week number back |

The pressure sum of `prep_scout_data` (nfl_functions.py:52) is the same hit + hurry + sack as `scout_pass_rush`, so `Prep.Pressure` stands for both.

## Left out

- Reading and writing CSV files, pandas renaming, reordering and index resets, `all_plays`, `all_week_pass_rush_results`, `get_week_of_game`, `get_play_pass_rushers` and `prep_weekly_data`: these are I/O and table glue. The tables are given as sequences of records.
- Plotting, random play selection, printing and warning suppression: these have no effect on any result.
- Floating point: the model computes over exact reals. NaN, and numpy's infinities from dividing by zero, become a missing value. scipy's NaN cosine for a zero vector becomes a missing value too.
- Rounding: every `round(…, k)` call is treated as the identity. This applies to the per-play means, the three-decimal components in `find_pursuit_angle`, and the hold-time arithmetic.
- The square root: magnitudes and cosines take a function `root` satisfying `Geometry.IsRoot` as a parameter, in place of numpy's square root.
- Regex column discovery: columns are tagged with their prefix. `get_pass_blockers` and `recenter_on_snap` choose columns through that prefix. For the blocker pattern, only the column names the pipeline actually builds are analysed (`Metrics.BlockerTags`).
- Player weights: these become a map from id to weight. A missing id is the `UnknownMass` failure.
- A pandas left join with several right rows per frame id yields one row per match. This is modelled (`Frames.JoinRow`). The layout and ownership lemmas hold for any input, but the exact per-row form is stated only when frame ids are unique, which is the case for one player's tracking rows.
- `pull_metrics` on columns other than the rusher's and the blockers' ids is modelled over the composed frame table. Columns the composer does not produce are not read.
- Frames.OpponentTags: its own contract gives only the length. The name at each position is stated by `Frames.OpponentTagsAt`, kept apart so that the names' string facts are not unfolded wherever the list appears.
- Prep.Pressure: a NaN cell leaves the row undefined, which stands for the whole `astype(int)` call raising; the model does not say which row made it raise. Float cells outside the 64-bit range, where numpy's cast gives an arbitrary value, are not modelled.
- Prep.BlockFail: the same two limits as `Prep.Pressure`.
- Aggregate.PullMetrics: its contract gives the hold time and the blocker count. The means and the `pursuit3_sum` quirk are stated by `Aggregate.PullMetricsInRange`, `Aggregate.Pursuit3SumFollowsPursuit2` and `Aggregate.Pursuit3SumIsMeanTimesCount`.
- Aggregate.MetricsBuilder: when no entry gets through, `results` is the empty `pd.DataFrame()` without columns, and the final `drop(columns = ['pass_rusher'])` raises. This is modelled as the failure `NothingAdded`. A successful entry whose inner merge were empty would still give the table its columns; `Aggregate.BatchOutcome` shows that every success adds exactly one row, because a successful pipeline always names the scouted player.
- Digits.ParseInt: only the plain form of `int()` is modelled. Python's `int` also accepts surrounding whitespace, `_` between digits and non-ASCII decimal digits; the model rejects these. The same narrowing applies to `Prep.HeightInches` and `Prep.ClockSeconds`, which parse through it.
- Legacy.TestFactor: `dis`, the distance the tracking data records for the frame, is an input column here and is not derived from positions.

=== FILE: aggregate.dfy ===
/** Per-play aggregation and the weekly batch (nfl_use_metrics.py):
    `pull_metrics` reduces the frame metrics of one analysed play to means,
    and `play_player_metrics_builder` runs the whole pipeline for every
    scouted pass rusher of the week, skipping the entries whose pipeline fails.
 */
module Aggregate {
  import opened Wrappers
  import opened Geometry
  import opened Frames
  import opened Metrics
  import opened RealArith
  import Stats

  /** The dictionary `pull_metrics` returns. Means are missing when the column
      has no defined cell; the blocker ids are one per blocker column. */
  datatype PlayMetrics = PlayMetrics(
    passRusher: Option<int>,
    averageAccel: Option<real>,
    colinearity: Option<real>,
    pursuitFactor: Option<real>,
    forceToBall: Option<real>,
    pursuitVsEscape: Option<real>,
    pursuit1: Option<real>,
    pursuit2: Option<real>,
    pursuit3Mean: Option<real>,
    pursuit3Sum: real,
    pursuit4: Option<real>,
    holdTime: real,
    blockerCount: nat,
    passBlockers: seq<Option<int>>)

  /** The real-valued frame columns `pull_metrics` reads. */
  datatype Field = Accel | Colinearity | Pursuit | Force | PursuitVsEscape | P1 | P2 | P3 | P4

  function Get(m: FrameMetrics, f: Field): Option<real> {
    match f
    case Accel => m.rusherAccel
    case Colinearity => m.colinearity
    case Pursuit => m.pursuitFactor
    case Force => m.force
    case PursuitVsEscape => m.pursuitVsEscape
    case P1 => m.pursuit1
    case P2 => m.pursuit2
    case P3 => m.pursuit3
    case P4 => m.pursuit4
  }

  /** One metric column of the frame table. */
  function Column(ms: seq<FrameMetrics>, f: Field): (r: seq<Option<real>>)
    ensures |r| == |ms|
  {
    seq(|ms|, k requires 0 <= k < |ms| => Get(ms[k], f))
  }

  /** The `pass_rusher` id column of the frame table. */
  function RusherColumn(ms: seq<FrameMetrics>): (r: seq<Option<int>>)
    ensures |r| == |ms|
  {
    seq(|ms|, k requires 0 <= k < |ms| => ms[k].rusherId)
  }

  /** `get_pass_blockers`: the column prefixes the blocker pattern picks up, in column order. */
  function BlockerColumns(columns: seq<string>): (r: seq<string>)
    ensures |r| <= |columns|
    ensures forall c :: c in r <==> c in columns && BlockerTag(c)
  {
    if |columns| == 0 then []
    else
      assert columns == [columns[0]] + columns[1..];
      (if BlockerTag(columns[0]) then [columns[0]] else []) + BlockerColumns(columns[1..])
  }

  /** The id column of the entity merged under `tag`. */
  function ColumnIds(rows: seq<AnalysisRow>, tag: string): (r: seq<Option<int>>)
    ensures |r| == |rows|
  {
    seq(|rows|, k requires 0 <= k < |rows| =>
      var s := SlotOf(rows[k].slots, tag);
      if s.Some? && s.value.Some? then Some(s.value.value.id) else None)
  }

  /** `analysis_frames[pass_blocker].max()` for every blocker column, in column order. */
  function BlockerIdsOf(rows: seq<AnalysisRow>, blockers: seq<string>): (r: seq<Option<int>>)
    ensures |r| == |blockers|
    ensures forall j :: 0 <= j < |blockers| ==> r[j] == Stats.MaxId(ColumnIds(rows, blockers[j]))
  {
    if |blockers| == 0 then []
    else [Stats.MaxId(ColumnIds(rows, blockers[0]))] + BlockerIdsOf(rows, blockers[1..])
  }

  /** `pull_metrics`: the rusher id is the column maximum, every metric the mean
      of its column, `pursuit3_sum` the total of the pursuit2 column (as the
      source computes it), and one id per blocker column. */
  function PullMetrics(rows: seq<AnalysisRow>, ms: seq<FrameMetrics>, columns: seq<string>, holdTime: real)
    : (r: PlayMetrics)
    ensures r.holdTime == holdTime
    ensures r.blockerCount == |r.passBlockers| == |BlockerColumns(columns)|
  {
    var blockers := BlockerColumns(columns);
    var ids := BlockerIdsOf(rows, blockers);
    var pursuit2 := Column(ms, P2);
    PlayMetrics(
      Stats.MaxId(RusherColumn(ms)),
      Stats.Mean(Column(ms, Accel)),
      Stats.Mean(Column(ms, Colinearity)),
      Stats.Mean(Column(ms, Pursuit)),
      Stats.Mean(Column(ms, Force)),
      Stats.Mean(Column(ms, PursuitVsEscape)),
      Stats.Mean(Column(ms, P1)),
      Stats.Mean(pursuit2),
      Stats.Mean(Column(ms, P3)),
      Stats.Sum(pursuit2),
      Stats.Mean(Column(ms, P4)),
      holdTime,
      |ids|,
      ids)
  }

  /** `pursuit3_sum` reads the pursuit2 column, never pursuit3: two frame
      tables that agree on pursuit2 give the same `pursuit2` mean and the same
      `pursuit3_sum`, whatever their pursuit3 cells hold; and it is 0 when
      pursuit2 is nowhere defined. */
  lemma Pursuit3SumFollowsPursuit2(rows: seq<AnalysisRow>, ms: seq<FrameMetrics>, ms2: seq<FrameMetrics>,
                                   columns: seq<string>, holdTime: real)
    requires |ms| == |ms2| && forall k :: 0 <= k < |ms| ==> ms[k].pursuit2 == ms2[k].pursuit2
    ensures var r1 := PullMetrics(rows, ms, columns, holdTime);
      var r2 := PullMetrics(rows, ms2, columns, holdTime);
      && r1.pursuit3Sum == r2.pursuit3Sum && r1.pursuit2 == r2.pursuit2
      && (r1.pursuit2.None? ==> r1.pursuit3Sum == 0.0)
  {
    var col := Column(ms, P2);
    assert col == Column(ms2, P2);
    Stats.SumOfNothing(col);
  }

  /** `pursuit3_sum` is the pursuit2 mean times the number of frames where
      pursuit2 is defined. */
  lemma Pursuit3SumIsMeanTimesCount(r: PlayMetrics, ms: seq<FrameMetrics>)
    requires r.pursuit2 == Stats.Mean(Column(ms, P2)) && r.pursuit3Sum == Stats.Sum(Column(ms, P2))
    ensures r.pursuit2.Some? ==> r.pursuit3Sum == r.pursuit2.value * (|Stats.Present(Column(ms, P2))| as real)
  {
    Stats.SumIsMeanTimesCount(Column(ms, P2));
  }

  /** The frame-level guarantees of the composer. */
  predicate InRange(m: FrameMetrics) {
    && InUnitRange(m.colinearity) && InUnitRange(m.pursuitFactor) && InUnitRange(m.escapeFactor)
    && (m.pursuit1.Some? ==> -8.0 <= m.pursuit1.value <= 6.0)
    && (m.pursuit3.Some? ==> m.pursuit3.value >= 0.0)
  }

  /** Every composed row meets the frame-level guarantees. */
  lemma MetricsOfInRange(root: real -> real, row: AnalysisRow, mass: real)
    requires IsRoot(root) && RusherOf(row).Some?
    ensures InRange(MetricsOf(root, row, mass))
  {
    RowCosinesBounded(root, row.ball, RusherOf(row).value, BlockerFrames(row), mass);
  }

  /** Means keep the frame-level ranges: cosine means lie in [-1, 1], the
      pursuit1 mean in [-8, 6], and the pursuit3 mean is non-negative. */
  lemma PullMetricsInRange(rows: seq<AnalysisRow>, ms: seq<FrameMetrics>, columns: seq<string>, holdTime: real)
    requires forall k :: 0 <= k < |ms| ==> InRange(ms[k])
    ensures var r := PullMetrics(rows, ms, columns, holdTime);
      && InUnitRange(r.colinearity) && InUnitRange(r.pursuitFactor)
      && (r.pursuit1.Some? ==> -8.0 <= r.pursuit1.value <= 6.0)
      && (r.pursuit3Mean.Some? ==> r.pursuit3Mean.value >= 0.0)
  {
    Stats.MeanBounds(Column(ms, Colinearity), -1.0, 1.0);
    Stats.MeanBounds(Column(ms, Pursuit), -1.0, 1.0);
    Stats.MeanBounds(Column(ms, P1), -8.0, 6.0);
    Stats.MeanAtLeast(Column(ms, P3), 0.0);
  }

  /** One scouted pass-rush row: the game, the play and the rusher's id. */
  datatype RushEntry = RushEntry(game: int, play: int, id: int)

  /** An output row: the scouting entry with the play metrics joined to it. */
  datatype ResultRow = ResultRow(entry: RushEntry, metrics: PlayMetrics)

  /** The inputs every entry of a week shares. `root` is the square root. */
  datatype Tables = Tables(root: real -> real, week: seq<TrackRow>, blocks: seq<BlockRow>,
                           weights: map<int, real>, mode: string)

  ghost predicate ValidTables(t: Tables) {
    IsRoot(t.root)
  }

  /** The frame table of an entry: `build_play_frames` for a pass rusher. */
  function EntryAnalysis(t: Tables, e: RushEntry): Result<Analysis, PlayError> {
    CreatePlayAnalysisFrames(PlayRows(t.week, e.game, e.play), e.game, e.play, e.id, t.blocks, PassRusher, t.mode)
  }

  /** The body of the `try`: frames, metrics, aggregation. */
  function Pipeline(t: Tables, e: RushEntry): (r: Result<PlayMetrics, PlayError>)
    requires ValidTables(t)
    ensures r.Success? ==> r.value.passRusher == Some(e.id)
  {
    var a :- EntryAnalysis(t, e);
    var ms :- BuildMetrics(t.root, a, t.weights);
    var r := PullMetrics(a.rows, ms, a.columns, a.holdTime);
    RusherIsEntry(t, e, a, ms);
    Success(r)
  }

  /** The pipeline gets through exactly when the frame table and the metrics
      can be built; the result carries the play's hold time and keeps the
      frame-level ranges in its means. */
  lemma PipelineOutcome(t: Tables, e: RushEntry)
    requires ValidTables(t)
    ensures Pipeline(t, e).Success? <==>
              EntryAnalysis(t, e).Success? && BuildMetrics(t.root, EntryAnalysis(t, e).value, t.weights).Success?
    ensures Pipeline(t, e).Success? ==>
              var r := Pipeline(t, e).value;
              && r.holdTime == EntryAnalysis(t, e).value.holdTime
              && InUnitRange(r.colinearity) && InUnitRange(r.pursuitFactor)
              && (r.pursuit1.Some? ==> -8.0 <= r.pursuit1.value <= 6.0)
              && (r.pursuit3Mean.Some? ==> r.pursuit3Mean.value >= 0.0)
  {
    if Pipeline(t, e).Success? {
      var a := EntryAnalysis(t, e).value;
      var ms := BuildMetrics(t.root, a, t.weights).value;
      var mass := RusherMass(a.rows, t.weights).value;
      forall k | 0 <= k < |ms|
        ensures InRange(ms[k])
      {
        MetricsOfInRange(t.root, a.rows[k], mass);
      }
      PullMetricsInRange(a.rows, ms, a.columns, a.holdTime);
    }
  }

  /** The rusher of a successful pipeline is the scouted player: the analysed
      player's column holds only that player's frames, and the weight lookup
      needed at least one of them. */
  lemma RusherIsEntry(t: Tables, e: RushEntry, a: Analysis, ms: seq<FrameMetrics>)
    requires ValidTables(t)
    requires EntryAnalysis(t, e) == Success(a)
    requires BuildMetrics(t.root, a, t.weights) == Success(ms)
    ensures Stats.MaxId(RusherColumn(ms)) == Some(e.id)
  {
    EntryRowsOwned(t, e, a);
    RusherColumnIsIds(t.root, a, t.weights, ms);
    OwnedRusherIds(a.rows, e.id);
  }

  /** The analysed player of an entry is its pass rusher, in every row. */
  lemma EntryRowsOwned(t: Tables, e: RushEntry, a: Analysis)
    requires EntryAnalysis(t, e) == Success(a)
    ensures Owned(a.rows, RusherTag, e.id)
  {
    var play := PlayRows(t.week, e.game, e.play);
    var m := MatchupFinder(t.blocks, e.game, e.play, e.id, PassRusher).value;
    var fb := PlayFbFrames(play).value;
    AnalysisRowsShape(play, fb.frames, e.id, m, t.mode == "PvP");
  }

  /** The rusher id column of the metrics is the rusher id column of the rows. */
  lemma RusherColumnIsIds(root: real -> real, a: Analysis, weights: map<int, real>, ms: seq<FrameMetrics>)
    requires IsRoot(root) && BuildMetrics(root, a, weights) == Success(ms)
    ensures RusherColumn(ms) == RusherIds(a.rows)
    ensures Stats.MaxId(RusherIds(a.rows)).Some?
  {
    RusherIdsOfMetrics(root, a.rows, RusherMass(a.rows, weights).value, ms);
  }

  /** Each composed frame carries the id of its row's rusher frame. */
  lemma RusherIdsOfMetrics(root: real -> real, rows: seq<AnalysisRow>, mass: real, ms: seq<FrameMetrics>)
    requires IsRoot(root) && HasRusherColumn(rows) && |ms| == |rows|
    requires forall k :: 0 <= k < |rows| ==> ms[k] == MetricsOf(root, rows[k], mass)
    ensures RusherColumn(ms) == RusherIds(rows)
  {
    forall k | 0 <= k < |ms|
      ensures RusherColumn(ms)[k] == RusherIds(rows)[k]
    {
      assert ms[k] == MetricsOf(root, rows[k], mass);
    }
  }

  /** When the rusher column is owned by one player, its defined maximum is that player. */
  lemma OwnedRusherIds(rows: seq<AnalysisRow>, id: int)
    requires Owned(rows, RusherTag, id)
    ensures Stats.MaxId(RusherIds(rows)).Some? ==> Stats.MaxId(RusherIds(rows)) == Some(id)
  {
    var xs := RusherIds(rows);
    forall k | 0 <= k < |xs| && xs[k].Some?
      ensures xs[k] == Some(id)
    {
      FirstSlotIsRusher(rows[k], id);
    }
  }

  /** A row whose first column is the rusher's finds the rusher there. */
  lemma FirstSlotIsRusher(row: AnalysisRow, id: int)
    requires |row.slots| > 0 && row.slots[0].tag == RoleName(PassRusher)
    requires row.slots[0].frame.Some? ==> row.slots[0].frame.value.id == id
    ensures RusherOf(row) == Some(row.slots[0].frame)
  {
  }

  /** The inner merge of the entry with its metrics on nflId == pass_rusher. */
  function JoinEntry(e: RushEntry, m: PlayMetrics): (r: seq<ResultRow>)
    ensures |r| <= 1
    ensures forall j :: 0 <= j < |r| ==> r[j] == ResultRow(e, m)
  {
    if m.passRusher == Some(e.id) then [ResultRow(e, m)] else []
  }

  /** An entry with what its pipeline gave. */
  datatype Outcome = Outcome(entry: RushEntry, result: Result<PlayMetrics, PlayError>)

  /** The pipeline run on every entry, in order. */
  function Outcomes(t: Tables, entries: seq<RushEntry>): (r: seq<Outcome>)
    requires ValidTables(t)
    ensures |r| == |entries|
    ensures forall k :: 0 <= k < |r| ==> r[k].entry == entries[k] && Sound(r[k])
  {
    seq(|entries|, k requires 0 <= k < |entries| => Outcome(entries[k], Pipeline(t, entries[k])))
  }

  /** A successful outcome names its entry's player as the rusher. */
  predicate Sound(o: Outcome) {
    o.result.Success? ==> o.result.value.passRusher == Some(o.entry.id)
  }

  /** What the loop has accumulated: whether any entry got through (the results
      table has columns) and the joined rows. */
  datatype Batch = Batch(added: bool, rows: seq<ResultRow>)

  /** The `for entry` loop with its `try`/`except`: a failing entry adds nothing,
      a successful one adds its merge with the scouting row. */
  function Collect(outs: seq<Outcome>): (r: Batch)
    ensures |r.rows| <= |outs|
  {
    if |outs| == 0 then Batch(false, [])
    else
      var rest := Collect(outs[1..]);
      match outs[0].result
      case Success(m) => Batch(true, JoinEntry(outs[0].entry, m) + rest.rows)
      case Failure(_) => rest
  }

  /** The loop reports an addition exactly when some entry's pipeline succeeded. */
  lemma {:induction false} CollectAdded(outs: seq<Outcome>)
    ensures Collect(outs).added <==> exists k :: 0 <= k < |outs| && outs[k].result.Success?
    decreases |outs|
  {
    if |outs| > 0 {
      CollectAdded(outs[1..]);
      assert forall k :: 1 <= k < |outs| ==> outs[k] == outs[1..][k - 1];
      if Collect(outs).added && outs[0].result.Failure? {
        var k :| 0 <= k < |outs[1..]| && outs[1..][k].result.Success?;
        assert outs[1..][k] == outs[k + 1];
      }
    }
  }

  /** Every output row is an entry whose pipeline succeeded, with exactly those metrics. */
  lemma {:induction false} CollectRows(outs: seq<Outcome>)
    ensures forall j :: 0 <= j < |Collect(outs).rows| ==>
              Outcome(Collect(outs).rows[j].entry, Success(Collect(outs).rows[j].metrics)) in outs
    decreases |outs|
  {
    if |outs| > 0 {
      CollectRows(outs[1..]);
      assert forall x :: x in outs[1..] ==> x in outs;
    }
  }

  /** The number of entries whose pipeline succeeded. */
  function Successes(outs: seq<Outcome>): (n: nat)
    ensures n <= |outs|
    ensures n == 0 <==> forall k :: 0 <= k < |outs| ==> outs[k].result.Failure?
  {
    if |outs| == 0 then 0
    else
      assert forall k :: 1 <= k < |outs| ==> outs[k] == outs[1..][k - 1];
      (if outs[0].result.Success? then 1 else 0) + Successes(outs[1..])
  }

  /** When every success names its own player, each one adds exactly one row:
      the merge on nflId never drops it. */
  lemma {:induction false} CollectOnePerSuccess(outs: seq<Outcome>)
    requires forall k :: 0 <= k < |outs| ==> Sound(outs[k])
    ensures |Collect(outs).rows| == Successes(outs)
    decreases |outs|
  {
    if |outs| > 0 {
      assert forall k :: 0 <= k < |outs| - 1 ==> outs[1..][k] == outs[k + 1];
      CollectOnePerSuccess(outs[1..]);
    }
  }

  /** Running the loop over two lists of entries one after the other is running
      it over their concatenation. */
  lemma {:induction false} CollectAppend(a: seq<Outcome>, b: seq<Outcome>)
    ensures Collect(a + b) == Batch(Collect(a).added || Collect(b).added, Collect(a).rows + Collect(b).rows)
    decreases |a|
  {
    if |a| == 0 {
      assert a + b == b;
    } else {
      assert (a + b)[1..] == a[1..] + b;
      CollectAppend(a[1..], b);
      if a[0].result.Success? {
        AppendAssociative(JoinEntry(a[0].entry, a[0].result.value), Collect(a[1..]).rows, Collect(b).rows);
      }
    }
  }

  /** A failing entry anywhere in the list changes nothing. */
  lemma FailureSkipped(a: seq<Outcome>, o: Outcome, b: seq<Outcome>)
    requires o.result.Failure?
    ensures Collect(a + [o] + b) == Collect(a + b)
  {
    CollectAppend(a + [o], b);
    CollectAppend(a, [o]);
    CollectAppend(a, b);
    assert Collect([o]) == Batch(false, []) by {
      assert [o][1..] == [];
    }
    assert Collect(a).rows + [] == Collect(a).rows;
  }

  /** The game ids of the week's tracking rows (`week_df.game.unique()`). */
  function WeekGames(week: seq<TrackRow>): (r: set<int>)
    ensures forall g :: g in r <==> exists k :: 0 <= k < |week| && week[k].game == g
  {
    set k | 0 <= k < |week| :: week[k].game
  }

  /** The scouting rows of the week's games, in order. */
  function InWeek(scout: seq<RushEntry>, games: set<int>): (r: seq<RushEntry>)
    ensures |r| <= |scout|
    ensures forall x :: x in r <==> x in scout && x.game in games
  {
    if |scout| == 0 then []
    else
      assert scout == [scout[0]] + scout[1..];
      (if scout[0].game in games then [scout[0]] else []) + InWeek(scout[1..], games)
  }

  /** Why the batch produced no table: nothing got through, so dropping the
      `pass_rusher` column of the empty result raises. */
  datatype BatchError = NothingAdded

  /** `play_player_metrics_builder`. */
  function MetricsBuilder(t: Tables, scout: seq<RushEntry>): (r: Result<seq<ResultRow>, BatchError>)
    requires ValidTables(t)
    ensures r.Success? ==> r.value == Collect(Outcomes(t, InWeek(scout, WeekGames(t.week)))).rows
  {
    var batch := Collect(Outcomes(t, InWeek(scout, WeekGames(t.week))));
    if batch.added then Success(batch.rows) else Failure(NothingAdded)
  }

  /** The batch fails exactly when no scouted entry of the week's games gets
      through its pipeline; otherwise there is one row per such entry, each for
      a game of the week and naming the entry's player as rusher. */
  lemma MetricsBuilderOutcome(t: Tables, scout: seq<RushEntry>)
    requires ValidTables(t)
    ensures var outs := Outcomes(t, InWeek(scout, WeekGames(t.week)));
      && (MetricsBuilder(t, scout).Failure? <==> Successes(outs) == 0)
      && (MetricsBuilder(t, scout).Success? ==>
            && |MetricsBuilder(t, scout).value| == Successes(outs)
            && forall j :: 0 <= j < |MetricsBuilder(t, scout).value| ==>
                 var row := MetricsBuilder(t, scout).value[j];
                 && row.entry in scout && row.entry.game in WeekGames(t.week)
                 && row.metrics.passRusher == Some(row.entry.id))
  {
    var entries := InWeek(scout, WeekGames(t.week));
    BatchOutcome(entries, Outcomes(t, entries));
  }

  /** The fold over outcomes that name their entries' players: it adds
      something exactly when some outcome succeeded, one row per success, and
      every row comes from a listed entry and names its player. */
  lemma BatchOutcome(entries: seq<RushEntry>, outs: seq<Outcome>)
    requires |outs| == |entries|
    requires forall k :: 0 <= k < |outs| ==> outs[k].entry == entries[k] && Sound(outs[k])
    ensures Collect(outs).added <==> Successes(outs) > 0
    ensures |Collect(outs).rows| == Successes(outs)
    ensures forall j :: 0 <= j < |Collect(outs).rows| ==>
              var row := Collect(outs).rows[j];
              row.entry in entries && row.metrics.passRusher == Some(row.entry.id)
  {
    CollectAdded(outs);
    CollectRows(outs);
    CollectOnePerSuccess(outs);
    var rows := Collect(outs).rows;
    forall j | 0 <= j < |rows|
      ensures rows[j].entry in entries && rows[j].metrics.passRusher == Some(rows[j].entry.id)
    {
      var k :| 0 <= k < |outs| && outs[k] == Outcome(rows[j].entry, Success(rows[j].metrics));
    }
  }

  /** Each outcome is its entry's pipeline result. */
  lemma OutcomeIsPipeline(t: Tables, entries: seq<RushEntry>, k: nat)
    requires ValidTables(t) && k < |entries|
    ensures Outcomes(t, entries)[k] == Outcome(entries[k], Pipeline(t, entries[k]))
  {
  }
}

=== FILE: digits.dfy ===
/** Decimal text <-> integer conversions: the part of Python's `int(str)` and
    f-string formatting that the row conversions and the column names rely on.
 */
module Digits {
  import opened Wrappers

  predicate IsDigit(c: char) {
    '0' <= c <= '9'
  }

  predicate AllDigits(s: string) {
    forall i :: 0 <= i < |s| ==> IsDigit(s[i])
  }

  function DigitValue(c: char): (d: nat)
    requires IsDigit(c)
    ensures d < 10
  {
    (c - '0') as nat
  }

  function DigitChar(d: nat): (c: char)
    requires d < 10
    ensures IsDigit(c) && DigitValue(c) == d
  {
    ('0' as int + d) as char
  }

  /** Value of a string of decimal digits, most significant first. */
  function DigitsValue(s: string): nat
    requires AllDigits(s)
  {
    if |s| == 0 then 0 else DigitsValue(s[..|s| - 1]) * 10 + DigitValue(s[|s| - 1])
  }

  /** `int(s)` on its plain form: an optionally signed run of at least one ASCII
      digit, with its decimal value. Python's `int` also takes surrounding
      whitespace, `_` between digits and non-ASCII decimal digits; those give
      `None` here. */
  function ParseInt(s: string): (r: Option<int>)
    ensures r.Some? <==>
      (|s| > 0 && AllDigits(s)) ||
      (|s| > 1 && (s[0] == '-' || s[0] == '+') && AllDigits(s[1..]))
    ensures r.Some? && |s| > 0 && AllDigits(s) ==> r.value == DigitsValue(s)
    ensures r.Some? && s[0] == '-' ==> r.value == -(DigitsValue(s[1..]) as int)
  {
    if |s| > 0 && AllDigits(s) then Some(DigitsValue(s))
    else if |s| > 1 && s[0] == '-' && AllDigits(s[1..]) then Some(-(DigitsValue(s[1..]) as int))
    else if |s| > 1 && s[0] == '+' && AllDigits(s[1..]) then Some(DigitsValue(s[1..]) as int)
    else None
  }

  /** `str(n)` for a natural number: no sign, no leading zeros. */
  function NatToString(n: nat): (s: string)
    ensures |s| > 0 && AllDigits(s)
    ensures |s| > 1 ==> s[0] != '0'
    decreases n
  {
    if n < 10 then [DigitChar(n)] else NatToString(n / 10) + [DigitChar(n % 10)]
  }

  /** Reading back what `str` wrote gives the number again. */
  lemma {:induction false} DigitsValueOfNatToString(n: nat)
    ensures DigitsValue(NatToString(n)) == n
    decreases n
  {
    if n >= 10 {
      var s := NatToString(n);
      DigitsValueOfNatToString(n / 10);
      assert s[..|s| - 1] == NatToString(n / 10);
    }
  }

  lemma ParseIntOfNatToString(n: nat)
    ensures ParseInt(NatToString(n)) == Some(n)
  {
    DigitsValueOfNatToString(n);
  }

  /** Distinct numbers are written differently, so numbered column names never clash. */
  lemma NatToStringInjective(m: nat, n: nat)
    requires m != n
    ensures NatToString(m) != NatToString(n)
  {
    DigitsValueOfNatToString(m);
    DigitsValueOfNatToString(n);
  }

  /** Two-digit zero-padded rendering, as in a "MM:SS" clock. */
  function Pad2(n: nat): (s: string)
    requires n < 100
    ensures |s| == 2 && AllDigits(s)
    ensures DigitsValue(s) == n
  {
    var s := [DigitChar(n / 10), DigitChar(n % 10)];
    assert s[..1] == [DigitChar(n / 10)];
    assert s[..1][..0] == [];
    assert DigitsValue(s[..1]) == n / 10;
    s
  }
}

=== FILE: frames.dfy ===
/** Frame alignment (nfl_frame_builder.py): the next-position shift, per-entity
    series, the ball series cut to the play window, the left join on frame,
    the first/last-row trim, the scouting matchup and the opponent names.

    A play table is the week's tracking rows of one game and play, in file
    order. The ball is the entity with id 0.
 */
module Frames {
  import opened Wrappers
  import opened Digits
  import opened Geometry
  import opened Window

  const BallId: int := 0

  /** One tracking row: `frame` is the 1-based frameId, `accel` the `a` column,
      `dis` the distance covered since the previous frame. */
  datatype TrackRow = TrackRow(game: int, play: int, frame: int, id: int,
                               pos: Vec, accel: real, dis: real, event: string)

  /** `get_play_frames`' selection: the week's rows of one game and play, in order. */
  function PlayRows(week: seq<TrackRow>, game: int, play: int): (r: seq<TrackRow>)
    ensures |r| <= |week|
    ensures forall k :: 0 <= k < |r| ==> r[k].game == game && r[k].play == play
  {
    if |week| == 0 then []
    else (if week[0].game == game && week[0].play == play then [week[0]] else []) + PlayRows(week[1..], game, play)
  }

  /** The selection keeps exactly the rows of the play. */
  lemma {:induction false} PlayRowsMembers(week: seq<TrackRow>, game: int, play: int)
    ensures forall x :: x in PlayRows(week, game, play) <==> x in week && x.game == game && x.play == play
    decreases |week|
  {
    if |week| > 0 {
      PlayRowsMembers(week[1..], game, play);
      assert week == [week[0]] + week[1..];
    }
  }

  /** Selecting over a week in two pieces selects each piece. */
  lemma {:induction false} PlayRowsAppend(a: seq<TrackRow>, b: seq<TrackRow>, game: int, play: int)
    ensures PlayRows(a + b, game, play) == PlayRows(a, game, play) + PlayRows(b, game, play)
    decreases |a|
  {
    if |a| == 0 {
      assert a + b == b;
    } else {
      assert (a + b)[1..] == a[1..] + b;
      PlayRowsAppend(a[1..], b, game, play);
      var head := if a[0].game == game && a[0].play == play then [a[0]] else [];
      AppendAssociative(head, PlayRows(a[1..], game, play), PlayRows(b, game, play));
    }
  }

  /** A tracking row together with the `next_x`/`next_y` that `add_next` gave it. */
  datatype Shifted = Shifted(row: TrackRow, next: Option<Vec>)

  /** `add_next`: the positions shifted one row up over the whole play table;
      the last row has no next position. */
  function AddNext(rows: seq<TrackRow>): (r: seq<Shifted>)
    ensures |r| == |rows|
    ensures forall k :: 0 <= k < |r| ==> r[k].row == rows[k]
    ensures forall k :: 0 <= k < |r| ==> (r[k].next.Some? <==> k + 1 < |rows|)
    ensures forall k :: 0 <= k < |r| - 1 ==> r[k].next.value == rows[k + 1].pos
  {
    seq(|rows|, k requires 0 <= k < |rows| =>
      Shifted(rows[k], if k + 1 < |rows| then Some(rows[k + 1].pos) else None))
  }

  /** The rows of one entity, in order (`play_frames_df[nflId == id]`). */
  function OfEntity(rows: seq<Shifted>, id: int): (r: seq<Shifted>)
    ensures |r| <= |rows|
    ensures forall k :: 0 <= k < |r| ==> r[k].row.id == id
  {
    if |rows| == 0 then []
    else (if rows[0].row.id == id then [rows[0]] else []) + OfEntity(rows[1..], id)
  }

  /** The filter keeps exactly the rows of the entity. */
  lemma {:induction false} OfEntityMembers(rows: seq<Shifted>, id: int)
    ensures forall x :: x in OfEntity(rows, id) <==> x in rows && x.row.id == id
    decreases |rows|
  {
    if |rows| > 0 {
      OfEntityMembers(rows[1..], id);
      assert rows == [rows[0]] + rows[1..];
    }
  }

  /** Row k of the play is the first row of entity id. */
  ghost predicate FirstRowOf(play: seq<TrackRow>, id: int, k: int) {
    0 <= k < |play| && play[k].id == id && forall j :: 0 <= j < k ==> play[j].id != id
  }

  /** The filter starts with the entity's first row. */
  lemma {:induction false} OfEntityHead(rows: seq<Shifted>, id: int)
    requires |OfEntity(rows, id)| > 0
    ensures exists k :: 0 <= k < |rows| && OfEntity(rows, id)[0] == rows[k]
                        && rows[k].row.id == id && forall j :: 0 <= j < k ==> rows[j].row.id != id
    decreases |rows|
  {
    if rows[0].row.id != id {
      OfEntityHead(rows[1..], id);
      var k :| 0 <= k < |rows[1..]| && OfEntity(rows[1..], id)[0] == rows[1..][k]
               && rows[1..][k].row.id == id && forall j :: 0 <= j < k ==> rows[1..][j].row.id != id;
      assert OfEntity(rows, id)[0] == rows[k + 1];
      assert forall j :: 0 <= j < k + 1 ==> rows[j].row.id != id by {
        forall j | 0 <= j < k + 1 ensures rows[j].row.id != id {
          if j > 0 { assert rows[j] == rows[1..][j - 1]; }
        }
      }
    } else {
      assert OfEntity(rows, id)[0] == rows[0];
    }
  }

  /** The first row of an entity's series is its first row in the play. */
  lemma OfEntityFirstRow(play: seq<TrackRow>, id: int)
    requires |OfEntity(AddNext(play), id)| > 0
    ensures exists k :: FirstRowOf(play, id, k) && OfEntity(AddNext(play), id)[0].row == play[k]
  {
    OfEntityHead(AddNext(play), id);
    var k :| 0 <= k < |AddNext(play)| && OfEntity(AddNext(play), id)[0] == AddNext(play)[k]
             && AddNext(play)[k].row.id == id && forall j :: 0 <= j < k ==> AddNext(play)[j].row.id != id;
    assert FirstRowOf(play, id, k);
  }

  /** `df[:-1]`: everything but the last row (nothing for an empty table). */
  function DropLast<T>(s: seq<T>): (r: seq<T>)
    ensures |r| == if |s| == 0 then 0 else |s| - 1
    ensures forall k :: 0 <= k < |r| ==> r[k] == s[k]
  {
    if |s| == 0 then [] else s[..|s| - 1]
  }

  /** A sequence is its three pieces around two cut points. */
  lemma SplitThree<T>(s: seq<T>, i: nat, j: nat)
    requires i <= j <= |s|
    ensures s == (s[..i] + s[i..j]) + s[j..]
  {
  }

  lemma AppendAssociative<T>(a: seq<T>, b: seq<T>, c: seq<T>)
    ensures (a + b) + c == a + (b + c)
  {
  }

  lemma ConsAt<T>(x: T, rest: seq<T>, i: nat)
    requires i <= |rest|
    ensures ([x] + rest)[i] == if i == 0 then x else rest[i - 1]
  {
  }

  /** The rows of entity `id` form one contiguous block [lo, hi) of the play table. */
  ghost predicate Block(rows: seq<TrackRow>, id: int, lo: nat, hi: nat) {
    lo <= hi <= |rows| && forall k :: 0 <= k < |rows| ==> (lo <= k < hi <==> rows[k].id == id)
  }

  lemma {:induction false} OfEntityAppend(a: seq<Shifted>, b: seq<Shifted>, id: int)
    ensures OfEntity(a + b, id) == OfEntity(a, id) + OfEntity(b, id)
    decreases |a|
  {
    if |a| == 0 {
      assert a + b == b;
    } else {
      assert (a + b)[1..] == a[1..] + b;
      OfEntityAppend(a[1..], b, id);
      var head := if a[0].row.id == id then [a[0]] else [];
      AppendAssociative(head, OfEntity(a[1..], id), OfEntity(b, id));
    }
  }

  lemma {:induction false} OfEntityAll(a: seq<Shifted>, id: int)
    requires forall k :: 0 <= k < |a| ==> a[k].row.id == id
    ensures OfEntity(a, id) == a
    decreases |a|
  {
    if |a| > 0 {
      OfEntityAll(a[1..], id);
      assert a == [a[0]] + a[1..];
    }
  }

  lemma {:induction false} OfEntityNone(a: seq<Shifted>, id: int)
    requires forall k :: 0 <= k < |a| ==> a[k].row.id != id
    ensures OfEntity(a, id) == []
    decreases |a|
  {
    if |a| > 0 {
      OfEntityNone(a[1..], id);
    }
  }

  /** Filtering a contiguous block is slicing it. */
  lemma OfEntityBlock(s: seq<Shifted>, id: int, lo: nat, hi: nat)
    requires lo <= hi <= |s|
    requires forall k :: 0 <= k < |s| ==> (lo <= k < hi <==> s[k].row.id == id)
    ensures OfEntity(s, id) == s[lo..hi]
  {
    var pre, mid, post := s[..lo], s[lo..hi], s[hi..];
    SplitThree(s, lo, hi);
    forall k | 0 <= k < |pre|
      ensures pre[k].row.id != id
    {
      assert pre[k] == s[k];
    }
    forall k | 0 <= k < |mid|
      ensures mid[k].row.id == id
    {
      assert mid[k] == s[lo + k];
    }
    forall k | 0 <= k < |post|
      ensures post[k].row.id != id
    {
      assert post[k] == s[hi + k];
    }
    OfEntityThree(pre, mid, post, id);
  }

  /** Rows of other entities, then the entity's own, then others: the filter keeps the middle. */
  lemma OfEntityThree(pre: seq<Shifted>, mid: seq<Shifted>, post: seq<Shifted>, id: int)
    requires forall k :: 0 <= k < |pre| ==> pre[k].row.id != id
    requires forall k :: 0 <= k < |mid| ==> mid[k].row.id == id
    requires forall k :: 0 <= k < |post| ==> post[k].row.id != id
    ensures OfEntity((pre + mid) + post, id) == mid
  {
    OfEntityNone(pre, id);
    OfEntityAll(mid, id);
    OfEntityNone(post, id);
    OfEntityAppend(pre + mid, post, id);
    OfEntityAppend(pre, mid, id);
    assert [] + mid + [] == mid;
  }

  /** Why `get_play_player_frames` drops the last row: when an entity's rows form
      a block, every row but the last carries the entity's own next position,
      while the last one carries the first position of whatever row follows. */
  lemma SeriesNextIsOwn(rows: seq<TrackRow>, id: int, lo: nat, hi: nat)
    requires Block(rows, id, lo, hi)
    ensures var series := OfEntity(AddNext(rows), id);
      && |series| == hi - lo
      && (forall j :: 0 <= j < |series| - 1 ==>
            series[j].row == rows[lo + j] && rows[lo + j + 1].id == id
            && series[j].next == Some(rows[lo + j + 1].pos))
      && (lo < hi < |rows| ==> series[hi - lo - 1].next == Some(rows[hi].pos) && rows[hi].id != id)
      && (lo < hi == |rows| ==> series[hi - lo - 1].next == None)
  {
    var s := AddNext(rows);
    OfEntityBlock(s, id, lo, hi);
  }

  /** A ball frame after `clean_fb_frames`: event, position and next position. */
  datatype BallFrame = BallFrame(frame: int, event: string, pos: Vec, next: Option<Vec>)

  /** A player frame after `clean_player_frames`. */
  datatype EntityFrame = EntityFrame(frame: int, id: int, pos: Vec, next: Option<Vec>, accel: real)

  function ToBall(s: Shifted): BallFrame {
    BallFrame(s.row.frame, s.row.event, s.row.pos, s.next)
  }

  function ToEntity(s: Shifted): EntityFrame {
    EntityFrame(s.row.frame, s.row.id, s.row.pos, s.next, s.row.accel)
  }

  function Events(fs: seq<BallFrame>): (r: seq<string>)
    ensures |r| == |fs| && forall k :: 0 <= k < |fs| ==> r[k] == fs[k].event
  {
    seq(|fs|, k requires 0 <= k < |fs| => fs[k].event)
  }

  /** The ball series the window is searched in: the ball rows with their last row dropped. */
  function BallSeries(play: seq<TrackRow>): (r: seq<BallFrame>)
    ensures |r| == if |OfEntity(AddNext(play), BallId)| == 0 then 0 else |OfEntity(AddNext(play), BallId)| - 1
  {
    var ball := DropLast(OfEntity(AddNext(play), BallId));
    seq(|ball|, k requires 0 <= k < |ball| => ToBall(ball[k]))
  }

  /** `get_play_player_frames`: the entity's rows minus the last, corrupted one. */
  function PlayerFrames(play: seq<TrackRow>, id: int): (r: seq<EntityFrame>)
    ensures forall k :: 0 <= k < |r| ==> r[k].id == id
  {
    var rows := DropLast(OfEntity(AddNext(play), id));
    seq(|rows|, k requires 0 <= k < |rows| => ToEntity(rows[k]))
  }

  /** Ball frames whose frame id lies in [b.snap, b.end], in order. */
  function KeepWindow(fs: seq<BallFrame>, b: Bounds): (r: seq<BallFrame>)
    ensures |r| <= |fs|
    ensures forall k :: 0 <= k < |r| ==> b.snap <= r[k].frame <= b.end
  {
    if |fs| == 0 then []
    else (if b.snap <= fs[0].frame <= b.end then [fs[0]] else []) + KeepWindow(fs[1..], b)
  }

  /** The window filter keeps exactly the frames inside the window. */
  lemma {:induction false} KeepWindowMembers(fs: seq<BallFrame>, b: Bounds)
    ensures forall f :: f in KeepWindow(fs, b) <==> f in fs && b.snap <= f.frame <= b.end
    decreases |fs|
  {
    if |fs| > 0 {
      KeepWindowMembers(fs[1..], b);
      assert fs == [fs[0]] + fs[1..];
    }
  }

  lemma {:induction false} KeepWindowAppend(a: seq<BallFrame>, c: seq<BallFrame>, b: Bounds)
    ensures KeepWindow(a + c, b) == KeepWindow(a, b) + KeepWindow(c, b)
    decreases |a|
  {
    if |a| == 0 {
      assert a + c == c;
    } else {
      assert (a + c)[1..] == a[1..] + c;
      KeepWindowAppend(a[1..], c, b);
      var head := if b.snap <= a[0].frame <= b.end then [a[0]] else [];
      AppendAssociative(head, KeepWindow(a[1..], b), KeepWindow(c, b));
    }
  }

  lemma {:induction false} KeepWindowAll(a: seq<BallFrame>, b: Bounds)
    requires forall k :: 0 <= k < |a| ==> b.snap <= a[k].frame <= b.end
    ensures KeepWindow(a, b) == a
    decreases |a|
  {
    if |a| > 0 {
      KeepWindowAll(a[1..], b);
      assert a == [a[0]] + a[1..];
    }
  }

  lemma {:induction false} KeepWindowNone(a: seq<BallFrame>, b: Bounds)
    requires forall k :: 0 <= k < |a| ==> !(b.snap <= a[k].frame <= b.end)
    ensures KeepWindow(a, b) == []
    decreases |a|
  {
    if |a| > 0 {
      KeepWindowNone(a[1..], b);
    }
  }

  datatype PlayError =
    | NoBallFrames        // `play_fb_frames.x.iloc[0]` on an empty selection
    | WindowNotFound      // unpacking the None of `determine_pertinent_frames`
    | PlayerTypeMismatch  // unpacking the None of `matchup_finder`
    | UnknownMode         // unpacking the None returned for an unknown v_type
    | MissingRusher       // a metric reads pass_rusher columns that are not there
    | UnknownMass         // `players_df[...].weight.iat[0]` on an empty selection

  /** What `get_play_fb_frames` returns. */
  datatype FbFrames = FbFrames(holdTime: real, scrimmage: Vec, frames: seq<BallFrame>)

  /** `get_play_fb_frames`: the snap point is the ball's first position; the window
      is searched with the last ball row dropped; hold time is the window length in
      tenths of a second; the kept frames are those with snap <= frame <= end. */
  function PlayFbFrames(play: seq<TrackRow>): (r: Result<FbFrames, PlayError>)
    ensures r.Failure? && r.error == NoBallFrames <==> forall k :: 0 <= k < |play| ==> play[k].id != BallId
    ensures r.Failure? ==> r.error == NoBallFrames || r.error == WindowNotFound
    ensures r.Failure? && r.error == WindowNotFound <==>
              (exists k :: 0 <= k < |play| && play[k].id == BallId) && PertinentFrames(Events(BallSeries(play))).None?
    ensures r.Success? ==>
              var b := PertinentFrames(Events(BallSeries(play))).value;
              && r.value.holdTime > 0.0
              && r.value.holdTime * 10.0 == (b.end - b.snap) as real
              && (exists k :: FirstRowOf(play, BallId, k) && r.value.scrimmage == play[k].pos)
              && r.value.frames == KeepWindow(BallSeries(play), b)
  {
    var ball := OfEntity(AddNext(play), BallId);
    OfEntityMembers(AddNext(play), BallId);
    if |ball| == 0 then
      assert forall k :: 0 <= k < |play| ==> AddNext(play)[k] in AddNext(play);
      Failure(NoBallFrames)
    else
      assert ball[0] in ball;
      OfEntityFirstRow(play, BallId);
      var series := BallSeries(play);
      var b :- Need(PertinentFrames(Events(series)), WindowNotFound);
      Success(FbFrames((b.end - b.snap) as real / 10.0, ball[0].row.pos, KeepWindow(series, b)))
  }

  /** With frames numbered 1, 2, ... the kept ball frames run exactly from the
      snap frame to the frame of the ending event. */
  lemma FbFramesAreWindow(play: seq<TrackRow>, fb: FbFrames, b: Bounds)
    requires PlayFbFrames(play) == Success(fb)
    requires PertinentFrames(Events(BallSeries(play))) == Some(b)
    requires NumberedFrom(BallSeries(play), 1)
    ensures fb.frames == BallSeries(play)[b.snap - 1..b.end]
    ensures |fb.frames| > 0 && fb.frames[0].event == BallSnap && Terminal(fb.frames[|fb.frames| - 1].event)
  {
    var series := BallSeries(play);
    WindowEnds(Events(series), b);
    assert Events(series)[b.snap - 1] == series[b.snap - 1].event;
    assert Events(series)[b.end - 1] == series[b.end - 1].event;
    WindowFrames(series, b);
  }

  /** The window filter on a numbered series keeps the snap frame, the ending
      frame and everything between them. */
  lemma WindowFrames(series: seq<BallFrame>, b: Bounds)
    requires 1 <= b.snap < b.end <= |series|
    requires series[b.snap - 1].event == BallSnap && Terminal(series[b.end - 1].event)
    requires NumberedFrom(series, 1)
    ensures KeepWindow(series, b) == series[b.snap - 1..b.end]
    ensures |KeepWindow(series, b)| > 0
    ensures KeepWindow(series, b)[0].event == BallSnap
    ensures Terminal(KeepWindow(series, b)[|KeepWindow(series, b)| - 1].event)
  {
    WindowSlice(series, b);
    SliceEnds(series, b.snap - 1, b.end);
  }

  /** A non-empty slice starts at its first index and ends just before its last. */
  lemma SliceEnds<T>(s: seq<T>, i: nat, j: nat)
    requires i < j <= |s|
    ensures |s[i..j]| == j - i
    ensures s[i..j][0] == s[i] && s[i..j][j - i - 1] == s[j - 1]
  {
  }

  /** The kept ball frames are exactly the ball series' frames inside the window. */
  lemma FbFramesMembers(play: seq<TrackRow>)
    requires PlayFbFrames(play).Success?
    ensures var b := PertinentFrames(Events(BallSeries(play))).value;
            forall f :: f in PlayFbFrames(play).value.frames <==> f in BallSeries(play) && b.snap <= f.frame <= b.end
  {
    KeepWindowMembers(BallSeries(play), PertinentFrames(Events(BallSeries(play))).value);
  }

  /** Ball frames numbered start, start + 1, ... in order. */
  predicate NumberedFrom(fs: seq<BallFrame>, start: int) {
    forall k :: 0 <= k < |fs| ==> fs[k].frame == start + k
  }

  lemma NumberedSlice(fs: seq<BallFrame>, start: int, i: nat, j: nat)
    requires NumberedFrom(fs, start) && i <= j <= |fs|
    ensures NumberedFrom(fs[i..j], start + i)
  {
    assert forall k :: 0 <= k < j - i ==> fs[i..j][k] == fs[i + k];
  }

  /** On ball frames numbered 1, 2, ... the window filter is the slice from the
      snap frame to the ending frame. */
  lemma WindowSlice(series: seq<BallFrame>, b: Bounds)
    requires 1 <= b.snap <= b.end <= |series|
    requires NumberedFrom(series, 1)
    ensures KeepWindow(series, b) == series[b.snap - 1..b.end]
  {
    var pre, fs, post := series[..b.snap - 1], series[b.snap - 1..b.end], series[b.end..];
    assert KeepWindow(pre, b) == [] by {
      NumberedSlice(series, 1, 0, b.snap - 1);
      KeepWindowNone(pre, b);
    }
    assert KeepWindow(fs, b) == fs by {
      NumberedSlice(series, 1, b.snap - 1, b.end);
      KeepWindowAll(fs, b);
    }
    assert KeepWindow(post, b) == [] by {
      NumberedSlice(series, 1, b.end, |series|);
      assert post == series[b.end..|series|];
      KeepWindowNone(post, b);
    }
    WindowSliceJoin(pre, fs, post, b);
    SplitThree(series, b.snap - 1, b.end);
  }

  /** Filtering three pieces of which only the middle one survives keeps the middle. */
  lemma WindowSliceJoin(pre: seq<BallFrame>, fs: seq<BallFrame>, post: seq<BallFrame>, b: Bounds)
    requires KeepWindow(pre, b) == [] && KeepWindow(fs, b) == fs && KeepWindow(post, b) == []
    ensures KeepWindow((pre + fs) + post, b) == fs
  {
    KeepWindowAppend(pre, fs, b);
    KeepWindowAppend(pre + fs, post, b);
    assert [] + fs + [] == fs;
  }

  /** A merged analysis row: the ball frame followed by one slot per merged
      entity, named by the column prefix the entity was renamed to. A slot is
      empty where the entity has no row for that frame (NaN columns). */
  datatype Slot = Slot(tag: string, frame: Option<EntityFrame>)
  datatype AnalysisRow = AnalysisRow(ball: BallFrame, slots: seq<Slot>)

  /** The entity frames with a given frame id, in order. */
  function Matches(series: seq<EntityFrame>, frame: int): (r: seq<EntityFrame>)
    ensures |r| <= |series|
    ensures forall k :: 0 <= k < |r| ==> r[k].frame == frame
  {
    if |series| == 0 then []
    else (if series[0].frame == frame then [series[0]] else []) + Matches(series[1..], frame)
  }

  /** The frames a left row can pick up are exactly those with its frame id. */
  lemma {:induction false} MatchesMembers(series: seq<EntityFrame>, frame: int)
    ensures forall e :: e in Matches(series, frame) <==> e in series && e.frame == frame
    decreases |series|
  {
    if |series| > 0 {
      MatchesMembers(series[1..], frame);
      assert series == [series[0]] + series[1..];
    }
  }

  /** The rows one left row produces: one per matching right row, or one with an empty slot. */
  function JoinRow(row: AnalysisRow, tag: string, series: seq<EntityFrame>): (r: seq<AnalysisRow>)
    ensures |r| == if |Matches(series, row.ball.frame)| == 0 then 1 else |Matches(series, row.ball.frame)|
    ensures forall k :: 0 <= k < |r| ==> r[k].ball == row.ball && |r[k].slots| == |row.slots| + 1
  {
    var m := Matches(series, row.ball.frame);
    if |m| == 0 then [AnalysisRow(row.ball, row.slots + [Slot(tag, None)])]
    else seq(|m|, k requires 0 <= k < |m| => AnalysisRow(row.ball, row.slots + [Slot(tag, Some(m[k]))]))
  }

  /** `merge_frames`: `df1.merge(df2, on = 'frame', how = 'left')`. */
  function MergeFrames(table: seq<AnalysisRow>, tag: string, series: seq<EntityFrame>): (r: seq<AnalysisRow>)
    ensures |r| >= |table|
  {
    if |table| == 0 then []
    else JoinRow(table[0], tag, series) + MergeFrames(table[1..], tag, series)
  }

  /** No two frames of a series share a frame id (true of one player's tracking rows). */
  predicate UniqueFrames(series: seq<EntityFrame>) {
    forall i, j :: 0 <= i < j < |series| ==> series[i].frame != series[j].frame
  }

  /** The right-hand value a left row picks up: the frame with its id, if any. */
  function Lookup(series: seq<EntityFrame>, frame: int): (r: Option<EntityFrame>)
    ensures r.Some? ==> r.value in series && r.value.frame == frame
    ensures r.None? <==> forall e :: e in series ==> e.frame != frame
  {
    var m := Matches(series, frame);
    MatchesMembers(series, frame);
    if |m| == 0 then None
    else assert m[0] in m; Some(m[0])
  }

  lemma {:induction false} MatchesNone(series: seq<EntityFrame>, frame: int)
    requires forall k :: 0 <= k < |series| ==> series[k].frame != frame
    ensures Matches(series, frame) == []
    decreases |series|
  {
    if |series| > 0 {
      MatchesNone(series[1..], frame);
    }
  }

  lemma {:induction false} MatchesUnique(series: seq<EntityFrame>, frame: int)
    requires UniqueFrames(series)
    ensures |Matches(series, frame)| <= 1
    decreases |series|
  {
    if |series| > 0 {
      MatchesUnique(series[1..], frame);
      if series[0].frame == frame {
        var rest := series[1..];
        forall k | 0 <= k < |rest|
          ensures rest[k].frame != frame
        {
          assert rest[k] == series[k + 1];
        }
        MatchesNone(rest, frame);
      }
    }
  }

  /** A left row with the right-hand frame of its id appended under `tag`. */
  function Joined(row: AnalysisRow, tag: string, series: seq<EntityFrame>): AnalysisRow {
    AnalysisRow(row.ball, row.slots + [Slot(tag, Lookup(series, row.ball.frame))])
  }

  /** A left row meets at most one right row with its frame id. */
  lemma JoinRowUnique(row: AnalysisRow, tag: string, series: seq<EntityFrame>)
    requires UniqueFrames(series)
    ensures JoinRow(row, tag, series) == [Joined(row, tag, series)]
  {
    MatchesUnique(series, row.ball.frame);
  }

  /** With unique frame ids on the right, the left join keeps every left row, in
      order, and adds exactly the matching frame (or an empty slot). */
  lemma {:induction false} MergeKeepsRows(table: seq<AnalysisRow>, tag: string, series: seq<EntityFrame>)
    requires UniqueFrames(series)
    ensures |MergeFrames(table, tag, series)| == |table|
    ensures forall k :: 0 <= k < |table| ==> MergeFrames(table, tag, series)[k] == Joined(table[k], tag, series)
    decreases |table|
  {
    if |table| > 0 {
      var rest := MergeFrames(table[1..], tag, series);
      JoinRowUnique(table[0], tag, series);
      MergeKeepsRows(table[1..], tag, series);
      assert MergeFrames(table, tag, series) == [Joined(table[0], tag, series)] + rest;
      JoinedCons(table, tag, series, rest);
    }
  }

  /** The joined first row followed by the joined rest is the joined table. */
  lemma JoinedCons(table: seq<AnalysisRow>, tag: string, series: seq<EntityFrame>, rest: seq<AnalysisRow>)
    requires |table| > 0 && |rest| == |table| - 1
    requires forall k :: 0 <= k < |rest| ==> rest[k] == Joined(table[1..][k], tag, series)
    ensures forall k :: 0 <= k < |table| ==>
              ([Joined(table[0], tag, series)] + rest)[k] == Joined(table[k], tag, series)
  {
    forall k | 1 <= k < |table|
      ensures ([Joined(table[0], tag, series)] + rest)[k] == Joined(table[k], tag, series)
    {
      assert table[1..][k - 1] == table[k];
    }
  }

  /** A player's own series never repeats a frame when the play table does not
      repeat (frame, id) pairs. */
  lemma PlayerFramesUnique(play: seq<TrackRow>, id: int)
    requires forall i, j :: 0 <= i < j < |play| && play[i].id == id && play[j].id == id ==> play[i].frame != play[j].frame
    requires exists lo, hi :: Block(play, id, lo, hi)
    ensures UniqueFrames(PlayerFrames(play, id))
  {
    var lo: nat, hi: nat :| Block(play, id, lo, hi);
    var fs := PlayerFrames(play, id);
    PlayerFramesOfBlock(play, id, lo, hi);
    forall i, j | 0 <= i < j < |fs|
      ensures fs[i].frame != fs[j].frame
    {
      assert play[lo + i].id == id && play[lo + j].id == id;
    }
  }

  /** Over a block [lo, hi), the player's series is rows lo .. hi-2 of the play. */
  lemma PlayerFramesOfBlock(play: seq<TrackRow>, id: int, lo: nat, hi: nat)
    requires Block(play, id, lo, hi)
    ensures |PlayerFrames(play, id)| == if lo < hi then hi - lo - 1 else 0
    ensures forall k :: 0 <= k < |PlayerFrames(play, id)| ==>
              lo + k < hi && PlayerFrames(play, id)[k].frame == play[lo + k].frame
  {
    var s := AddNext(play);
    OfEntityBlock(s, id, lo, hi);
    var rows := DropLast(s[lo..hi]);
    var fs := PlayerFrames(play, id);
    assert |fs| == |rows|;
    forall k | 0 <= k < |fs|
      ensures lo + k < hi && fs[k].frame == play[lo + k].frame
    {
      assert fs[k].frame == rows[k].row.frame == s[lo + k].row.frame;
    }
  }

  /** `[1:-1]`: the analysis rows without the first and the last. */
  function TrimEnds<T>(s: seq<T>): (r: seq<T>)
    ensures |r| == if |s| >= 2 then |s| - 2 else 0
    ensures forall k :: 0 <= k < |r| ==> r[k] == s[k + 1]
  {
    if |s| >= 2 then s[1..|s| - 1] else []
  }

  datatype Role = PassRusher | PassBlocker

  function RoleName(role: Role): string {
    match role
    case PassRusher => "pass_rusher"
    case PassBlocker => "pass_blocker"
  }

  /** One row of the pass-block scouting table; `rusherBlocked` is 0 when the
      blocker engaged nobody. */
  datatype BlockRow = BlockRow(game: int, play: int, id: int, rusherBlocked: int)

  /** What `matchup_finder` returns: the analysed player's role, the opponents'
      role (None for the empty string) and the opponent ids. */
  datatype Matchup = Matchup(player: Role, opponent: Option<Role>, opponents: seq<int>)

  function PlayBlocks(blocks: seq<BlockRow>, game: int, play: int): (r: seq<BlockRow>)
    ensures forall x :: x in r <==> x in blocks && x.game == game && x.play == play
  {
    if |blocks| == 0 then []
    else (if blocks[0].game == game && blocks[0].play == play then [blocks[0]] else [])
         + PlayBlocks(blocks[1..], game, play)
  }

  /** The rushers a blocker blocked, one per scouting row of that blocker. */
  function BlockedBy(blocks: seq<BlockRow>, id: int): (r: seq<int>)
    ensures |r| <= |blocks|
    ensures forall x :: x in r <==> exists k :: 0 <= k < |blocks| && blocks[k].id == id && blocks[k].rusherBlocked == x
  {
    if |blocks| == 0 then []
    else
      var rest := BlockedBy(blocks[1..], id);
      assert forall k :: 1 <= k < |blocks| ==> blocks[k] == blocks[1..][k - 1];
      (if blocks[0].id == id then [blocks[0].rusherBlocked] else []) + rest
  }

  /** The blockers that blocked a rusher, one per scouting row naming the rusher. */
  function BlockersOf(blocks: seq<BlockRow>, id: int): (r: seq<int>)
    ensures |r| <= |blocks|
    ensures forall x :: x in r <==> exists k :: 0 <= k < |blocks| && blocks[k].rusherBlocked == id && blocks[k].id == x
  {
    if |blocks| == 0 then []
    else
      var rest := BlockersOf(blocks[1..], id);
      assert forall k :: 1 <= k < |blocks| ==> blocks[k] == blocks[1..][k - 1];
      (if blocks[0].rusherBlocked == id then [blocks[0].id] else []) + rest
  }

  /** The play's scouting rows keep table order: selecting from two runs of rows
      gives the selection from the first followed by that from the second. */
  lemma {:induction false} PlayBlocksAppend(a: seq<BlockRow>, b: seq<BlockRow>, game: int, play: int)
    ensures PlayBlocks(a + b, game, play) == PlayBlocks(a, game, play) + PlayBlocks(b, game, play)
    decreases |a|
  {
    if |a| == 0 {
      assert a + b == b;
    } else {
      assert (a + b)[1..] == a[1..] + b;
      PlayBlocksAppend(a[1..], b, game, play);
      var head := if a[0].game == game && a[0].play == play then [a[0]] else [];
      AppendAssociative(head, PlayBlocks(a[1..], game, play), PlayBlocks(b, game, play));
    }
  }

  /** One scouting row is kept exactly when it belongs to the play. */
  lemma PlayBlocksSingle(x: BlockRow, game: int, play: int)
    ensures PlayBlocks([x], game, play) == if x.game == game && x.play == play then [x] else []
  {
    assert [x][1..] == [];
  }

  /** The blocked rushers follow table order, duplicates included: two runs of
      rows give the first run's list followed by the second's. */
  lemma {:induction false} BlockedByAppend(a: seq<BlockRow>, b: seq<BlockRow>, id: int)
    ensures BlockedBy(a + b, id) == BlockedBy(a, id) + BlockedBy(b, id)
    decreases |a|
  {
    if |a| == 0 {
      assert a + b == b;
    } else {
      assert (a + b)[1..] == a[1..] + b;
      BlockedByAppend(a[1..], b, id);
      var head := if a[0].id == id then [a[0].rusherBlocked] else [];
      AppendAssociative(head, BlockedBy(a[1..], id), BlockedBy(b, id));
    }
  }

  /** One row of the blocker contributes the rusher it blocked; any other row nothing. */
  lemma BlockedBySingle(x: BlockRow, id: int)
    ensures BlockedBy([x], id) == if x.id == id then [x.rusherBlocked] else []
  {
    assert [x][1..] == [];
  }

  /** The blockers of a rusher follow table order, duplicates included. */
  lemma {:induction false} BlockersOfAppend(a: seq<BlockRow>, b: seq<BlockRow>, id: int)
    ensures BlockersOf(a + b, id) == BlockersOf(a, id) + BlockersOf(b, id)
    decreases |a|
  {
    if |a| == 0 {
      assert a + b == b;
    } else {
      assert (a + b)[1..] == a[1..] + b;
      BlockersOfAppend(a[1..], b, id);
      var head := if a[0].rusherBlocked == id then [a[0].id] else [];
      AppendAssociative(head, BlockersOf(a[1..], id), BlockersOf(b, id));
    }
  }

  /** One row naming the rusher contributes its blocker; any other row nothing. */
  lemma BlockersOfSingle(x: BlockRow, id: int)
    ensures BlockersOf([x], id) == if x.rusherBlocked == id then [x.id] else []
  {
    assert [x][1..] == [];
  }

  predicate IsBlockerIn(blocks: seq<BlockRow>, id: int) {
    exists k :: 0 <= k < |blocks| && blocks[k].id == id
  }

  predicate IsBlockedIn(blocks: seq<BlockRow>, id: int) {
    exists k :: 0 <= k < |blocks| && blocks[k].rusherBlocked == id
  }

  /** `matchup_finder`. The blocker check comes first; a role that contradicts
      the scouting data gives None. */
  function MatchupFinder(blocks: seq<BlockRow>, game: int, play: int, id: int, playerType: Role): (r: Option<Matchup>)
    ensures var rows := PlayBlocks(blocks, game, play);
      && (r.None? <==>
            || (IsBlockerIn(rows, id) && playerType == PassRusher)
            || (!IsBlockerIn(rows, id) && IsBlockedIn(rows, id) && playerType == PassBlocker))
      && (r.Some? ==> r.value.player == playerType)
      && (r.Some? && IsBlockerIn(rows, id) ==>
            r.value.opponent == Some(PassRusher)
            && (forall x :: x in r.value.opponents <==>
                  exists k :: 0 <= k < |rows| && rows[k].id == id && rows[k].rusherBlocked == x))
      && (r.Some? && !IsBlockerIn(rows, id) && IsBlockedIn(rows, id) ==>
            r.value.opponent == Some(PassBlocker)
            && (forall x :: x in r.value.opponents <==>
                  exists k :: 0 <= k < |rows| && rows[k].rusherBlocked == id && rows[k].id == x))
      && (!IsBlockerIn(rows, id) && !IsBlockedIn(rows, id) ==> r == Some(Matchup(playerType, None, [])))
    ensures r.Some? && IsBlockerIn(PlayBlocks(blocks, game, play), id) ==>
              r.value.opponents == BlockedBy(PlayBlocks(blocks, game, play), id)
    ensures r.Some? && !IsBlockerIn(PlayBlocks(blocks, game, play), id) && IsBlockedIn(PlayBlocks(blocks, game, play), id) ==>
              r.value.opponents == BlockersOf(PlayBlocks(blocks, game, play), id)
  {
    var rows := PlayBlocks(blocks, game, play);
    if IsBlockerIn(rows, id) then
      if playerType == PassRusher then None
      else Some(Matchup(playerType, Some(PassRusher), BlockedBy(rows, id)))
    else if IsBlockedIn(rows, id) then
      if playerType == PassBlocker then None
      else Some(Matchup(playerType, Some(PassBlocker), BlockersOf(rows, id)))
    else Some(Matchup(playerType, None, []))
  }

  /** The two directions of the scouting table agree: x blocked y exactly when
      y was blocked by x. */
  lemma BlockedBySymmetric(blocks: seq<BlockRow>, blocker: int, rusher: int)
    ensures rusher in BlockedBy(blocks, blocker) <==> blocker in BlockersOf(blocks, rusher)
  {
  }

  /** Column prefix of opponent number k (1-based) out of `count` (`rename_opponents`). */
  function OpponentTag(role: Role, count: nat, k: nat): (r: string)
    ensures count == 1 ==> r == RoleName(role)
    ensures count != 1 ==> |r| > |RoleName(role)| + 1
                           && r[..|RoleName(role)| + 1] == RoleName(role) + "_"
                           && r[|RoleName(role)| + 1..] == NatToString(k)
  {
    if count == 1 then RoleName(role) else RoleName(role) + "_" + NatToString(k)
  }

  /** Numbered opponents get pairwise different column prefixes. */
  lemma OpponentTagsDistinct(role: Role, count: nat, j: nat, k: nat)
    requires count != 1 && j != k
    ensures OpponentTag(role, count, j) != OpponentTag(role, count, k)
  {
    NatToStringInjective(j, k);
  }

  /** The analysis of one player in one play: hold time, snap point and rows. */
  datatype Analysis = Analysis(holdTime: real, scrimmage: Vec, columns: seq<string>, rows: seq<AnalysisRow>)

  /** The ball frames as analysis rows with no entity merged yet. */
  function BallRows(fs: seq<BallFrame>): (r: seq<AnalysisRow>)
    ensures |r| == |fs| && forall k :: 0 <= k < |fs| ==> r[k] == AnalysisRow(fs[k], [])
  {
    seq(|fs|, k requires 0 <= k < |fs| => AnalysisRow(fs[k], []))
  }

  /** The opponents' series, in the order of the scouting rows. */
  function OpponentSeries(play: seq<TrackRow>, opponents: seq<int>): (r: seq<seq<EntityFrame>>)
    ensures |r| == |opponents| && forall i :: 0 <= i < |r| ==> r[i] == PlayerFrames(play, opponents[i])
  {
    seq(|opponents|, i requires 0 <= i < |opponents| => PlayerFrames(play, opponents[i]))
  }

  /** The loop over opponents: opponent i (1-based) of |series| is merged under its tag. */
  function MergeOpponents(table: seq<AnalysisRow>, series: seq<seq<EntityFrame>>, role: Role, done: nat)
    : (r: seq<AnalysisRow>)
    requires done <= |series|
    ensures |r| >= |table|
    decreases |series| - done
  {
    if done == |series| then table
    else
      var merged := MergeFrames(table, OpponentTag(role, |series|, done + 1), series[done]);
      MergeOpponents(merged, series, role, done + 1)
  }

  /** The ball frames left-joined with the player's own frames under its role name. */
  function OwnRows(play: seq<TrackRow>, fs: seq<BallFrame>, id: int, role: Role): (r: seq<AnalysisRow>)
    ensures |r| >= |fs|
  {
    MergeFrames(BallRows(fs), RoleName(role), PlayerFrames(play, id))
  }

  /** The merging half of `create_play_analysis_frames`: the player's frames
      joined to the ball frames, then (PvP only) each opponent's, then the trim. */
  function AnalysisRows(play: seq<TrackRow>, fs: seq<BallFrame>, id: int, m: Matchup, pvp: bool): (r: seq<AnalysisRow>)
    ensures |r| >= (if |fs| >= 2 then |fs| - 2 else 0)
  {
    var own := OwnRows(play, fs, id, m.player);
    var merged :=
      if !pvp || |m.opponents| == 0 || m.opponent.None? then own
      else MergeOpponents(own, OpponentSeries(play, m.opponents), m.opponent.value, 0);
    TrimEnds(merged)
  }

  /** The list f(done+1), ..., f(count). */
  function Numbered<T>(f: nat -> T, count: nat, done: nat): (r: seq<T>)
    requires done <= count
    ensures |r| == count - done
    decreases count - done
  {
    if done == count then [] else [f(done + 1)] + Numbered(f, count, done + 1)
  }

  /** Position i of the list holds f(done+i+1). */
  lemma {:induction false} NumberedAt<T>(f: nat -> T, count: nat, done: nat, i: nat)
    requires done <= count && i < count - done
    ensures Numbered(f, count, done)[i] == f(done + i + 1)
    decreases count - done
  {
    if i > 0 {
      NumberedAt(f, count, done + 1, i - 1);
    }
    ConsAt(f(done + 1), Numbered(f, count, done + 1), i);
  }

  /** Opponent number k's prefix, as a function of k. */
  function OpponentTagOf(role: Role, count: nat): nat -> string {
    (k: nat) => OpponentTag(role, count, k)
  }

  /** The prefixes of opponents done+1, ..., count, in merge order. */
  function OpponentTags(role: Role, count: nat, done: nat): (r: seq<string>)
    requires done <= count
    ensures |r| == count - done
  {
    Numbered(OpponentTagOf(role, count), count, done)
  }

  /** The merge order starts with opponent done+1. */
  lemma OpponentTagsCons(role: Role, count: nat, done: nat)
    requires done < count
    ensures OpponentTags(role, count, done) == [OpponentTag(role, count, done + 1)] + OpponentTags(role, count, done + 1)
  {
    assert OpponentTagOf(role, count)(done + 1) == OpponentTag(role, count, done + 1);
  }

  /** Position i of the list holds the prefix of opponent done+i+1. */
  lemma OpponentTagsAt(role: Role, count: nat, done: nat, i: nat)
    requires done <= count && i < count - done
    ensures OpponentTags(role, count, done)[i] == OpponentTag(role, count, done + i + 1)
  {
    NumberedAt(OpponentTagOf(role, count), count, done, i);
  }

  /** The entity column prefixes of the analysis table, in column order. */
  function Columns(m: Matchup, pvp: bool): (r: seq<string>)
    ensures |r| >= 1 && r[0] == RoleName(m.player)
  {
    [RoleName(m.player)]
      + if !pvp || |m.opponents| == 0 || m.opponent.None? then []
        else OpponentTags(m.opponent.value, |m.opponents|, 0)
  }

  /** The slot tags of a row: its column prefixes. */
  function Tags(row: AnalysisRow): (r: seq<string>)
    ensures |r| == |row.slots| && forall i :: 0 <= i < |r| ==> r[i] == row.slots[i].tag
  {
    seq(|row.slots|, i requires 0 <= i < |row.slots| => row.slots[i].tag)
  }

  /** Every row of a table has the same column prefixes. */
  ghost predicate Layout(rows: seq<AnalysisRow>, tags: seq<string>) {
    forall k :: 0 <= k < |rows| ==> Tags(rows[k]) == tags
  }

  /** Every row's first column is `tag`, filled (if at all) with a frame of entity `id`. */
  ghost predicate Owned(rows: seq<AnalysisRow>, tag: string, id: int) {
    forall k :: 0 <= k < |rows| ==>
      && |rows[k].slots| > 0 && rows[k].slots[0].tag == tag
      && (rows[k].slots[0].frame.Some? ==> rows[k].slots[0].frame.value.id == id)
  }

  /** Each row a left row produces is that row with one more slot under `tag`,
      filled (if at all) from the right series. */
  lemma JoinRowExtends(row: AnalysisRow, tag: string, series: seq<EntityFrame>, k: nat)
    requires k < |JoinRow(row, tag, series)|
    ensures var out := JoinRow(row, tag, series)[k];
      && out.ball == row.ball
      && |out.slots| == |row.slots| + 1
      && out.slots[..|row.slots|] == row.slots
      && out.slots[|row.slots|].tag == tag
      && (out.slots[|row.slots|].frame.Some? ==> out.slots[|row.slots|].frame.value in series)
  {
    var m := Matches(series, row.ball.frame);
    MatchesMembers(series, row.ball.frame);
    if |m| > 0 {
      assert m[k] in m;
    }
  }

  /** The left join adds one column to a uniform table and keeps its first column. */
  lemma {:induction false} MergeShape(table: seq<AnalysisRow>, tag: string, series: seq<EntityFrame>,
                                      tags: seq<string>, owner: string, id: int)
    requires Layout(table, tags)
    ensures Layout(MergeFrames(table, tag, series), tags + [tag])
    ensures Owned(table, owner, id) ==> Owned(MergeFrames(table, tag, series), owner, id)
    decreases |table|
  {
    if |table| > 0 {
      var head := JoinRow(table[0], tag, series);
      var rest := MergeFrames(table[1..], tag, series);
      assert Layout(table[1..], tags) && (Owned(table, owner, id) ==> Owned(table[1..], owner, id)) by {
        forall k | 0 <= k < |table| - 1
          ensures table[1..][k] == table[k + 1]
        {
        }
      }
      MergeShape(table[1..], tag, series, tags, owner, id);
      assert Tags(table[0]) == tags;
      assert Owned(table, owner, id) ==> Owned([table[0]], owner, id);
      JoinRowShape(table[0], tag, series, tags, owner, id);
      ShapeAppend(head, rest, tags + [tag], owner, id);
    }
  }

  /** The rows one left row produces carry its prefixes plus `tag`, and keep its first column. */
  lemma JoinRowShape(row: AnalysisRow, tag: string, series: seq<EntityFrame>, tags: seq<string>, owner: string, id: int)
    requires Tags(row) == tags
    ensures Layout(JoinRow(row, tag, series), tags + [tag])
    ensures Owned([row], owner, id) ==> Owned(JoinRow(row, tag, series), owner, id)
  {
    var head := JoinRow(row, tag, series);
    forall k | 0 <= k < |head|
      ensures Tags(head[k]) == tags + [tag]
      ensures Owned([row], owner, id) ==>
                head[k].slots[0].tag == owner
                && (head[k].slots[0].frame.Some? ==> head[k].slots[0].frame.value.id == id)
    {
      JoinRowExtends(row, tag, series, k);
      assert head[k].slots[..|row.slots|] == row.slots;
      if |row.slots| > 0 {
        assert head[k].slots[0] == head[k].slots[..|row.slots|][0];
      }
      if Owned([row], owner, id) {
        assert [row][0] == row;
      }
    }
  }

  /** Two tables of the same shape stack into one of that shape. */
  lemma ShapeAppend(a: seq<AnalysisRow>, b: seq<AnalysisRow>, tags: seq<string>, owner: string, id: int)
    requires Layout(a, tags) && Layout(b, tags)
    ensures Layout(a + b, tags)
    ensures Owned(a, owner, id) && Owned(b, owner, id) ==> Owned(a + b, owner, id)
  {
    forall k | 0 <= k < |a + b|
      ensures (a + b)[k] == if k < |a| then a[k] else b[k - |a|]
    {
    }
  }

  /** The opponent loop appends the opponents' prefixes and keeps the first column. */
  lemma {:induction false} MergeOpponentsShape(table: seq<AnalysisRow>, series: seq<seq<EntityFrame>>, role: Role,
                                               done: nat, tags: seq<string>, owner: string, id: int)
    requires done <= |series|
    requires Layout(table, tags)
    ensures Layout(MergeOpponents(table, series, role, done), tags + OpponentTags(role, |series|, done))
    ensures Owned(table, owner, id) ==> Owned(MergeOpponents(table, series, role, done), owner, id)
    decreases |series| - done
  {
    if done == |series| {
      assert tags + [] == tags;
    } else {
      var tag := OpponentTag(role, |series|, done + 1);
      MergeShape(table, tag, series[done], tags, owner, id);
      MergeOpponentsShape(MergeFrames(table, tag, series[done]), series, role, done + 1, tags + [tag], owner, id);
      OpponentTagsCons(role, |series|, done);
      AppendAssociative(tags, [tag], OpponentTags(role, |series|, done + 1));
    }
  }

  /** Every analysis row carries the columns of `Columns`, and its first column
      is the analysed player's, filled only with that player's frames. */
  lemma AnalysisRowsShape(play: seq<TrackRow>, fs: seq<BallFrame>, id: int, m: Matchup, pvp: bool)
    ensures Layout(AnalysisRows(play, fs, id, m, pvp), Columns(m, pvp))
    ensures Owned(AnalysisRows(play, fs, id, m, pvp), RoleName(m.player), id)
  {
    var tag := RoleName(m.player);
    var own := OwnRows(play, fs, id, m.player);
    OwnRowsLayout(play, fs, id, m.player);
    var merged :=
      if !pvp || |m.opponents| == 0 || m.opponent.None? then own
      else MergeOpponents(own, OpponentSeries(play, m.opponents), m.opponent.value, 0);
    if !(!pvp || |m.opponents| == 0 || m.opponent.None?) {
      MergeOpponentsShape(own, OpponentSeries(play, m.opponents), m.opponent.value, 0, [tag], tag, id);
    } else {
      assert [tag] + [] == [tag];
    }
    assert Layout(merged, Columns(m, pvp)) && Owned(merged, tag, id);
    TrimShape(merged, Columns(m, pvp), tag, id);
  }

  /** The player's own rows have the one column of the player's role. */
  lemma OwnRowsLayout(play: seq<TrackRow>, fs: seq<BallFrame>, id: int, role: Role)
    ensures Layout(OwnRows(play, fs, id, role), [RoleName(role)])
    ensures Owned(OwnRows(play, fs, id, role), RoleName(role), id)
  {
    var tag := RoleName(role);
    var base := BallRows(fs);
    assert Layout(base, []);
    MergeShape(base, tag, PlayerFrames(play, id), [], tag, id);
    var own := OwnRows(play, fs, id, role);
    assert [] + [tag] == [tag];
    forall k | 0 <= k < |own|
      ensures |own[k].slots| > 0 && own[k].slots[0].tag == tag
      ensures own[k].slots[0].frame.Some? ==> own[k].slots[0].frame.value.id == id
    {
      assert Tags(own[k]) == [tag];
      OwnRowsFirst(play, fs, id, role, k);
    }
  }

  /** Dropping the first and last rows keeps a table's shape. */
  lemma TrimShape(rows: seq<AnalysisRow>, tags: seq<string>, owner: string, id: int)
    requires Layout(rows, tags) && Owned(rows, owner, id)
    ensures Layout(TrimEnds(rows), tags) && Owned(TrimEnds(rows), owner, id)
  {
    var trimmed := TrimEnds(rows);
    forall k | 0 <= k < |trimmed|
      ensures trimmed[k] == rows[k + 1]
    {
    }
  }

  /** The player's own slot only ever holds one of the player's frames. */
  lemma OwnRowsFirst(play: seq<TrackRow>, fs: seq<BallFrame>, id: int, role: Role, k: nat)
    requires k < |OwnRows(play, fs, id, role)|
    requires |OwnRows(play, fs, id, role)[k].slots| > 0
    ensures OwnRows(play, fs, id, role)[k].slots[0].frame.Some? ==> OwnRows(play, fs, id, role)[k].slots[0].frame.value.id == id
  {
    var series := PlayerFrames(play, id);
    assert forall e :: e in series ==> e.id == id;
    OwnRowsFrom(BallRows(fs), RoleName(role), series, id, k);
  }

  /** Merging a right series of one entity into rows without slots fills the new
      first slot only with that entity's frames. */
  lemma {:induction false} OwnRowsFrom(table: seq<AnalysisRow>, tag: string, series: seq<EntityFrame>, id: int, k: nat)
    requires forall j :: 0 <= j < |table| ==> table[j].slots == []
    requires forall e :: e in series ==> e.id == id
    requires k < |MergeFrames(table, tag, series)|
    ensures |MergeFrames(table, tag, series)[k].slots| == 1
    ensures MergeFrames(table, tag, series)[k].slots[0].frame.Some? ==> MergeFrames(table, tag, series)[k].slots[0].frame.value.id == id
    decreases |table|
  {
    var head := JoinRow(table[0], tag, series);
    var rest := MergeFrames(table[1..], tag, series);
    assert MergeFrames(table, tag, series) == head + rest;
    if k < |head| {
      assert MergeFrames(table, tag, series)[k] == head[k];
      assert table[0].slots == [];
      JoinRowExtends(table[0], tag, series, k);
    } else {
      assert MergeFrames(table, tag, series)[k] == rest[k - |head|];
      assert forall j :: 0 <= j < |table| - 1 ==> table[1..][j] == table[j + 1];
      OwnRowsFrom(table[1..], tag, series, id, k - |head|);
    }
  }

  /** `create_play_analysis_frames` with `get_play_frames` folded in: `play` is the
      week's rows of the given game and play, `mode` the v_type string. The
      matchup is looked up before the mode is examined, so a player type that
      contradicts the scouting data fails both modes. */
  function CreatePlayAnalysisFrames(play: seq<TrackRow>, game: int, playId: int, id: int,
                                    blocks: seq<BlockRow>, playerType: Role, mode: string): (r: Result<Analysis, PlayError>)
    ensures r.Success? <==> PlayFbFrames(play).Success? && MatchupFinder(blocks, game, playId, id, playerType).Some?
                            && (mode == "PvB" || mode == "PvP")
    ensures r.Failure? && PlayFbFrames(play).Success? && MatchupFinder(blocks, game, playId, id, playerType).Some?
            ==> r.error == UnknownMode
    ensures r.Success? ==>
              && r.value.holdTime == PlayFbFrames(play).value.holdTime
              && r.value.scrimmage == PlayFbFrames(play).value.scrimmage
              && r.value.columns == Columns(MatchupFinder(blocks, game, playId, id, playerType).value, mode == "PvP")
              && r.value.rows == AnalysisRows(play, PlayFbFrames(play).value.frames, id,
                                              MatchupFinder(blocks, game, playId, id, playerType).value, mode == "PvP")
  {
    var fb :- PlayFbFrames(play);
    var m :- Need(MatchupFinder(blocks, game, playId, id, playerType), PlayerTypeMismatch);
    if mode != "PvB" && mode != "PvP" then Failure(UnknownMode)
    else Success(Analysis(fb.holdTime, fb.scrimmage, Columns(m, mode == "PvP"),
                          AnalysisRows(play, fb.frames, id, m, mode == "PvP")))
  }

  /** The slots opponents done+1, done+2, ... contribute to the row of a frame. */
  function OpponentSlots(series: seq<seq<EntityFrame>>, role: Role, done: nat, frame: int): (r: seq<Slot>)
    requires done <= |series|
    ensures |r| == |series| - done
    decreases |series| - done
  {
    if done == |series| then []
    else [Slot(OpponentTag(role, |series|, done + 1), Lookup(series[done], frame))]
         + OpponentSlots(series, role, done + 1, frame)
  }

  /** With unique frame ids in every opponent series, the opponent loop keeps the rows... */
  lemma {:induction false} MergeOpponentsLength(table: seq<AnalysisRow>, series: seq<seq<EntityFrame>>,
                                                role: Role, done: nat)
    requires done <= |series|
    requires forall j :: done <= j < |series| ==> UniqueFrames(series[j])
    ensures |MergeOpponents(table, series, role, done)| == |table|
    decreases |series| - done
  {
    if done < |series| {
      var tag := OpponentTag(role, |series|, done + 1);
      MergeKeepsRows(table, tag, series[done]);
      MergeOpponentsLength(MergeFrames(table, tag, series[done]), series, role, done + 1);
    }
  }

  /** ...and appends to each row every opponent's frame of the row's id, under its tag. */
  lemma {:induction false} MergeOpponentsRow(table: seq<AnalysisRow>, series: seq<seq<EntityFrame>>,
                                             role: Role, done: nat, k: nat)
    requires done <= |series|
    requires forall j :: done <= j < |series| ==> UniqueFrames(series[j])
    requires k < |table|
    ensures |MergeOpponents(table, series, role, done)| == |table|
    ensures MergeOpponents(table, series, role, done)[k]
         == AnalysisRow(table[k].ball, table[k].slots + OpponentSlots(series, role, done, table[k].ball.frame))
    decreases |series| - done
  {
    var f := table[k].ball.frame;
    if done < |series| {
      var tag := OpponentTag(role, |series|, done + 1);
      var slot := Slot(tag, Lookup(series[done], f));
      var merged := MergeFrames(table, tag, series[done]);
      assert |merged| == |table| && merged[k] == AnalysisRow(table[k].ball, table[k].slots + [slot]) by {
        MergeKeepsRows(table, tag, series[done]);
      }
      MergeOpponentsRow(merged, series, role, done + 1, k);
      AppendAssociative(table[k].slots, [slot], OpponentSlots(series, role, done + 1, f));
    } else {
      assert table[k].slots + [] == table[k].slots;
    }
  }

  /** The ball rows with the player's own slot: one row per ball frame. */
  lemma OwnRowsShape(play: seq<TrackRow>, fs: seq<BallFrame>, id: int, role: Role)
    requires UniqueFrames(PlayerFrames(play, id))
    ensures |OwnRows(play, fs, id, role)| == |fs|
    ensures forall k :: 0 <= k < |fs| ==>
              OwnRows(play, fs, id, role)[k] == AnalysisRow(fs[k], [Slot(RoleName(role), Lookup(PlayerFrames(play, id), fs[k].frame))])
  {
    MergeKeepsRows(BallRows(fs), RoleName(role), PlayerFrames(play, id));
  }

  /** PvB rows: each kept ball frame (after the trim) with the player's frame of
      the same id, or an empty slot. */
  lemma PvBRows(play: seq<TrackRow>, fs: seq<BallFrame>, id: int, m: Matchup)
    requires UniqueFrames(PlayerFrames(play, id))
    ensures var rows := AnalysisRows(play, fs, id, m, false);
      && |rows| == (if |fs| >= 2 then |fs| - 2 else 0)
      && forall k :: 0 <= k < |rows| ==>
           rows[k] == AnalysisRow(fs[k + 1], [Slot(RoleName(m.player), Lookup(PlayerFrames(play, id), fs[k + 1].frame))])
  {
    var own := OwnRows(play, fs, id, m.player);
    OwnRowsShape(play, fs, id, m.player);
    assert AnalysisRows(play, fs, id, m, false) == TrimEnds(own);
  }

  /** PvP rows: the player's slot followed by one slot per opponent, tagged
      with the role name alone for a single opponent and numbered otherwise. */
  lemma PvPRows(play: seq<TrackRow>, fs: seq<BallFrame>, id: int, m: Matchup)
    requires UniqueFrames(PlayerFrames(play, id))
    requires m.opponent.Some?
    requires forall j :: 0 <= j < |m.opponents| ==> UniqueFrames(PlayerFrames(play, m.opponents[j]))
    ensures var rows := AnalysisRows(play, fs, id, m, true);
      && |rows| == (if |fs| >= 2 then |fs| - 2 else 0)
      && forall k :: 0 <= k < |rows| ==>
           rows[k] == AnalysisRow(fs[k + 1],
                        [Slot(RoleName(m.player), Lookup(PlayerFrames(play, id), fs[k + 1].frame))]
                        + OpponentSlots(OpponentSeries(play, m.opponents), m.opponent.value, 0, fs[k + 1].frame))
  {
    var own := OwnRows(play, fs, id, m.player);
    var series := OpponentSeries(play, m.opponents);
    var merged := MergeOpponents(own, series, m.opponent.value, 0);
    var rows := AnalysisRows(play, fs, id, m, true);
    assert rows == TrimEnds(merged);
    OwnRowsShape(play, fs, id, m.player);
    MergeOpponentsLength(own, series, m.opponent.value, 0);
    forall k | 0 <= k < |rows|
      ensures rows[k] == AnalysisRow(fs[k + 1],
                           [Slot(RoleName(m.player), Lookup(PlayerFrames(play, id), fs[k + 1].frame))]
                           + OpponentSlots(series, m.opponent.value, 0, fs[k + 1].frame))
    {
      PvPMergedRow(play, fs, id, m, k + 1);
    }
  }

  /** Row k of the PvP table before the trim. */
  lemma PvPMergedRow(play: seq<TrackRow>, fs: seq<BallFrame>, id: int, m: Matchup, k: nat)
    requires UniqueFrames(PlayerFrames(play, id))
    requires m.opponent.Some?
    requires forall j :: 0 <= j < |m.opponents| ==> UniqueFrames(PlayerFrames(play, m.opponents[j]))
    requires k < |fs|
    ensures var merged := MergeOpponents(OwnRows(play, fs, id, m.player), OpponentSeries(play, m.opponents), m.opponent.value, 0);
      && k < |merged|
      && merged[k] == AnalysisRow(fs[k],
                        [Slot(RoleName(m.player), Lookup(PlayerFrames(play, id), fs[k].frame))]
                        + OpponentSlots(OpponentSeries(play, m.opponents), m.opponent.value, 0, fs[k].frame))
  {
    var own := OwnRows(play, fs, id, m.player);
    OwnRowsShape(play, fs, id, m.player);
    assert own[k] == AnalysisRow(fs[k], [Slot(RoleName(m.player), Lookup(PlayerFrames(play, id), fs[k].frame))]);
    MergeOpponentsRow(own, OpponentSeries(play, m.opponents), m.opponent.value, 0, k);
  }

  /** PvP for a player nobody was matched with is PvB. */
  lemma PvPWithoutOpponents(play: seq<TrackRow>, game: int, playId: int, id: int, blocks: seq<BlockRow>, playerType: Role)
    requires MatchupFinder(blocks, game, playId, id, playerType).Some?
    requires MatchupFinder(blocks, game, playId, id, playerType).value.opponents == []
    ensures CreatePlayAnalysisFrames(play, game, playId, id, blocks, playerType, "PvP")
         == CreatePlayAnalysisFrames(play, game, playId, id, blocks, playerType, "PvB")
  {
  }
}

=== FILE: geometry.dfy ===
/** Plane vectors over the reals and the geometry the metric composer uses
    (nfl_build_metrics.py support functions): displacements, euclidean distance,
    vector projection (`component`) and cosine alignment (`1 - cosine distance`).

    Magnitudes need a square root. The model takes it as a parameter `root`
    constrained by `IsRoot`; `RootUnique` shows that every such function agrees
    with the square root on the non-negative reals, so nothing is lost.
 */
module Geometry {
  import opened RealArith

  datatype Vec = Vec(x: real, y: real)

  const Zero: Vec := Vec(0.0, 0.0)

  function Add(a: Vec, b: Vec): Vec {
    Vec(a.x + b.x, a.y + b.y)
  }

  /** Component-wise `a - b`. */
  function Sub(a: Vec, b: Vec): Vec {
    Vec(a.x - b.x, a.y - b.y)
  }

  function Neg(v: Vec): Vec {
    Vec(-v.x, -v.y)
  }

  function Scale(k: real, v: Vec): Vec {
    Vec(k * v.x, k * v.y)
  }

  function Dot(a: Vec, b: Vec): real {
    a.x * b.x + a.y * b.y
  }

  /** z-component of the cross product; zero exactly when the vectors are parallel. */
  function Cross(a: Vec, b: Vec): real {
    a.x * b.y - a.y * b.x
  }

  function NormSq(v: Vec): real {
    Dot(v, v)
  }

  /** The vector that carries `from` onto `to`: a movement vector when the two are
      one entity's current and next position, a relative vector otherwise. */
  function Displacement(from: Vec, to: Vec): (d: Vec)
    ensures Add(from, d) == to
  {
    Sub(to, from)
  }

  lemma NormSqNonNegative(v: Vec)
    ensures NormSq(v) >= 0.0
    ensures NormSq(v) == 0.0 <==> v == Zero
  {
    SquareSign(v.x);
    SquareSign(v.y);
    if NormSq(v) == 0.0 {
      SquareZero(v.x);
      SquareZero(v.y);
    }
  }

  /** `root` is a square root on the non-negative reals. */
  ghost predicate IsRoot(root: real -> real) {
    forall x: real {:trigger root(x)} :: 0.0 <= x ==> 0.0 <= root(x) && root(x) * root(x) == x
  }

  /** Any two functions satisfying IsRoot agree wherever a square root exists. */
  lemma RootUnique(root1: real -> real, root2: real -> real, x: real)
    requires IsRoot(root1) && IsRoot(root2) && x >= 0.0
    ensures root1(x) == root2(x)
  {
    SquareInjective(root1(x), root2(x));
  }

  lemma RootOf(root: real -> real, s: real)
    requires IsRoot(root) && s >= 0.0
    ensures root(s) >= 0.0 && root(s) * root(s) == s
    ensures root(s) == 0.0 <==> s == 0.0
  {
    if s == 0.0 {
      SquareZero(root(s));
    }
  }

  /** `np.linalg.norm` of a 2-vector. */
  function Norm(root: real -> real, v: Vec): real {
    root(NormSq(v))
  }

  lemma NormFacts(root: real -> real, v: Vec)
    requires IsRoot(root)
    ensures Norm(root, v) >= 0.0
    ensures Norm(root, v) * Norm(root, v) == NormSq(v)
    ensures Norm(root, v) == 0.0 <==> v == Zero
  {
    NormSqNonNegative(v);
    RootOf(root, NormSq(v));
  }

  /** |k v| = |k| |v|. */
  lemma NormScale(root: real -> real, k: real, v: Vec)
    requires IsRoot(root)
    ensures Norm(root, Scale(k, v)) == Abs(k) * Norm(root, v)
  {
    NormFacts(root, v);
    NormFacts(root, Scale(k, v));
    var n := Norm(root, v);
    var ak := Abs(k);
    assert NormSq(Scale(k, v)) == (k * k) * NormSq(v);
    assert ak * ak == k * k;
    assert (ak * n) * (ak * n) == (ak * ak) * (n * n);
    ProductNonNegative(ak, n);
    SquareInjective(Norm(root, Scale(k, v)), ak * n);
  }

  /** `euclidean_distance(x1, y1, x2, y2)`: straight-line distance between two
      points, the non-negative root of the summed squared coordinate gaps. */
  function Distance(root: real -> real, p: Vec, q: Vec): (r: real)
    requires IsRoot(root)
    ensures r >= 0.0 && r * r == (q.x - p.x) * (q.x - p.x) + (q.y - p.y) * (q.y - p.y)
  {
    NormFacts(root, Sub(q, p));
    Norm(root, Sub(q, p))
  }

  lemma DistanceFacts(root: real -> real, p: Vec, q: Vec)
    requires IsRoot(root)
    ensures Distance(root, p, q) >= 0.0
    ensures Distance(root, p, q) == 0.0 <==> p == q
    ensures Distance(root, p, q) == Distance(root, q, p)
  {
    NormFacts(root, Sub(q, p));
    assert NormSq(Sub(q, p)) == NormSq(Sub(p, q));
  }

  /** `component(v, onto)`: the projection of `v` on the line of `onto`,
      (v . onto / |onto|^2) onto. Undefined (NaN in the source) for a zero `onto`. */
  function Component(v: Vec, onto: Vec): (c: Vec)
    requires onto != Zero
    ensures Cross(c, onto) == 0.0
    ensures Dot(Sub(v, c), onto) == 0.0
    ensures Dot(c, onto) == Dot(v, onto)
  {
    NormSqNonNegative(onto);
    var k := Dot(v, onto) / NormSq(onto);
    assert k * NormSq(onto) == Dot(v, onto);
    Scale(k, onto)
  }

  /** The projection is a scalar multiple of the target vector. */
  lemma ComponentIsMultiple(v: Vec, onto: Vec)
    requires onto != Zero
    ensures exists k: real :: Component(v, onto) == Scale(k, onto)
  {
    NormSqNonNegative(onto);
    var k := Dot(v, onto) / NormSq(onto);
    assert Component(v, onto) == Scale(k, onto);
  }

  /** Projecting twice changes nothing, and a vector already on the line is kept. */
  lemma ComponentIdempotent(v: Vec, onto: Vec)
    requires onto != Zero
    ensures Component(Component(v, onto), onto) == Component(v, onto)
    ensures Component(onto, onto) == onto
  {
    NormSqNonNegative(onto);
    assert NormSq(onto) / NormSq(onto) == 1.0;
  }

  /** Lagrange's identity in the plane. */
  lemma Lagrange(a: Vec, b: Vec)
    ensures NormSq(a) * NormSq(b) == Dot(a, b) * Dot(a, b) + Cross(a, b) * Cross(a, b)
  {
  }

  /** |a . b| <= |a| |b|. */
  lemma CauchySchwarz(root: real -> real, a: Vec, b: Vec)
    requires IsRoot(root)
    ensures -(Norm(root, a) * Norm(root, b)) <= Dot(a, b) <= Norm(root, a) * Norm(root, b)
  {
    NormFacts(root, a);
    NormFacts(root, b);
    var ra, rb := Norm(root, a), Norm(root, b);
    var n := ra * rb;
    ProductNonNegative(ra, rb);
    assert n * n == (ra * ra) * (rb * rb);
    Lagrange(a, b);
    SquareSign(Cross(a, b));
    SquareBound(Dot(a, b), n);
  }

  /** `1 - scipy.spatial.distance.cosine(a, b)`: the cosine of the angle between
      two non-zero vectors (NaN in the source when either is zero). */
  function Cosine(root: real -> real, a: Vec, b: Vec): (c: real)
    requires IsRoot(root) && a != Zero && b != Zero
    ensures -1.0 <= c <= 1.0
    ensures c * (Norm(root, a) * Norm(root, b)) == Dot(a, b)
    ensures c == 0.0 <==> Dot(a, b) == 0.0
    ensures c > 0.0 <==> Dot(a, b) > 0.0
  {
    NormFacts(root, a);
    NormFacts(root, b);
    CauchySchwarz(root, a, b);
    ProductPositive(Norm(root, a), Norm(root, b));
    RatioBounds(Dot(a, b), Norm(root, a) * Norm(root, b));
    Dot(a, b) / (Norm(root, a) * Norm(root, b))
  }

  lemma CosineSymmetric(root: real -> real, a: Vec, b: Vec)
    requires IsRoot(root) && a != Zero && b != Zero
    ensures Cosine(root, a, b) == Cosine(root, b, a)
  {
    assert Dot(a, b) == Dot(b, a);
    assert Norm(root, a) * Norm(root, b) == Norm(root, b) * Norm(root, a);
  }

  lemma DotScale(k: real, a: Vec, b: Vec)
    ensures Dot(Scale(k, a), b) == k * Dot(a, b)
  {
  }

  /** A non-zero multiple of a non-zero vector is non-zero, with norm |k| times as large. */
  lemma ScaleNonZero(root: real -> real, k: real, a: Vec)
    requires IsRoot(root) && a != Zero && k != 0.0
    ensures Scale(k, a) != Zero
    ensures Norm(root, Scale(k, a)) == Abs(k) * Norm(root, a)
  {
    if a.x != 0.0 {
      ProductSign(k, a.x);
      assert Scale(k, a).x != 0.0;
    } else {
      ProductSign(k, a.y);
      assert Scale(k, a).y != 0.0;
    }
    NormScale(root, k, a);
  }

  /** Scaling one argument by k keeps the cosine when k > 0 and flips its sign when k < 0. */
  lemma CosineScale(root: real -> real, k: real, a: Vec, b: Vec)
    requires IsRoot(root) && a != Zero && b != Zero && k != 0.0
    ensures Scale(k, a) != Zero
    ensures Cosine(root, Scale(k, a), b) == (if k > 0.0 then Cosine(root, a, b) else -Cosine(root, a, b))
  {
    ScaleNonZero(root, k, a);
    NormFacts(root, a);
    NormFacts(root, b);
    DotScale(k, a, b);
    ScaledFactor(Cosine(root, Scale(k, a), b), Cosine(root, a, b), k,
                 Norm(root, a), Norm(root, Scale(k, a)), Norm(root, b),
                 Dot(a, b), Dot(Scale(k, a), b));
  }

  /** A non-zero vector is perfectly aligned with itself and opposed to its negation. */
  lemma CosineSelfAndOpposite(root: real -> real, v: Vec)
    requires IsRoot(root) && v != Zero
    ensures Neg(v) != Zero
    ensures Cosine(root, v, v) == 1.0
    ensures Cosine(root, v, Neg(v)) == -1.0
  {
    NormFacts(root, v);
    UnitFactor(Cosine(root, v, v), Norm(root, v), Norm(root, v), Dot(v, v));
    assert Neg(v) == Scale(-1.0, v);
    CosineScale(root, -1.0, v, v);
    CosineSymmetric(root, Neg(v), v);
  }

  /** Same-direction parallel vectors have alignment 1. */
  lemma CosineParallel(root: real -> real, v: Vec, k: real)
    requires IsRoot(root) && v != Zero && k > 0.0
    ensures Scale(k, v) != Zero
    ensures Cosine(root, v, Scale(k, v)) == 1.0
  {
    CosineSelfAndOpposite(root, v);
    CosineScale(root, k, v, v);
    CosineSymmetric(root, Scale(k, v), v);
  }

  /** `reorientate_coord`: a coordinate measured from a new origin. */
  function Reorient(origin: real, coord: real): (r: real)
    ensures r + origin == coord
  {
    coord - origin
  }

  /** Both coordinates of a point measured from `origin`. */
  function Recenter(origin: Vec, p: Vec): (r: Vec)
    ensures Add(r, origin) == p
  {
    Vec(Reorient(origin.x, p.x), Reorient(origin.y, p.y))
  }

  /** Displacements do not depend on where the origin is. */
  lemma DisplacementRecentered(origin: Vec, p: Vec, q: Vec)
    ensures Displacement(Recenter(origin, p), Recenter(origin, q)) == Displacement(p, q)
  {
  }
}

=== FILE: legacy.dfy ===
/** The first version of the pipeline (nfl_functions.py): the ball window
    searched over every ball row, a left merge of the ball with one rusher's
    raw rows, and two play-level means — the pursuit angle and `test_factor_a`
    — taken after the first and last rows are dropped.
 */
module Legacy {
  import opened Wrappers
  import opened Geometry
  import opened Window
  import opened Frames
  import opened Metrics
  import Stats

  /** The ball rows of the play in order (`play_frames_df[nflId == 0]`): the
      same selection as the frame builder's, but without a shifted position and
      with the last row kept. */
  function LegacySeries(play: seq<TrackRow>): (r: seq<BallFrame>)
    ensures |r| == |OfEntity(AddNext(play), BallId)|
  {
    var ball := OfEntity(AddNext(play), BallId);
    seq(|ball|, k requires 0 <= k < |ball| => BallFrame(ball[k].row.frame, ball[k].row.event, ball[k].row.pos, None))
  }

  /** Why `play_fb_frames` raises: `iloc[0]` of no ball rows, or unpacking
      the `None` of a play without a window. */
  datatype LegacyError = NoBallRows | NoWindow

  /** The line of scrimmage (the ball's first x) and the kept ball frames. */
  datatype LegacyFb = LegacyFb(scrimmageX: real, frames: seq<BallFrame>)

  /** `play_fb_frames`: the window is searched over all ball rows and the
      frames with snap <= frame <= end are kept. */
  function LegacyFbFrames(play: seq<TrackRow>): (r: Result<LegacyFb, LegacyError>)
    ensures r.Failure? && r.error == NoBallRows <==> |LegacySeries(play)| == 0
    ensures r.Success? <==> PertinentFrames(Events(LegacySeries(play))).Some?
    ensures r.Success? ==>
              var b := PertinentFrames(Events(LegacySeries(play))).value;
              && (exists k :: FirstRowOf(play, BallId, k) && r.value.scrimmageX == play[k].pos.x)
              && forall f :: f in r.value.frames <==> f in LegacySeries(play) && b.snap <= f.frame <= b.end
  {
    var series := LegacySeries(play);
    if |series| == 0 then Failure(NoBallRows)
    else
      var b :- Need(PertinentFrames(Events(series)), NoWindow);
      KeepWindowMembers(series, b);
      FirstBallRow(play);
      Success(LegacyFb(series[0].pos.x, KeepWindow(series, b)))
  }

  /** The first legacy ball frame is the play's first ball row. */
  lemma FirstBallRow(play: seq<TrackRow>)
    requires |LegacySeries(play)| > 0
    ensures exists k :: FirstRowOf(play, BallId, k) && LegacySeries(play)[0].pos == play[k].pos
  {
    OfEntityFirstRow(play, BallId);
  }

  /** The frame builder's event list is the legacy one without its last label. */
  lemma SeriesEventsDropLast(play: seq<TrackRow>)
    ensures |LegacySeries(play)| == 0 ==> Events(BallSeries(play)) == []
    ensures |LegacySeries(play)| > 0 ==>
              Events(BallSeries(play)) == Events(LegacySeries(play))[..|LegacySeries(play)| - 1]
  {
    var modern := Events(BallSeries(play));
    var legacy := Events(LegacySeries(play));
    if |legacy| > 0 {
      forall k | 0 <= k < |modern|
        ensures modern[k] == legacy[k]
      {
      }
    }
  }

  /** Searching all ball rows finds every window the frame builder finds, and
      the two differ only when the window ends on the very last ball row. */
  lemma LegacyWindowAgrees(play: seq<TrackRow>)
    ensures PertinentFrames(Events(BallSeries(play))).Some? ==>
              PertinentFrames(Events(LegacySeries(play))) == PertinentFrames(Events(BallSeries(play)))
    ensures var lb := PertinentFrames(Events(LegacySeries(play)));
              lb.Some? && lb.value.end < |LegacySeries(play)| ==> PertinentFrames(Events(BallSeries(play))) == lb
  {
    SeriesEventsDropLast(play);
    var legacy := Events(LegacySeries(play));
    if |legacy| > 0 {
      WindowDropLast(legacy);
    }
  }

  /** A pass on the row after the snap, with nothing after it: the legacy
      search finds the window, the frame builder (which drops that row) does not. */
  lemma ExampleLastRowEnds()
    ensures PertinentFrames(["ball_snap", "pass_forward"]) == Some(Bounds(1, 2))
    ensures PertinentFrames(["ball_snap", "pass_forward"][..1]) == None
  {
    assert ["ball_snap", "pass_forward"][..1] == ["ball_snap"];
  }

  /** One row of `create_pass_rusher_analysis_frames`: a kept ball frame and the
      rusher's raw row at that frame, missing when the rusher has none. */
  datatype LegacyRow = LegacyRow(ball: BallFrame, rusher: Option<TrackRow>)

  /** `play_frames[play_frames.nflId == pass_rusher]`: exactly the rusher's rows, in order. */
  function RusherRows(play: seq<TrackRow>, id: int): (r: seq<TrackRow>)
    ensures |r| <= |play|
    ensures forall k :: 0 <= k < |r| ==> r[k].id == id
    ensures forall x :: x in r <==> x in play && x.id == id
  {
    if |play| == 0 then []
    else
      assert play == [play[0]] + play[1..];
      (if play[0].id == id then [play[0]] else []) + RusherRows(play[1..], id)
  }

  /** The right-hand rows that match a ball frame on `frame`. */
  function RowsAt(rows: seq<TrackRow>, frame: int): (r: seq<TrackRow>)
    ensures |r| <= |rows|
    ensures forall k :: 0 <= k < |r| ==> r[k].frame == frame
    ensures (forall k :: 0 <= k < |rows| ==> rows[k].frame != frame) ==> r == []
  {
    if |rows| == 0 then []
    else (if rows[0].frame == frame then [rows[0]] else []) + RowsAt(rows[1..], frame)
  }

  lemma {:induction false} RowsAtMembers(rows: seq<TrackRow>, frame: int)
    ensures forall x :: x in RowsAt(rows, frame) <==> x in rows && x.frame == frame
    decreases |rows|
  {
    if |rows| > 0 {
      RowsAtMembers(rows[1..], frame);
      assert rows == [rows[0]] + rows[1..];
    }
  }

  /** Frame numbers identify the rows. */
  predicate DistinctFrames(rows: seq<TrackRow>) {
    forall i, j :: 0 <= i < j < |rows| ==> rows[i].frame != rows[j].frame
  }

  /** With distinct frame numbers, at most one row matches a frame. */
  lemma {:induction false} RowsAtUnique(rows: seq<TrackRow>, frame: int)
    requires DistinctFrames(rows)
    ensures |RowsAt(rows, frame)| <= 1
    decreases |rows|
  {
    if |rows| > 0 {
      assert DistinctFrames(rows[1..]) by {
        forall i, j | 0 <= i < j < |rows| - 1
          ensures rows[1..][i].frame != rows[1..][j].frame
        {
          assert rows[1..][i] == rows[i + 1] && rows[1..][j] == rows[j + 1];
        }
      }
      RowsAtUnique(rows[1..], frame);
      if rows[0].frame == frame {
        assert forall j :: 0 <= j < |rows| - 1 ==> rows[1..][j].frame != frame by {
          forall j | 0 <= j < |rows| - 1
            ensures rows[1..][j].frame != frame
          {
            assert rows[1..][j] == rows[j + 1];
          }
        }
      }
    }
  }

  /** The left-merge rows one ball frame produces: one per matching rusher row,
      or one with the rusher missing. */
  function LegacyJoinRow(f: BallFrame, rows: seq<TrackRow>): (r: seq<LegacyRow>)
    ensures |r| >= 1
    ensures forall k :: 0 <= k < |r| ==> r[k].ball == f
  {
    var ms := RowsAt(rows, f.frame);
    if |ms| == 0 then [LegacyRow(f, None)]
    else seq(|ms|, k requires 0 <= k < |ms| => LegacyRow(f, Some(ms[k])))
  }

  /** `create_pass_rusher_analysis_frames`: the ball frames merged on `frame`
      with the rusher's rows, `how = 'left'`. */
  function LegacyJoin(fs: seq<BallFrame>, rows: seq<TrackRow>): (r: seq<LegacyRow>)
    ensures |r| >= |fs|
  {
    if |fs| == 0 then [] else LegacyJoinRow(fs[0], rows) + LegacyJoin(fs[1..], rows)
  }

  /** When the rusher's frame numbers are distinct the merge keeps one row per
      ball frame, in order, holding the rusher's row at that frame when there is one. */
  lemma {:induction false} LegacyJoinUnique(fs: seq<BallFrame>, rows: seq<TrackRow>)
    requires DistinctFrames(rows)
    ensures |LegacyJoin(fs, rows)| == |fs|
    ensures forall k :: 0 <= k < |fs| ==>
              var out := LegacyJoin(fs, rows)[k];
              && out.ball == fs[k]
              && (out.rusher.Some? <==> exists j :: 0 <= j < |rows| && rows[j].frame == fs[k].frame)
              && (out.rusher.Some? ==> out.rusher.value in rows && out.rusher.value.frame == fs[k].frame)
    decreases |fs|
  {
    if |fs| > 0 {
      LegacyJoinUnique(fs[1..], rows);
      var head := LegacyJoinRow(fs[0], rows);
      RowsAtUnique(rows, fs[0].frame);
      RowsAtMembers(rows, fs[0].frame);
      var out := LegacyJoin(fs, rows);
      assert |head| == 1;
      forall k | 0 <= k < |fs|
        ensures out[k].ball == fs[k]
        ensures out[k].rusher.Some? <==> exists j :: 0 <= j < |rows| && rows[j].frame == fs[k].frame
        ensures out[k].rusher.Some? ==> out[k].rusher.value in rows && out[k].rusher.value.frame == fs[k].frame
      {
        if k == 0 {
          assert out[0] == head[0];
          if exists j :: 0 <= j < |rows| && rows[j].frame == fs[0].frame {
            var j :| 0 <= j < |rows| && rows[j].frame == fs[0].frame;
            assert rows[j] in RowsAt(rows, fs[0].frame);
          }
        } else {
          assert out[k] == LegacyJoin(fs[1..], rows)[k - 1];
          assert fs[1..][k - 1] == fs[k];
        }
      }
    }
  }

  /** The rusher's position in a merged row, missing when the merge found no row. */
  function RusherPos(row: LegacyRow): (r: Option<Vec>)
    ensures r.Some? <==> row.rusher.Some?
  {
    if row.rusher.Some? then Some(row.rusher.value.pos) else None
  }

  /** The `distance` column: rusher to ball, missing without a rusher row. */
  function Distances(root: real -> real, rows: seq<LegacyRow>): (r: seq<Option<real>>)
    requires IsRoot(root)
    ensures |r| == |rows|
    ensures forall k :: 0 <= k < |rows| ==>
              (r[k].Some? <==> rows[k].rusher.Some?)
              && (r[k].Some? ==> r[k].value >= 0.0
                                 && r[k].value * r[k].value == NormSq(Sub(rows[k].rusher.value.pos, rows[k].ball.pos)))
  {
    seq(|rows|, k requires 0 <= k < |rows| => Magnitude(root, Between(Some(rows[k].ball.pos), RusherPos(rows[k]))))
  }

  /** `Series.diff()`: each cell minus the one before; the first cell, and any
      cell next to a missing one, is missing. */
  function Diff(ds: seq<Option<real>>): (r: seq<Option<real>>)
    ensures |r| == |ds|
    ensures |r| > 0 ==> r[0].None?
  {
    seq(|ds|, k requires 0 <= k < |ds| =>
      if k > 0 && ds[k].Some? && ds[k - 1].Some? then Some(ds[k].value - ds[k - 1].value) else None)
  }

  /** The differences of a fully defined column add up to its last cell minus
      its first: the changes in distance total the net approach over the play. */
  lemma {:induction false} DiffTelescopes(ds: seq<Option<real>>)
    requires |ds| > 0 && forall k :: 0 <= k < |ds| ==> ds[k].Some?
    ensures Stats.Sum(Diff(ds)) == ds[|ds| - 1].value - ds[0].value
    decreases |ds|
  {
    var n := |ds|;
    if n == 1 {
      assert Stats.Present(Diff(ds)) == [];
    } else {
      var front := ds[..n - 1];
      DiffTelescopes(front);
      var last := Some(ds[n - 1].value - ds[n - 2].value);
      assert front[n - 2] == ds[n - 2] && front[0] == ds[0];
      assert Diff(ds) == Diff(front) + [last];
      Stats.SumAppend(Diff(front), [last]);
      assert Stats.Present([last]) == [last.value] by {
        assert [last][1..] == [];
      }
      assert Stats.Total([last.value]) == last.value by {
        assert [last.value][1..] == [];
      }
    }
  }

  /** A `pursuit_angle` cell: the `[0, 0]` placeholder the column starts with,
      or the cosine computed for a later row (missing for a zero or missing vector). */
  datatype Angle = Placeholder | Cos(value: Option<real>)

  /** One cell of `find_pursuit_angle`: the placeholder for the first row;
      for a later row, the cosine between the rusher's move since the previous
      row and the line from the rusher's previous position to the ball. */
  function AngleAt(root: real -> real, rows: seq<LegacyRow>, k: nat): (r: Angle)
    requires IsRoot(root) && k < |rows|
    ensures r.Placeholder? <==> k == 0
    ensures r.Cos? && r.value.Some? ==> -1.0 <= r.value.value <= 1.0
    ensures k > 0 ==> CosineBetween(root, r.value, Between(RusherPos(rows[k - 1]), RusherPos(rows[k])),
                                    Between(RusherPos(rows[k - 1]), Some(rows[k].ball.pos)))
  {
    if k == 0 then Placeholder
    else
      var shift := RusherPos(rows[k - 1]);
      Cos(Alignment(root, Between(shift, RusherPos(rows[k])), Between(shift, Some(rows[k].ball.pos))))
  }

  /** `find_pursuit_angle`: the `pursuit_angle` column, one cell per row. */
  function PursuitAngles(root: real -> real, rows: seq<LegacyRow>): (r: seq<Angle>)
    requires IsRoot(root)
    ensures |r| == |rows|
  {
    seq(|rows|, k requires 0 <= k < |rows| => AngleAt(root, rows, k))
  }

  /** A rusher who moves straight at the ball's current position scores a
      pursuit angle of 1. */
  lemma PursuitAngleHeadOn(root: real -> real, rows: seq<LegacyRow>, k: nat, c: real)
    requires IsRoot(root) && 0 < k < |rows| && rows[k - 1].rusher.Some? && rows[k].rusher.Some?
    requires rows[k].rusher.value.pos != rows[k - 1].rusher.value.pos && c > 0.0
    requires Sub(rows[k].ball.pos, rows[k - 1].rusher.value.pos)
             == Scale(c, Sub(rows[k].rusher.value.pos, rows[k - 1].rusher.value.pos))
    ensures PursuitAngles(root, rows)[k] == Cos(Some(1.0))
  {
    assert PursuitAngles(root, rows)[k] == AngleAt(root, rows, k);
    var move := Sub(rows[k].rusher.value.pos, rows[k - 1].rusher.value.pos);
    assert move != Zero;
    CosineParallel(root, move, c);
  }

  /** `test_factor_a`: (pursuit angle * dis - change in distance) / distance,
      missing when any input is missing or the distance is 0. */
  function TestFactor(angle: Angle, dis: Option<real>, change: Option<real>, distance: Option<real>): (r: Option<real>)
    ensures r.Some? <==> angle.Cos? && angle.value.Some? && dis.Some? && change.Some?
                         && distance.Some? && distance.value != 0.0
    ensures r.Some? ==> r.value * distance.value == angle.value.value * dis.value - change.value
  {
    if angle.Cos? && angle.value.Some? && dis.Some? && change.Some? && distance.Some? && distance.value != 0.0 then
      var q := (angle.value.value * dis.value - change.value) / distance.value;
      assert q * distance.value == angle.value.value * dis.value - change.value;
      Some(q)
    else None
  }

  /** The two means `metrics` returns. */
  datatype LegacyResult = LegacyResult(pursuitAngle: Option<real>, testFactor: Option<real>)

  /** The pursuit angles that survive `[1:-1]`. */
  function KeptAngles(root: real -> real, rows: seq<LegacyRow>): (r: seq<Option<real>>)
    requires IsRoot(root)
    ensures |r| == if |rows| >= 2 then |rows| - 2 else 0
    ensures forall k :: 0 <= k < |r| ==> Cos(r[k]) == PursuitAngles(root, rows)[k + 1]
  {
    var kept := TrimEnds(PursuitAngles(root, rows));
    seq(|kept|, k requires 0 <= k < |kept| => kept[k].value)
  }

  /** The `test_factor_a` cells of the rows that survive `[1:-1]`. */
  function KeptFactors(root: real -> real, rows: seq<LegacyRow>): (r: seq<Option<real>>)
    requires IsRoot(root)
    ensures |r| == if |rows| >= 2 then |rows| - 2 else 0
  {
    var ds := Distances(root, rows);
    var changes := Diff(ds);
    var angles := PursuitAngles(root, rows);
    var n := if |rows| >= 2 then |rows| - 2 else 0;
    seq(n, k requires 0 <= k < n =>
      var row := rows[k + 1];
      TestFactor(angles[k + 1], if row.rusher.Some? then Some(row.rusher.value.dis) else None,
                 changes[k + 1], ds[k + 1]))
  }

  /** `metrics`: the means of the pursuit angle and of `test_factor_a` over the
      merged rows without the first and the last. */
  function LegacyMetrics(root: real -> real, rows: seq<LegacyRow>): (r: LegacyResult)
    requires IsRoot(root)
    ensures r.pursuitAngle.Some? ==> -1.0 <= r.pursuitAngle.value <= 1.0
    ensures |rows| <= 2 ==> r.pursuitAngle.None? && r.testFactor.None?
  {
    var angles := KeptAngles(root, rows);
    Stats.MeanBounds(angles, -1.0, 1.0);
    LegacyResult(Stats.Mean(angles), Stats.Mean(KeptFactors(root, rows)))
  }

  /** The placeholder never reaches the mean: the pursuit-angle mean is defined
      exactly when some row strictly between the first and the last has a
      defined cosine. */
  lemma PlaceholderNeverAveraged(root: real -> real, rows: seq<LegacyRow>)
    requires IsRoot(root)
    ensures LegacyMetrics(root, rows).pursuitAngle.Some? <==>
              exists k :: 1 <= k < |rows| - 1 && PursuitAngles(root, rows)[k] != Cos(None)
  {
    assert LegacyMetrics(root, rows).pursuitAngle == Stats.Mean(KeptAngles(root, rows));
    KeptAnglesDefined(root, rows);
  }

  lemma KeptAnglesDefined(root: real -> real, rows: seq<LegacyRow>)
    requires IsRoot(root)
    ensures Stats.Mean(KeptAngles(root, rows)).Some? <==>
              exists k :: 1 <= k < |rows| - 1 && PursuitAngles(root, rows)[k] != Cos(None)
  {
    var kept := KeptAngles(root, rows);
    var angles := PursuitAngles(root, rows);
    if exists k :: 1 <= k < |rows| - 1 && angles[k] != Cos(None) {
      var k :| 1 <= k < |rows| - 1 && angles[k] != Cos(None);
      assert Cos(kept[k - 1]) == angles[k];
    }
    if Stats.Mean(kept).Some? {
      var j :| 0 <= j < |kept| && kept[j].Some?;
      assert angles[j + 1] == Cos(kept[j]);
    }
  }

  /** The whole of the legacy play path: ball frames, merge with the rusher's
      rows, and the two means. */
  function LegacyPlay(root: real -> real, play: seq<TrackRow>, rusher: int): (r: Result<LegacyResult, LegacyError>)
    requires IsRoot(root)
    ensures r.Success? <==> LegacyFbFrames(play).Success?
    ensures r.Success? ==> r.value.pursuitAngle.Some? ==> -1.0 <= r.value.pursuitAngle.value <= 1.0
  {
    var fb :- LegacyFbFrames(play);
    Success(LegacyMetrics(root, LegacyJoin(fb.frames, RusherRows(play, rusher))))
  }
}

=== FILE: metrics.dfy ===
/** The metric composer (nfl_build_metrics.py `build_metrics`): per analysis row,
    movement and relative vectors, change in distance and its ratio, the cosine
    factors, the two projections, force, true pursuit and pursuit1-4.

    A missing cell (NaN in the source) is `None`. Cosines and projections of a
    zero vector, and quotients by zero, are missing as well.
 */
module Metrics {
  import opened Wrappers
  import opened Digits
  import opened RealArith
  import opened Geometry
  import opened Frames
  import Stats

  const RusherTag: string := "pass_rusher"
  const BlockerName: string := "pass_blocker"

  /** Pounds times yards per second squared, in newtons. */
  const ForceConversion: real := 0.414764863

  /** The smallest change in distance the composer keeps. */
  const DistanceFloor: real := 0.0001

  /** The vector between two positions, missing when either is. */
  function Between(from: Option<Vec>, to: Option<Vec>): (r: Option<Vec>)
    ensures r.Some? <==> from.Some? && to.Some?
    ensures r.Some? ==> Add(from.value, r.value) == to.value
  {
    if from.Some? && to.Some? then Some(Displacement(from.value, to.value)) else None
  }

  /** `(x**2 + y**2)**.5` of a possibly missing vector. */
  function Magnitude(root: real -> real, v: Option<Vec>): (r: Option<real>)
    requires IsRoot(root)
    ensures r.Some? <==> v.Some?
    ensures r.Some? ==> r.value >= 0.0 && r.value * r.value == NormSq(v.value)
    ensures r.Some? ==> (r.value == 0.0 <==> v.value == Zero)
  {
    if v.Some? then NormFacts(root, v.value); Some(Norm(root, v.value)) else None
  }

  /** c is the cosine of the angle between u and v: present exactly when both
      vectors are present and non-zero, and then c |u| |v| = u . v. So 1 is
      perfectly aligned, 0 orthogonal, -1 opposite, and a negative c means the
      two point away from each other. */
  ghost predicate CosineBetween(root: real -> real, c: Option<real>, u: Option<Vec>, v: Option<Vec>)
    requires IsRoot(root)
  {
    && (c.Some? <==> u.Some? && v.Some? && u.value != Zero && v.value != Zero)
    && (c.Some? ==>
          && -1.0 <= c.value <= 1.0
          && c.value * (Norm(root, u.value) * Norm(root, v.value)) == Dot(u.value, v.value)
          && (c.value > 0.0 <==> Dot(u.value, v.value) > 0.0)
          && (c.value == 0.0 <==> Dot(u.value, v.value) == 0.0))
  }

  /** `1 - spatial.distance.cosine(a, b)`: missing when either vector is missing or zero. */
  function Alignment(root: real -> real, a: Option<Vec>, b: Option<Vec>): (r: Option<real>)
    requires IsRoot(root)
    ensures r.Some? <==> a.Some? && b.Some? && a.value != Zero && b.value != Zero
    ensures r.Some? ==> -1.0 <= r.value <= 1.0
    ensures r.Some? ==> r.value * (Norm(root, a.value) * Norm(root, b.value)) == Dot(a.value, b.value)
    ensures r.Some? ==> (r.value > 0.0 <==> Dot(a.value, b.value) > 0.0)
                        && (r.value == 0.0 <==> Dot(a.value, b.value) == 0.0)
    ensures CosineBetween(root, r, a, b)
  {
    if a.Some? && b.Some? && a.value != Zero && b.value != Zero then Some(Cosine(root, a.value, b.value))
    else None
  }

  /** `component(v, onto)`: missing when either vector is missing or `onto` is zero. */
  function Projection(v: Option<Vec>, onto: Option<Vec>): (r: Option<Vec>)
    ensures r.Some? <==> v.Some? && onto.Some? && onto.value != Zero
    ensures r.Some? ==> Cross(r.value, onto.value) == 0.0 && Dot(Sub(v.value, r.value), onto.value) == 0.0
  {
    if v.Some? && onto.Some? && onto.value != Zero then Some(Component(v.value, onto.value)) else None
  }

  /** `create_change_in_distance_measurement`: the growth of the rusher-to-ball
      distance over the interval, floored at 0.0001; a missing change (NaN fails
      the `> .0001` test) also becomes the floor. */
  function ChangeInDistance(current: Option<real>, next: Option<real>): (r: real)
    ensures r >= DistanceFloor
    ensures current.Some? && next.Some? && next.value - current.value > DistanceFloor
            ==> r == next.value - current.value
    ensures current.None? || next.None? || next.value - current.value <= DistanceFloor ==> r == DistanceFloor
  {
    if current.Some? && next.Some? && next.value - current.value > DistanceFloor then next.value - current.value
    else DistanceFloor
  }

  /** `create_change_in_distance_ratio`: current distance over next distance. */
  function DistanceRatio(current: Option<real>, next: Option<real>): (r: Option<real>)
    ensures r.Some? <==> current.Some? && next.Some? && next.value != 0.0
    ensures r.Some? ==> r.value * next.value == current.value
  {
    if current.Some? && next.Some? && next.value != 0.0 then
      var q := current.value / next.value;
      assert q * next.value == current.value;
      Some(q)
    else None
  }

  function Clamp(x: real, lo: real, hi: real): (r: real)
    requires lo <= hi
    ensures lo <= r <= hi
    ensures lo <= x <= hi ==> r == x
  {
    if x < lo then lo else if x > hi then hi else x
  }

  /** `create_pursuit1`: pursuit-vs-escape over the change in distance, with
      values above 8 sent to -8, values below -6 sent to 6, and the rest negated. */
  function Pursuit1(pursuitVsEscape: Option<real>, change: real): (r: Option<real>)
    requires change > 0.0
    ensures r.Some? <==> pursuitVsEscape.Some?
    ensures r.Some? ==> -8.0 <= r.value <= 6.0
  {
    if pursuitVsEscape.None? then None
    else
      var fp := pursuitVsEscape.value / change;
      if fp > 8.0 then Some(-8.0) else if fp < -6.0 then Some(6.0) else Some(-fp)
  }

  /** The two branches of pursuit1 meet the negation at -8 and 6: it is the
      negated quotient clamped to [-8, 6]. */
  lemma Pursuit1IsClamp(pursuitVsEscape: real, change: real)
    requires change > 0.0
    ensures Pursuit1(Some(pursuitVsEscape), change) == Some(Clamp(-(pursuitVsEscape / change), -8.0, 6.0))
  {
  }

  /** More pursuit than escape never raises pursuit1. */
  lemma Pursuit1Antitone(a: real, b: real, change: real)
    requires change > 0.0 && a <= b
    ensures Pursuit1(Some(b), change).value <= Pursuit1(Some(a), change).value
  {
    QuotientMonotone(a, b, change);
  }

  /** `create_pursuit3` / `create_pursuit4`: the numerator per unit of ball
      movement, or the numerator itself when the ball did not move. A missing
      ball movement fails the `== 0` test and the quotient is missing. */
  function PerBallMovement(numerator: Option<real>, ballDistance: Option<real>): (r: Option<real>)
    ensures ballDistance.None? ==> r.None?
    ensures ballDistance == Some(0.0) ==> r == numerator
    ensures ballDistance.Some? && ballDistance.value != 0.0 ==>
              (r.Some? <==> numerator.Some?)
              && (r.Some? ==> r.value * ballDistance.value == numerator.value)
  {
    if ballDistance.None? then None
    else if ballDistance.value == 0.0 then numerator
    else if numerator.None? then None
    else
      var q := numerator.value / ballDistance.value;
      assert q * ballDistance.value == numerator.value;
      Some(q)
  }

  /** A non-negative numerator over a distance stays non-negative. */
  lemma PerBallMovementNonNegative(numerator: Option<real>, ballDistance: Option<real>)
    requires numerator.Some? ==> numerator.value >= 0.0
    requires ballDistance.Some? ==> ballDistance.value >= 0.0
    ensures PerBallMovement(numerator, ballDistance).Some? ==> PerBallMovement(numerator, ballDistance).value >= 0.0
  {
    if numerator.Some? && ballDistance.Some? && ballDistance.value > 0.0 {
      QuotientSign(numerator.value, ballDistance.value);
    }
  }

  /** `pass_rusher_force`: mass times the conversion factor times acceleration
      times pursuit factor. */
  function Force(mass: real, accel: Option<real>, pursuitFactor: Option<real>): (r: Option<real>)
    ensures r.Some? <==> accel.Some? && pursuitFactor.Some?
    ensures r.Some? ==> r.value == mass * ForceConversion * accel.value * pursuitFactor.value
    ensures r.Some? && mass > 0.0 && accel.value > 0.0 ==>
              (r.value > 0.0 <==> pursuitFactor.value > 0.0) && (r.value < 0.0 <==> pursuitFactor.value < 0.0)
  {
    if accel.Some? && pursuitFactor.Some? then
      var c := mass * ForceConversion * accel.value;
      assert mass > 0.0 && accel.value > 0.0 ==> c > 0.0 by {
        if mass > 0.0 && accel.value > 0.0 {
          ProductPositive(mass, ForceConversion);
          ProductPositive(mass * ForceConversion, accel.value);
        }
      }
      assert c > 0.0 && pursuitFactor.value > 0.0 ==> c * pursuitFactor.value > 0.0;
      assert c > 0.0 && pursuitFactor.value < 0.0 ==> c * pursuitFactor.value < 0.0;
      assert c * pursuitFactor.value == mass * ForceConversion * accel.value * pursuitFactor.value;
      Some(c * pursuitFactor.value)
    else None
  }

  /** The pursuit factor is a cosine, so force never exceeds the rusher's
      full mass times acceleration, in newtons, in magnitude. */
  lemma ForceBounded(mass: real, accel: Option<real>, pursuitFactor: Option<real>)
    requires mass >= 0.0 && accel.Some? && pursuitFactor.Some?
    requires -1.0 <= pursuitFactor.value <= 1.0
    ensures Abs(Force(mass, accel, pursuitFactor).value) <= mass * ForceConversion * Abs(accel.value)
  {
    var full := mass * ForceConversion * accel.value;
    ProductShrinks(full, pursuitFactor.value);
    ProductNonNegative(mass, ForceConversion);
    if accel.value >= 0.0 {
      ProductNonNegative(mass * ForceConversion, accel.value);
    } else {
      ProductNonNegative(mass * ForceConversion, -accel.value);
    }
  }

  function Difference(a: Option<real>, b: Option<real>): (r: Option<real>)
    ensures r.Some? <==> a.Some? && b.Some?
    ensures r.Some? ==> r.value + b.value == a.value
  {
    if a.Some? && b.Some? then Some(a.value - b.value) else None
  }

  function Product(a: Option<real>, b: Option<real>): (r: Option<real>)
    ensures r.Some? <==> a.Some? && b.Some?
    ensures r.Some? ==> r.value == a.value * b.value
    ensures r.Some? ==> (r.value > 0.0 <==> (a.value > 0.0 && b.value > 0.0) || (a.value < 0.0 && b.value < 0.0))
    ensures r.Some? ==> (r.value < 0.0 <==> (a.value > 0.0 && b.value < 0.0) || (a.value < 0.0 && b.value > 0.0))
    ensures r.Some? && a.value == 0.0 ==> r.value == 0.0
  {
    if a.Some? && b.Some? then
      ProductSign(a.value, b.value);
      Some(a.value * b.value)
    else None
  }

  /** `re.search(r'pass_blocker_?\d?$', tag)`: the tag ends in "pass_blocker",
      then an optional "_", then an optional single digit. */
  predicate BlockerTag(tag: string) {
    || EndsWith(tag, BlockerName)
    || EndsWith(tag, BlockerName + "_")
    || (|tag| > 0 && IsDigit(tag[|tag| - 1])
        && (EndsWith(tag[..|tag| - 1], BlockerName) || EndsWith(tag[..|tag| - 1], BlockerName + "_")))
  }

  predicate EndsWith(s: string, suffix: string) {
    |suffix| <= |s| && s[|s| - |suffix|..] == suffix
  }

  lemma EndsWithAt(s: string, suffix: string, i: nat)
    requires i < |suffix|
    ensures EndsWith(s, suffix) ==> s[|s| - |suffix| + i] == suffix[i]
  {
    if EndsWith(s, suffix) {
      assert s[|s| - |suffix|..][i] == s[|s| - |suffix| + i];
    }
  }

  /** Ending in `u + v` is ending in `v` after a prefix that ends in `u`. */
  lemma EndsWithSplit(s: string, u: string, v: string)
    ensures EndsWith(s, u + v) <==> |v| <= |s| && EndsWith(s[..|s| - |v|], u) && s[|s| - |v|..] == v
  {
    if |u| + |v| <= |s| {
      var front := s[..|s| - |v|];
      assert front[|front| - |u|..] == s[|s| - |u| - |v|..|s| - |v|];
      assert s[|s| - |u| - |v|..] == s[|s| - |u| - |v|..|s| - |v|] + s[|s| - |v|..];
      if EndsWith(s, u + v) {
        assert s[|s| - |u| - |v|..|s| - |v|] == (u + v)[..|u|] == u;
        assert s[|s| - |v|..] == (u + v)[|u|..] == v;
      }
    }
  }

  /** What the pattern allows after "pass_blocker": nothing, "_", one digit, or
      "_" followed by one digit. */
  predicate BlockerSuffix(s: string) {
    || s == ""
    || s == "_"
    || (|s| == 1 && IsDigit(s[0]))
    || (|s| == 2 && s[0] == '_' && IsDigit(s[1]))
  }

  /** Splitting the tag at k puts "pass_blocker" just before a permitted ending. */
  predicate SplitAt(tag: string, k: int) {
    0 <= k <= |tag| && EndsWith(tag[..k], BlockerName) && BlockerSuffix(tag[k..])
  }

  lemma SplitAtEnd(tag: string)
    ensures SplitAt(tag, |tag|) <==> EndsWith(tag, BlockerName)
  {
    assert tag[..|tag|] == tag && tag[|tag|..] == "";
  }

  lemma SplitAtLast(tag: string)
    requires |tag| >= 1
    ensures SplitAt(tag, |tag| - 1) <==>
              EndsWith(tag[..|tag| - 1], BlockerName) && (tag[|tag| - 1] == '_' || IsDigit(tag[|tag| - 1]))
  {
    assert tag[|tag| - 1..] == [tag[|tag| - 1]];
  }

  lemma SplitAtSecondLast(tag: string)
    requires |tag| >= 2
    ensures SplitAt(tag, |tag| - 2) <==>
              EndsWith(tag[..|tag| - 2], BlockerName) && tag[|tag| - 2] == '_' && IsDigit(tag[|tag| - 1])
  {
    assert tag[|tag| - 2..] == [tag[|tag| - 2], tag[|tag| - 1]];
  }

  /** A permitted ending is at most two characters long. */
  lemma SplitAtNear(tag: string, k: int)
    requires SplitAt(tag, k)
    ensures |tag| - 2 <= k
  {
    assert |tag[k..]| == |tag| - k;
  }

  /** Ending in "pass_blocker_" is ending in "_" after a prefix ending in "pass_blocker". */
  lemma EndsWithUnderscore(s: string)
    ensures EndsWith(s, BlockerName + "_") <==>
              |s| >= 1 && EndsWith(s[..|s| - 1], BlockerName) && s[|s| - 1] == '_'
  {
    EndsWithSplit(s, BlockerName, "_");
    if |s| >= 1 {
      assert s[|s| - 1..] == [s[|s| - 1]];
    }
  }

  lemma UnderscoreOrDigitSplit(tag: string)
    requires EndsWith(tag, BlockerName + "_")
             || (|tag| > 0 && IsDigit(tag[|tag| - 1]) && EndsWith(tag[..|tag| - 1], BlockerName))
    ensures |tag| > 0 && SplitAt(tag, |tag| - 1)
  {
    EndsWithUnderscore(tag);
    SplitAtLast(tag);
  }

  lemma UnderscoreDigitSplit(tag: string)
    requires |tag| > 0 && IsDigit(tag[|tag| - 1]) && EndsWith(tag[..|tag| - 1], BlockerName + "_")
    ensures |tag| > 1 && SplitAt(tag, |tag| - 2)
  {
    var n := |tag|;
    EndsWithUnderscore(tag[..n - 1]);
    assert tag[..n - 1][..n - 2] == tag[..n - 2];
    SplitAtSecondLast(tag);
  }

  /** A blocker tag has a split at one of its last three positions. */
  lemma BlockerTagHasSplit(tag: string)
    requires BlockerTag(tag)
    ensures exists k :: SplitAt(tag, k)
  {
    var n := |tag|;
    if EndsWith(tag, BlockerName) {
      SplitAtEnd(tag);
      assert SplitAt(tag, n);
    } else if EndsWith(tag, BlockerName + "_") || EndsWith(tag[..n - 1], BlockerName) {
      UnderscoreOrDigitSplit(tag);
      assert SplitAt(tag, n - 1);
    } else {
      UnderscoreDigitSplit(tag);
      assert SplitAt(tag, n - 2);
    }
  }

  /** A split at one of the last three positions makes a blocker tag. */
  lemma SplitIsBlockerTag(tag: string, k: int)
    requires SplitAt(tag, k)
    ensures BlockerTag(tag)
  {
    var n := |tag|;
    SplitAtNear(tag, k);
    if k == n {
      SplitAtEnd(tag);
    } else if k == n - 1 {
      SplitAtLast(tag);
      EndsWithUnderscore(tag);
    } else {
      SplitAtSecondLast(tag);
      EndsWithUnderscore(tag[..n - 1]);
      assert tag[..n - 1][..n - 2] == tag[..n - 2];
    }
  }

  /** The pattern read as a regular expression anchored at the end: a tag is a
      blocker tag exactly when some split puts "pass_blocker" before a permitted
      ending. */
  lemma BlockerTagIff(tag: string)
    ensures BlockerTag(tag) <==> exists k :: SplitAt(tag, k)
  {
    if BlockerTag(tag) {
      BlockerTagHasSplit(tag);
    }
    if k :| SplitAt(tag, k) {
      SplitIsBlockerTag(tag, k);
    }
  }

  /** A tag ending in two digits is never picked up. */
  lemma TwoDigitsNotBlocker(tag: string)
    requires |tag| >= 2 && IsDigit(tag[|tag| - 1]) && IsDigit(tag[|tag| - 2])
    ensures !BlockerTag(tag)
  {
    var front := tag[..|tag| - 1];
    assert front[|front| - 1] == tag[|tag| - 2];
    EndsWithAt(tag, BlockerName, |BlockerName| - 1);
    EndsWithAt(tag, BlockerName + "_", |BlockerName|);
    EndsWithAt(front, BlockerName, |BlockerName| - 1);
    EndsWithAt(front, BlockerName + "_", |BlockerName|);
  }

  /** Which merged columns the composer treats as blockers: a lone blocker and
      blockers 1 to 9 are found, blockers numbered 10 and above are missed by the
      pattern, and a rusher column is never taken for a blocker. */
  lemma BlockerTags(count: nat, k: nat)
    ensures BlockerTag(RoleName(PassBlocker))
    ensures !BlockerTag(RoleName(PassRusher))
    ensures count != 1 && k < 10 ==> BlockerTag(OpponentTag(PassBlocker, count, k))
    ensures count != 1 && k >= 10 ==> !BlockerTag(OpponentTag(PassBlocker, count, k))
    ensures count != 1 ==> !BlockerTag(OpponentTag(PassRusher, count, k))
  {
    assert RoleName(PassBlocker)[0..] == BlockerName;
    var rusher := RoleName(PassRusher);
    EndsWithAt(rusher[..|rusher| - 1], BlockerName, |BlockerName| - 1);
    if count != 1 {
      var digits := NatToString(k);
      var t := OpponentTag(PassBlocker, count, k);
      var u := OpponentTag(PassRusher, count, k);
      if k < 10 {
        assert t == BlockerName + "_" + [DigitChar(k)];
        assert t[..|t| - 1] == BlockerName + "_";
        assert t[..|t| - 1][0..] == BlockerName + "_";
        var front := u[..|u| - 1];
        assert u == rusher + "_" + [DigitChar(k)];
        assert front == rusher + "_";
        EndsWithAt(u, BlockerName, |BlockerName| - 1);
        EndsWithAt(u, BlockerName + "_", |BlockerName|);
        EndsWithAt(front, BlockerName, 5);
      } else {
        assert |digits| >= 2;
        assert t[|t| - 1] == digits[|digits| - 1] && t[|t| - 2] == digits[|digits| - 2];
        TwoDigitsNotBlocker(t);
        assert u[|u| - 1] == digits[|digits| - 1] && u[|u| - 2] == digits[|digits| - 2];
        TwoDigitsNotBlocker(u);
      }
    }
  }

  /** The slot with a given tag, first occurrence; None when no column has it. */
  function SlotOf(slots: seq<Slot>, tag: string): (r: Option<Option<EntityFrame>>)
    ensures r.Some? <==> exists k :: 0 <= k < |slots| && slots[k].tag == tag
    ensures r.Some? ==> exists k :: 0 <= k < |slots| && slots[k] == Slot(tag, r.value)
  {
    if |slots| == 0 then None
    else if slots[0].tag == tag then Some(slots[0].frame)
    else
      var rest := SlotOf(slots[1..], tag);
      assert forall k :: 1 <= k < |slots| ==> slots[k] == slots[1..][k - 1];
      rest
  }

  /** The blocker columns of a row (`get_pass_blockers`), in column order. */
  function BlockerSlots(slots: seq<Slot>): (r: seq<Slot>)
    ensures |r| <= |slots|
    ensures forall k :: 0 <= k < |r| ==> BlockerTag(r[k].tag)
  {
    if |slots| == 0 then []
    else (if BlockerTag(slots[0].tag) then [slots[0]] else []) + BlockerSlots(slots[1..])
  }

  /** Every column matching the blocker pattern is taken, and nothing else. */
  lemma {:induction false} BlockerSlotsMembers(slots: seq<Slot>)
    ensures forall x :: x in BlockerSlots(slots) <==> x in slots && BlockerTag(x.tag)
    decreases |slots|
  {
    if |slots| > 0 {
      BlockerSlotsMembers(slots[1..]);
      assert slots == [slots[0]] + slots[1..];
    }
  }

  /** The columns are scanned in order: the blockers of two runs of columns are
      the blockers of the first run followed by those of the second. */
  lemma {:induction false} BlockerSlotsAppend(a: seq<Slot>, b: seq<Slot>)
    ensures BlockerSlots(a + b) == BlockerSlots(a) + BlockerSlots(b)
    decreases |a|
  {
    if |a| == 0 {
      assert a + b == b;
    } else {
      assert (a + b)[1..] == a[1..] + b;
      BlockerSlotsAppend(a[1..], b);
      var head := if BlockerTag(a[0].tag) then [a[0]] else [];
      AppendAssociative(head, BlockerSlots(a[1..]), BlockerSlots(b));
    }
  }

  /** A single column is taken exactly when it matches the pattern. */
  lemma BlockerSlotsSingle(s: Slot)
    ensures BlockerSlots([s]) == if BlockerTag(s.tag) then [s] else []
  {
    assert [s][1..] == [];
  }

  function Pos(f: Option<EntityFrame>): Option<Vec> {
    if f.Some? then Some(f.value.pos) else None
  }

  function NextPos(f: Option<EntityFrame>): Option<Vec> {
    if f.Some? then f.value.next else None
  }

  /** The ball's movement over the interval. */
  function BallMove(ball: BallFrame): (r: Option<Vec>)
    ensures r.Some? <==> ball.next.Some?
    ensures r.Some? ==> Add(ball.pos, r.value) == ball.next.value
  {
    Between(Some(ball.pos), ball.next)
  }

  /** The rusher's movement over the interval. */
  function RusherMove(rusher: Option<EntityFrame>): (r: Option<Vec>)
    ensures r.Some? <==> rusher.Some? && rusher.value.next.Some?
    ensures r.Some? ==> Add(rusher.value.pos, r.value) == rusher.value.next.value
  {
    Between(Pos(rusher), NextPos(rusher))
  }

  /** From the rusher now to the ball next (`pass_rusher_to_ball` before projection). */
  function RusherToBall(ball: BallFrame, rusher: Option<EntityFrame>): (r: Option<Vec>)
    ensures r.Some? <==> rusher.Some? && ball.next.Some?
    ensures r.Some? ==> Add(rusher.value.pos, r.value) == ball.next.value
  {
    Between(Pos(rusher), ball.next)
  }

  /** From the rusher next to the ball next (`ball_to_pass_rusher` before projection). */
  function BallToRusher(ball: BallFrame, rusher: Option<EntityFrame>): (r: Option<Vec>)
    ensures r.Some? <==> rusher.Some? && rusher.value.next.Some? && ball.next.Some?
    ensures r.Some? ==> Add(rusher.value.next.value, r.value) == ball.next.value
  {
    Between(NextPos(rusher), ball.next)
  }

  /** The rusher-to-ball distance at the start of the interval. */
  function CurrentDistance(root: real -> real, ball: BallFrame, rusher: Option<EntityFrame>): (r: Option<real>)
    requires IsRoot(root)
    ensures r.Some? <==> rusher.Some?
    ensures r.Some? ==> r.value == Distance(root, rusher.value.pos, ball.pos)
  {
    Magnitude(root, Between(Pos(rusher), Some(ball.pos)))
  }

  /** The rusher-to-ball distance at the end of the interval. */
  function NextDistance(root: real -> real, ball: BallFrame, rusher: Option<EntityFrame>): (r: Option<real>)
    requires IsRoot(root)
    ensures r.Some? <==> rusher.Some? && rusher.value.next.Some? && ball.next.Some?
    ensures r.Some? ==> r.value == Distance(root, rusher.value.next.value, ball.next.value)
  {
    Magnitude(root, BallToRusher(ball, rusher))
  }

  /** A cosine: missing, or between -1 and 1. */
  predicate InUnitRange(c: Option<real>) {
    c.Some? ==> -1.0 <= c.value <= 1.0
  }

  /** `add_pass_rusher_to_ball_colinearity`: the cosine between the rusher's and the ball's movements. */
  function Colinearity(root: real -> real, ball: BallFrame, rusher: Option<EntityFrame>): (r: Option<real>)
    requires IsRoot(root)
    ensures InUnitRange(r)
    ensures CosineBetween(root, r, RusherMove(rusher), BallMove(ball))
  {
    Alignment(root, RusherMove(rusher), BallMove(ball))
  }

  /** `create_pursuit_factor`: the cosine between the line from the rusher to the
      ball's next position and the rusher's movement; negative when the rusher
      moves away from the ball, zero when across it, 1 when straight at it. */
  function PursuitFactor(root: real -> real, ball: BallFrame, rusher: Option<EntityFrame>): (r: Option<real>)
    requires IsRoot(root)
    ensures InUnitRange(r)
    ensures rusher.None? ==> r.None?
    ensures CosineBetween(root, r, RusherToBall(ball, rusher), RusherMove(rusher))
  {
    Alignment(root, RusherToBall(ball, rusher), RusherMove(rusher))
  }

  /** `create_escape_factor`: the cosine between the ball's movement and the line
      from the rusher's next position to the ball's next position. */
  function EscapeFactor(root: real -> real, ball: BallFrame, rusher: Option<EntityFrame>): (r: Option<real>)
    requires IsRoot(root)
    ensures InUnitRange(r)
    ensures CosineBetween(root, r, BallMove(ball), BallToRusher(ball, rusher))
  {
    Alignment(root, BallMove(ball), BallToRusher(ball, rusher))
  }

  /** The part of the rusher's movement along the line to the ball. */
  function TowardBall(ball: BallFrame, rusher: Option<EntityFrame>): (r: Option<Vec>)
    ensures r.Some? <==> rusher.Some? && rusher.value.next.Some? && ball.next.Some? && ball.next.value != rusher.value.pos
    ensures r.Some? ==> var move := RusherMove(rusher).value; var toBall := RusherToBall(ball, rusher).value;
                        Cross(r.value, toBall) == 0.0 && Dot(Sub(move, r.value), toBall) == 0.0
  {
    Projection(RusherMove(rusher), RusherToBall(ball, rusher))
  }

  /** The part of the ball's movement along the line from the rusher. */
  function AwayFromRusher(ball: BallFrame, rusher: Option<EntityFrame>): (r: Option<Vec>)
    ensures r.Some? <==> rusher.Some? && rusher.value.next.Some? && ball.next.Some?
                         && ball.next.value != rusher.value.next.value
    ensures r.Some? ==> var move := BallMove(ball).value; var fromRusher := BallToRusher(ball, rusher).value;
                        Cross(r.value, fromRusher) == 0.0 && Dot(Sub(move, r.value), fromRusher) == 0.0
  {
    Projection(BallMove(ball), BallToRusher(ball, rusher))
  }

  /** `create_true_pursuit`: pursuit magnitude minus escape magnitude. */
  function TruePursuit(root: real -> real, ball: BallFrame, rusher: Option<EntityFrame>): (r: Option<real>)
    requires IsRoot(root)
    ensures rusher.None? ==> r.None?
    ensures r.Some? <==> TowardBall(ball, rusher).Some? && AwayFromRusher(ball, rusher).Some?
    ensures r.Some? ==> r.value + Norm(root, AwayFromRusher(ball, rusher).value) == Norm(root, TowardBall(ball, rusher).value)
  {
    Difference(Magnitude(root, TowardBall(ball, rusher)), Magnitude(root, AwayFromRusher(ball, rusher)))
  }

  /** `player_opponent_distance` for every blocker column. */
  function BlockerDistances(root: real -> real, rusher: Option<EntityFrame>, blockers: seq<Option<EntityFrame>>)
    : (r: seq<Option<real>>)
    requires IsRoot(root)
    ensures |r| == |blockers|
    ensures forall k :: 0 <= k < |r| ==> (r[k].Some? <==> rusher.Some? && blockers[k].Some?)
    ensures forall k :: 0 <= k < |r| && r[k].Some? ==>
              r[k].value == Distance(root, rusher.value.pos, blockers[k].value.pos)
  {
    seq(|blockers|, k requires 0 <= k < |blockers| => Magnitude(root, Between(Pos(rusher), Pos(blockers[k]))))
  }

  /** The id of every blocker column, missing where the blocker is. */
  function BlockerIds(blockers: seq<Option<EntityFrame>>): (r: seq<Option<int>>)
    ensures |r| == |blockers|
    ensures forall k :: 0 <= k < |r| ==> (r[k].Some? <==> blockers[k].Some?)
    ensures forall k :: 0 <= k < |r| && r[k].Some? ==> r[k].value == blockers[k].value.id
  {
    seq(|blockers|, k requires 0 <= k < |blockers| => if blockers[k].Some? then Some(blockers[k].value.id) else None)
  }

  /** Every metric of one analysis row. `towardBall` and `awayFromRusher` are
      the projections that overwrite the raw relative vectors in the source. */
  datatype FrameMetrics = FrameMetrics(
    rusherId: Option<int>,
    rusherAccel: Option<real>,
    ballMove: Option<Vec>,
    rusherMove: Option<Vec>,
    changeInDistance: real,
    distanceRatio: Option<real>,
    blockerIds: seq<Option<int>>,
    blockerDistances: seq<Option<real>>,
    colinearity: Option<real>,
    pursuitFactor: Option<real>,
    towardBall: Option<Vec>,
    escapeFactor: Option<real>,
    awayFromRusher: Option<Vec>,
    force: Option<real>,
    pursuitVsEscape: Option<real>,
    pursuit1: Option<real>,
    pursuit2: Option<real>,
    pursuit3: Option<real>,
    pursuit4: Option<real>)

  /** The metrics of one row, from the ball frame, the rusher's frame (None when
      the rusher has no frame there) and the blockers' frames. */
  function RowMetrics(root: real -> real, ball: BallFrame, rusher: Option<EntityFrame>,
                      blockers: seq<Option<EntityFrame>>, mass: real): (r: FrameMetrics)
    requires IsRoot(root)
    ensures r.changeInDistance >= DistanceFloor
    ensures |r.blockerDistances| == |blockers| && |r.blockerIds| == |blockers|
    ensures r.pursuit1.Some? ==> -8.0 <= r.pursuit1.value <= 6.0
    ensures r.pursuit3.Some? ==> r.pursuit3.value >= 0.0
    ensures rusher.None? ==> r.pursuitFactor.None? && r.force.None? && r.pursuitVsEscape.None?
                             && r.pursuit1.None? && r.pursuit2.None?
  {
    var current := CurrentDistance(root, ball, rusher);
    var next := NextDistance(root, ball, rusher);
    var change := ChangeInDistance(current, next);
    var ratio := DistanceRatio(current, next);
    var pf := PursuitFactor(root, ball, rusher);
    var accel := if rusher.Some? then Some(rusher.value.accel) else None;
    var pve := TruePursuit(root, ball, rusher);
    var ballDistance := Magnitude(root, BallMove(ball));
    var pursuit := Magnitude(root, TowardBall(ball, rusher));
    PerBallMovementNonNegative(pursuit, ballDistance);
    FrameMetrics(
      if rusher.Some? then Some(rusher.value.id) else None,
      accel, BallMove(ball), RusherMove(rusher), change, ratio,
      BlockerIds(blockers), BlockerDistances(root, rusher, blockers),
      Colinearity(root, ball, rusher), pf, TowardBall(ball, rusher),
      EscapeFactor(root, ball, rusher), AwayFromRusher(ball, rusher),
      Force(mass, accel, pf), pve,
      Pursuit1(pve, change),
      Product(pve, ratio),
      PerBallMovement(pursuit, ballDistance),
      PerBallMovement(pve, ballDistance))
  }

  /** Colinearity, pursuit factor and escape factor are cosines. */
  lemma RowCosinesBounded(root: real -> real, ball: BallFrame, rusher: Option<EntityFrame>,
                          blockers: seq<Option<EntityFrame>>, mass: real)
    requires IsRoot(root)
    ensures var m := RowMetrics(root, ball, rusher, blockers, mass);
      InUnitRange(m.colinearity) && InUnitRange(m.pursuitFactor) && InUnitRange(m.escapeFactor)
  {
    var m := RowMetrics(root, ball, rusher, blockers, mass);
    assert m.colinearity == Colinearity(root, ball, rusher);
    assert m.pursuitFactor == PursuitFactor(root, ball, rusher);
    assert m.escapeFactor == EscapeFactor(root, ball, rusher);
  }

  /** A rusher heading straight at the ball's next position has pursuit factor
      1, and one heading straight away from it has -1. */
  lemma PursuitFactorHeadOn(root: real -> real, ball: BallFrame, rusher: EntityFrame,
                            blockers: seq<Option<EntityFrame>>, mass: real, k: real)
    requires IsRoot(root)
    requires ball.next.Some? && rusher.next.Some?
    requires ball.next.value != rusher.pos && k != 0.0
    requires Displacement(rusher.pos, rusher.next.value) == Scale(k, Displacement(rusher.pos, ball.next.value))
    ensures RowMetrics(root, ball, Some(rusher), blockers, mass).pursuitFactor == Some(if k > 0.0 then 1.0 else -1.0)
  {
    var toBall := Displacement(rusher.pos, ball.next.value);
    assert toBall != Zero;
    CosineSelfAndOpposite(root, toBall);
    CosineScale(root, k, toBall, toBall);
    CosineSymmetric(root, Scale(k, toBall), toBall);
    assert PursuitFactor(root, ball, Some(rusher)) == Some(Cosine(root, toBall, Scale(k, toBall)));
  }

  /** A rusher ending the interval on the ball's next position leaves nothing to
      project the ball's movement on: escape, true pursuit, pursuit1, pursuit2
      and pursuit4 are all missing. */
  lemma CaughtBallLeavesEscapeUndefined(root: real -> real, ball: BallFrame, rusher: EntityFrame,
                                         blockers: seq<Option<EntityFrame>>, mass: real)
    requires IsRoot(root)
    requires ball.next.Some? && rusher.next == ball.next
    ensures var m := RowMetrics(root, ball, Some(rusher), blockers, mass);
      m.awayFromRusher.None? && m.escapeFactor.None? && m.pursuitVsEscape.None?
      && m.pursuit1.None? && m.pursuit2.None? && m.pursuit4.None?
  {
    var r := Some(rusher);
    assert BallToRusher(ball, r) == Some(Zero);
    assert EscapeFactor(root, ball, r).None?;
    var pve := TruePursuit(root, ball, r);
    assert AwayFromRusher(ball, r).None? && pve.None?;
    var m := RowMetrics(root, ball, r, blockers, mass);
    assert m.pursuitVsEscape == pve && m.pursuit2 == Product(pve, m.distanceRatio);
  }

  function RecenterOpt(origin: Vec, p: Option<Vec>): (r: Option<Vec>)
    ensures r.Some? <==> p.Some?
  {
    if p.Some? then Some(Recenter(origin, p.value)) else None
  }

  function RecenterBall(origin: Vec, f: BallFrame): BallFrame {
    f.(pos := Recenter(origin, f.pos), next := RecenterOpt(origin, f.next))
  }

  function RecenterEntity(origin: Vec, f: Option<EntityFrame>): (r: Option<EntityFrame>)
    ensures r.Some? <==> f.Some?
    ensures r.Some? ==> r.value.id == f.value.id && r.value.accel == f.value.accel
  {
    if f.Some? then Some(f.value.(pos := Recenter(origin, f.value.pos), next := RecenterOpt(origin, f.value.next)))
    else None
  }

  function RecenterSlots(origin: Vec, slots: seq<Slot>): (r: seq<Slot>)
    ensures |r| == |slots|
    ensures forall k :: 0 <= k < |slots| ==> r[k] == Slot(slots[k].tag, RecenterEntity(origin, slots[k].frame))
  {
    if |slots| == 0 then []
    else [Slot(slots[0].tag, RecenterEntity(origin, slots[0].frame))] + RecenterSlots(origin, slots[1..])
  }

  /** `recenter_on_snap`: every x and y column of a row measured from the snap
      point. Adding the snap point back gives the original coordinates; frame
      ids, events, column names, nflIds and accelerations are untouched. */
  function RecenterRow(origin: Vec, row: AnalysisRow): (r: AnalysisRow)
    ensures r.ball.frame == row.ball.frame && r.ball.event == row.ball.event
    ensures Add(r.ball.pos, origin) == row.ball.pos
    ensures r.ball.next.Some? <==> row.ball.next.Some?
    ensures r.ball.next.Some? ==> Add(r.ball.next.value, origin) == row.ball.next.value
    ensures r.slots == RecenterSlots(origin, row.slots)
    ensures |r.slots| == |row.slots|
    ensures forall k :: 0 <= k < |r.slots| ==>
              && r.slots[k].tag == row.slots[k].tag
              && (r.slots[k].frame.Some? <==> row.slots[k].frame.Some?)
              && (r.slots[k].frame.Some? ==>
                    var e, e0 := r.slots[k].frame.value, row.slots[k].frame.value;
                    && e.frame == e0.frame && e.id == e0.id && e.accel == e0.accel
                    && Add(e.pos, origin) == e0.pos
                    && (e.next.Some? <==> e0.next.Some?)
                    && (e.next.Some? ==> Add(e.next.value, origin) == e0.next.value))
  {
    AnalysisRow(RecenterBall(origin, row.ball), RecenterSlots(origin, row.slots))
  }

  lemma BetweenRecentered(origin: Vec, p: Option<Vec>, q: Option<Vec>)
    ensures Between(RecenterOpt(origin, p), RecenterOpt(origin, q)) == Between(p, q)
  {
    if p.Some? && q.Some? {
      DisplacementRecentered(origin, p.value, q.value);
    }
  }

  /** Recentring on the snap point changes no metric: every one of them is
      built from differences of positions. */
  lemma RowMetricsRecentered(root: real -> real, origin: Vec, ball: BallFrame, rusher: Option<EntityFrame>,
                             blockers: seq<Option<EntityFrame>>, mass: real)
    requires IsRoot(root)
    ensures RowMetrics(root, RecenterBall(origin, ball), RecenterEntity(origin, rusher),
                       seq(|blockers|, k requires 0 <= k < |blockers| => RecenterEntity(origin, blockers[k])), mass)
         == RowMetrics(root, ball, rusher, blockers, mass)
  {
    var ball' := RecenterBall(origin, ball);
    var rusher' := RecenterEntity(origin, rusher);
    var blockers' := seq(|blockers|, k requires 0 <= k < |blockers| => RecenterEntity(origin, blockers[k]));
    var b, p, pn := Some(ball.pos), Pos(rusher), NextPos(rusher);
    assert Some(ball'.pos) == RecenterOpt(origin, b);
    assert Pos(rusher') == RecenterOpt(origin, p);
    assert NextPos(rusher') == RecenterOpt(origin, pn);
    BetweenRecentered(origin, b, ball.next);
    BetweenRecentered(origin, p, pn);
    BetweenRecentered(origin, p, ball.next);
    BetweenRecentered(origin, pn, ball.next);
    BetweenRecentered(origin, p, b);
    assert BallMove(ball') == BallMove(ball);
    assert RusherMove(rusher') == RusherMove(rusher);
    assert RusherToBall(ball', rusher') == RusherToBall(ball, rusher);
    assert BallToRusher(ball', rusher') == BallToRusher(ball, rusher);
    assert CurrentDistance(root, ball', rusher') == CurrentDistance(root, ball, rusher);
    forall k | 0 <= k < |blockers|
      ensures Between(Pos(rusher'), Pos(blockers'[k])) == Between(p, Pos(blockers[k]))
    {
      assert Pos(blockers'[k]) == RecenterOpt(origin, Pos(blockers[k]));
      BetweenRecentered(origin, p, Pos(blockers[k]));
    }
    assert BlockerDistances(root, rusher', blockers') == BlockerDistances(root, rusher, blockers);
    assert BlockerIds(blockers') == BlockerIds(blockers);
  }

  /** The rusher's frame of a row, or None when the row has no pass_rusher column. */
  function RusherOf(row: AnalysisRow): Option<Option<EntityFrame>> {
    SlotOf(row.slots, RusherTag)
  }

  function BlockerFrames(row: AnalysisRow): (r: seq<Option<EntityFrame>>)
    ensures |r| == |BlockerSlots(row.slots)|
  {
    var slots := BlockerSlots(row.slots);
    seq(|slots|, k requires 0 <= k < |slots| => slots[k].frame)
  }

  /** The metrics of a row that has a pass_rusher column. */
  function MetricsOf(root: real -> real, row: AnalysisRow, mass: real): FrameMetrics
    requires IsRoot(root) && RusherOf(row).Some?
  {
    RowMetrics(root, row.ball, RusherOf(row).value, BlockerFrames(row), mass)
  }

  lemma {:induction false} SlotOfRecentered(origin: Vec, slots: seq<Slot>, tag: string)
    ensures SlotOf(RecenterSlots(origin, slots), tag).Some? == SlotOf(slots, tag).Some?
    ensures SlotOf(slots, tag).Some? ==>
              SlotOf(RecenterSlots(origin, slots), tag).value == RecenterEntity(origin, SlotOf(slots, tag).value)
    decreases |slots|
  {
    if |slots| > 0 {
      assert RecenterSlots(origin, slots)[1..] == RecenterSlots(origin, slots[1..]);
      SlotOfRecentered(origin, slots[1..], tag);
    }
  }

  lemma {:induction false} BlockerSlotsRecentered(origin: Vec, slots: seq<Slot>)
    ensures BlockerSlots(RecenterSlots(origin, slots)) == RecenterSlots(origin, BlockerSlots(slots))
    decreases |slots|
  {
    if |slots| > 0 {
      var rs := RecenterSlots(origin, slots);
      assert rs[1..] == RecenterSlots(origin, slots[1..]);
      BlockerSlotsRecentered(origin, slots[1..]);
      var head := if BlockerTag(slots[0].tag) then [slots[0]] else [];
      assert RecenterSlots(origin, head + BlockerSlots(slots[1..]))
          == RecenterSlots(origin, head) + RecenterSlots(origin, BlockerSlots(slots[1..]));
    }
  }

  /** Recentring a row keeps its pass_rusher column and its metrics. */
  lemma MetricsOfRecentered(root: real -> real, origin: Vec, row: AnalysisRow, mass: real)
    requires IsRoot(root)
    ensures RusherOf(RecenterRow(origin, row)).Some? == RusherOf(row).Some?
    ensures RusherOf(row).Some? ==> MetricsOf(root, RecenterRow(origin, row), mass) == MetricsOf(root, row, mass)
  {
    SlotOfRecentered(origin, row.slots, RusherTag);
    if RusherOf(row).Some? {
      var row' := RecenterRow(origin, row);
      BlockerSlotsRecentered(origin, row.slots);
      var bs := BlockerFrames(row);
      var bs' := seq(|bs|, k requires 0 <= k < |bs| => RecenterEntity(origin, bs[k]));
      assert BlockerFrames(row') == bs';
      assert RusherOf(row').value == RecenterEntity(origin, RusherOf(row).value);
      RowMetricsRecentered(root, origin, row.ball, RusherOf(row).value, bs, mass);
      assert MetricsOf(root, row', mass)
          == RowMetrics(root, RecenterBall(origin, row.ball), RecenterEntity(origin, RusherOf(row).value), bs', mass);
    }
  }

  /** The `pass_rusher` id column of the rows. */
  function RusherIds(rows: seq<AnalysisRow>): (r: seq<Option<int>>)
    ensures |r| == |rows|
  {
    seq(|rows|, k requires 0 <= k < |rows| =>
      var f := RusherOf(rows[k]);
      if f.Some? && f.value.Some? then Some(f.value.value.id) else None)
  }

  /** `players_df[players_df.nflId == pass_rusher.max()].weight.iat[0]`:
      missing when no row has a rusher id or that id has no weight. */
  function RusherMass(rows: seq<AnalysisRow>, weights: map<int, real>): (r: Option<real>)
    ensures r.Some? <==> Stats.MaxId(RusherIds(rows)).Some? && Stats.MaxId(RusherIds(rows)).value in weights
    ensures r.Some? ==> r.value == weights[Stats.MaxId(RusherIds(rows)).value]
  {
    var id :- Stats.MaxId(RusherIds(rows));
    if id in weights then Some(weights[id]) else None
  }

  predicate HasRusherColumn(rows: seq<AnalysisRow>) {
    forall k :: 0 <= k < |rows| ==> RusherOf(rows[k]).Some?
  }

  /** `build_metrics`: recentre on the snap point, then compose the metrics of
      every row. Fails when a row has no pass_rusher column or the rusher has
      no recorded weight. */
  function BuildMetrics(root: real -> real, a: Analysis, weights: map<int, real>)
    : (r: Result<seq<FrameMetrics>, PlayError>)
    requires IsRoot(root)
    ensures r.Success? <==> HasRusherColumn(a.rows) && RusherMass(a.rows, weights).Some?
    ensures r.Failure? ==> r.error == (if HasRusherColumn(a.rows) then UnknownMass else MissingRusher)
    ensures r.Success? ==> |r.value| == |a.rows|
    ensures r.Success? ==> forall k :: 0 <= k < |a.rows| ==>
              r.value[k] == MetricsOf(root, a.rows[k], RusherMass(a.rows, weights).value)
  {
    if !HasRusherColumn(a.rows) then Failure(MissingRusher)
    else
      var mass :- Need(RusherMass(a.rows, weights), UnknownMass);
      Success(RecenteredMetrics(root, a.scrimmage, a.rows, mass))
  }

  /** The metrics of rows recentred on `origin`, which are those of the rows as given. */
  function RecenteredMetrics(root: real -> real, origin: Vec, rows: seq<AnalysisRow>, mass: real)
    : (r: seq<FrameMetrics>)
    requires IsRoot(root) && HasRusherColumn(rows)
    ensures |r| == |rows|
    ensures forall k :: 0 <= k < |rows| ==> r[k] == MetricsOf(root, rows[k], mass)
  {
    var centred := seq(|rows|, k requires 0 <= k < |rows| => RecenterRow(origin, rows[k]));
    RecenteredRows(root, origin, rows, mass);
    seq(|centred|, k requires 0 <= k < |centred| && RusherOf(centred[k]).Some? => MetricsOf(root, centred[k], mass))
  }

  lemma RecenteredRows(root: real -> real, origin: Vec, rows: seq<AnalysisRow>, mass: real)
    requires IsRoot(root) && HasRusherColumn(rows)
    ensures forall k :: 0 <= k < |rows| ==> RusherOf(RecenterRow(origin, rows[k])).Some?
    ensures forall k :: 0 <= k < |rows| ==> MetricsOf(root, RecenterRow(origin, rows[k]), mass) == MetricsOf(root, rows[k], mass)
  {
    forall k | 0 <= k < |rows|
      ensures RusherOf(RecenterRow(origin, rows[k])).Some?
      ensures MetricsOf(root, RecenterRow(origin, rows[k]), mass) == MetricsOf(root, rows[k], mass)
    {
      MetricsOfRecentered(root, origin, rows[k], mass);
    }
  }
}

=== FILE: prep.dfy ===
/** Row-level conversions applied while the raw tables are loaded
    (nfl_acquire_and_prep.py and the scouting prep in nfl_functions.py).
    Each conversion is stated for one row; a table conversion fails as soon as
    one of its rows fails.
 */
module Prep {
  import opened Wrappers
  import opened Digits

  /** `height.str[0].astype(int) * 12 + height.str[2:].astype(int)`: feet are the
      first character, inches everything from index 2 on; index 1 is never read. */
  function HeightInches(height: string): (r: Option<int>)
    ensures r.Some? <==> |height| > 2 && IsDigit(height[0]) && ParseInt(height[2..]).Some?
    ensures r.Some? ==> r.value == 12 * DigitValue(height[0]) + ParseInt(height[2..]).value
  {
    if |height| == 0 then None
    else
      var feet :- ParseInt(height[..1]);
      var inches :- ParseInt(height[Min(2, |height|)..]);
      assert height[..1][..0] == [];
      assert feet == DigitsValue(height[..1]) == DigitValue(height[0]);
      Some(feet * 12 + inches)
  }

  /** The "F-I" text the player table stores. */
  function HeightText(feet: nat, inches: nat): string
    requires feet < 10
  {
    NatToString(feet) + "-" + NatToString(inches)
  }

  lemma HeightRoundTrip(feet: nat, inches: nat)
    requires feet < 10
    ensures HeightInches(HeightText(feet, inches)) == Some(12 * feet + inches)
  {
    var s := HeightText(feet, inches);
    assert s[2..] == NatToString(inches);
    assert s[..1] == NatToString(feet);
    ParseIntOfNatToString(feet);
    ParseIntOfNatToString(inches);
  }

  /** The separator is never examined: any character in position 1 gives the same height. */
  lemma HeightIgnoresSeparator(height: string, c: char)
    requires |height| > 1
    ensures HeightInches(height) == HeightInches(height[..1] + [c] + height[2..])
  {
    var t := height[..1] + [c] + height[2..];
    assert t[..1] == height[..1];
    assert t[2..] == height[2..];
  }

  /** `gameClock.str[:2].astype(int) * 60 + gameClock.str[3:].astype(int)`. */
  function ClockSeconds(clock: string): (r: Option<int>)
    ensures r.Some? ==> |clock| > 3
    ensures r.Some? <==> ParseInt(clock[..Min(2, |clock|)]).Some? && ParseInt(clock[Min(3, |clock|)..]).Some?
    ensures r.Some? ==> r.value == 60 * ParseInt(clock[..2]).value + ParseInt(clock[3..]).value
  {
    var minutes :- ParseInt(clock[..Min(2, |clock|)]);
    var seconds :- ParseInt(clock[Min(3, |clock|)..]);
    Some(minutes * 60 + seconds)
  }

  function Min(a: int, b: int): int {
    if a <= b then a else b
  }

  /** A zero-padded "MM:SS" clock reads back as seconds left in the quarter. */
  lemma ClockRoundTrip(minutes: nat, seconds: nat)
    requires minutes < 100 && seconds < 100
    ensures ClockSeconds(Pad2(minutes) + ":" + Pad2(seconds)) == Some(60 * minutes + seconds)
  {
    var s := Pad2(minutes) + ":" + Pad2(seconds);
    assert s[..2] == Pad2(minutes);
    assert s[3..] == Pad2(seconds);
  }

  /** Slicing by position means an unpadded clock is rejected: "9:05" has "9:" as minutes. */
  lemma ClockNeedsPadding()
    ensures ClockSeconds("9:05") == None
  {
    assert "9:05"[..2] == "9:";
    assert !IsDigit("9:"[1]);
  }

  /** Distance to the end zone: the possession team's own half counts from 100.
      `side` is None at midfield, where the source's yardlineSide is missing. */
  function YardsToScore(possession: string, side: Option<string>, yardline: int): (r: int)
    ensures side == Some(possession) ==> r == 100 - yardline
    ensures side != Some(possession) ==> r == yardline
  {
    if side.Some? && side.value == possession then 100 - yardline else yardline
  }

  /** For the two teams of a game, the yards each needs to score add up to the field length. */
  lemma YardsToScoreComplement(offense: string, defense: string, side: string, yardline: int)
    requires offense != defense
    requires side == offense || side == defense
    ensures YardsToScore(offense, Some(side), yardline) + YardsToScore(defense, Some(side), yardline) == 100
  {
  }

  /** At midfield the side does not matter. */
  lemma YardsToScoreMidfield(possession: string, side: Option<string>)
    ensures YardsToScore(possession, side, 50) == 50
  {
  }

  /** `np.where(team == homeTeamAbbr, preSnapHomeScore, preSnapVisitorScore)`,
      used for both o_score (team = offense) and d_score (team = defense). */
  function TeamScore(team: string, home: string, homeScore: int, visitorScore: int): (r: int)
    ensures team == home ==> r == homeScore
    ensures team != home ==> r == visitorScore
  {
    if team == home then homeScore else visitorScore
  }

  /** When one side is home and the other visits, o_score and d_score split the two scores. */
  lemma ScoresPartition(offense: string, defense: string, home: string, visitor: string,
                        homeScore: int, visitorScore: int)
    requires home != visitor
    requires (offense == home && defense == visitor) || (offense == visitor && defense == home)
    ensures TeamScore(offense, home, homeScore, visitorScore) + TeamScore(defense, home, homeScore, visitorScore)
            == homeScore + visitorScore
    ensures (TeamScore(offense, home, homeScore, visitorScore) == homeScore
             && TeamScore(defense, home, homeScore, visitorScore) == visitorScore)
         || (TeamScore(offense, home, homeScore, visitorScore) == visitorScore
             && TeamScore(defense, home, homeScore, visitorScore) == homeScore)
  {
  }

  function Flag(b: bool): nat {
    if b then 1 else 0
  }

  /** How many of the flags are set. */
  function CountTrue(flags: seq<bool>): (r: nat)
    ensures r <= |flags|
    ensures r == 0 <==> forall k :: 0 <= k < |flags| ==> !flags[k]
  {
    if |flags| == 0 then 0 else (if flags[0] then 1 else 0) + CountTrue(flags[1..])
  }

  lemma CountTrueCons(b: bool, rest: seq<bool>)
    ensures CountTrue([b] + rest) == Flag(b) + CountTrue(rest)
  {
    assert ([b] + rest)[1..] == rest;
  }

  /** `astype(int)` on one float cell: the value truncated toward zero; None
      stands for a NaN cell, on which the cast raises. */
  function CastInt(cell: Option<real>): (r: Option<int>)
    ensures r.Some? <==> cell.Some?
    ensures r.Some? && cell.value >= 0.0 ==> 0 <= r.value && r.value as real <= cell.value < r.value as real + 1.0
    ensures r.Some? && cell.value < 0.0 ==> r.value <= 0 && r.value as real - 1.0 < cell.value <= r.value as real
  {
    match cell
    case None => None
    case Some(x) => Some(if x >= 0.0 then x.Floor else -((-x).Floor))
  }

  /** A whole number survives the cast unchanged. */
  lemma CastIntWhole(n: int)
    ensures CastInt(Some(n as real)) == Some(n)
  {
    var r := CastInt(Some(n as real));
    assert r.Some?;
    if n >= 0 {
      assert n <= r.value && r.value <= n;
    } else {
      assert r.value <= n && n <= r.value;
    }
  }

  /** The 0/1 indicator of a PFF flag column. */
  function Indicator(b: bool): real {
    if b then 1.0 else 0.0
  }

  /** Pass-rush outcome `hit + hurry + sack`, over the cells after `astype(int)`.
      A NaN cell leaves it undefined, since the cast raises there. */
  function Pressure(hit: Option<real>, hurry: Option<real>, sack: Option<real>): (r: Option<int>)
    ensures r.Some? <==> hit.Some? && hurry.Some? && sack.Some?
    ensures r.Some? ==> r.value == CastInt(hit).value + CastInt(hurry).value + CastInt(sack).value
  {
    if hit.None? || hurry.None? || sack.None? then None
    else Some(CastInt(hit).value + CastInt(hurry).value + CastInt(sack).value)
  }

  /** On 0/1 indicator cells the pressure counts the flags that are set: at most
      3, positive exactly when one occurred, 3 exactly when all did. */
  lemma PressureOfIndicators(hit: bool, hurry: bool, sack: bool)
    ensures var r := Pressure(Some(Indicator(hit)), Some(Indicator(hurry)), Some(Indicator(sack)));
      && r == Some(CountTrue([hit, hurry, sack]) as int)
      && r.value <= 3
      && (r.value > 0 <==> hit || hurry || sack)
      && (r.value == 3 <==> hit && hurry && sack)
  {
    CastIntWhole(Flag(hit));
    CastIntWhole(Flag(hurry));
    CastIntWhole(Flag(sack));
    assert Indicator(hit) == Flag(hit) as real && Indicator(hurry) == Flag(hurry) as real
        && Indicator(sack) == Flag(sack) as real;
    CountTrueCons(sack, []);
    CountTrueCons(hurry, [sack]);
    CountTrueCons(hit, [hurry, sack]);
  }

  /** Pass-block outcome `beaten + hit allowed + hurry allowed + sack allowed`,
      over the cells after `astype(int)`; undefined on a NaN cell. */
  function BlockFail(beaten: Option<real>, hitAllowed: Option<real>, hurryAllowed: Option<real>, sackAllowed: Option<real>)
    : (r: Option<int>)
    ensures r.Some? <==> beaten.Some? && hitAllowed.Some? && hurryAllowed.Some? && sackAllowed.Some?
    ensures r.Some? ==> r.value == CastInt(beaten).value + CastInt(hitAllowed).value
                                   + CastInt(hurryAllowed).value + CastInt(sackAllowed).value
  {
    if beaten.None? || hitAllowed.None? || hurryAllowed.None? || sackAllowed.None? then None
    else Some(CastInt(beaten).value + CastInt(hitAllowed).value + CastInt(hurryAllowed).value + CastInt(sackAllowed).value)
  }

  /** On 0/1 indicator cells the blocking failure counts the flags that are set:
      at most 4, positive exactly when one occurred, 4 exactly when all did. */
  lemma BlockFailOfIndicators(beaten: bool, hitAllowed: bool, hurryAllowed: bool, sackAllowed: bool)
    ensures var r := BlockFail(Some(Indicator(beaten)), Some(Indicator(hitAllowed)),
                               Some(Indicator(hurryAllowed)), Some(Indicator(sackAllowed)));
      && r == Some(CountTrue([beaten, hitAllowed, hurryAllowed, sackAllowed]) as int)
      && r.value <= 4
      && (r.value > 0 <==> beaten || hitAllowed || hurryAllowed || sackAllowed)
      && (r.value == 4 <==> beaten && hitAllowed && hurryAllowed && sackAllowed)
  {
    CastIntWhole(Flag(beaten));
    CastIntWhole(Flag(hitAllowed));
    CastIntWhole(Flag(hurryAllowed));
    CastIntWhole(Flag(sackAllowed));
    assert Indicator(beaten) == Flag(beaten) as real && Indicator(hitAllowed) == Flag(hitAllowed) as real
        && Indicator(hurryAllowed) == Flag(hurryAllowed) as real && Indicator(sackAllowed) == Flag(sackAllowed) as real;
    CountTrueCons(sackAllowed, []);
    CountTrueCons(hurryAllowed, [sackAllowed]);
    CountTrueCons(hitAllowed, [hurryAllowed, sackAllowed]);
    CountTrueCons(beaten, [hitAllowed, hurryAllowed, sackAllowed]);
  }

  /** Only weeks 1 through 8 have tracking data; any other week yields nothing.
      The file name carries the week number back. */
  function WeekFile(week: int): (r: Option<string>)
    ensures r.Some? <==> 1 <= week <= 8
    ensures r.Some? ==> |r.value| == 14 && r.value[..9] == "data/week" && r.value[10..] == ".csv"
                        && ParseInt(r.value[9..10]) == Some(week)
  {
    if 1 <= week <= 8 then
      var name := "data/week" + NatToString(week) + ".csv";
      assert name[9..10] == NatToString(week);
      ParseIntOfNatToString(week);
      Some(name)
    else None
  }
}

=== FILE: realarith.dfy ===
/** Small facts about products and quotients of reals. The solver does not
    find these on its own inside larger proofs, so the geometry cites them.
    Products are passed in as separate arguments (rather than as `n * n`) so
    that the solver never has to rewrite a product it has already normalised.
 */
module RealArith {

  lemma ProductZero(x: real, y: real)
    requires x * y == 0.0 && x != 0.0
    ensures y == 0.0
  {
  }

  lemma ProductPositive(x: real, y: real)
    requires x > 0.0 && y > 0.0
    ensures x * y > 0.0
  {
  }

  lemma ProductNonNegative(x: real, y: real)
    requires x >= 0.0 && y >= 0.0
    ensures x * y >= 0.0
  {
  }

  lemma SquareSign(a: real)
    ensures a * a >= 0.0
    ensures a != 0.0 ==> a * a > 0.0
  {
  }

  lemma SquareZero(a: real)
    requires a * a == 0.0
    ensures a == 0.0
  {
    if a != 0.0 {
      ProductZero(a, a);
    }
  }

  /** Non-negative reals with equal squares are equal. */
  lemma SquareInjective(a: real, b: real)
    requires a >= 0.0 && b >= 0.0 && a * a == b * b
    ensures a == b
  {
    assert (a + b) * (a - b) == a * a - b * b;
    if a + b != 0.0 {
      ProductZero(a + b, a - b);
    }
  }

  /** d^2 <= n^2 with n >= 0 puts d in [-n, n]. */
  lemma SquareBound(d: real, n: real)
    requires n >= 0.0 && d * d <= n * n
    ensures -n <= d <= n
  {
    assert (d - n) * (d + n) == d * d - n * n;
    assert (-d - n) * (-d + n) == d * d - n * n;
    if d > n {
      ProductPositive(d - n, d + n);
    }
    if -d > n {
      ProductPositive(-d - n, -d + n);
    }
  }

  /** d / n for 0 < n and |d| <= n lies in [-1, 1] and has the sign of d. */
  lemma RatioBounds(d: real, n: real)
    requires n > 0.0 && -n <= d <= n
    ensures -1.0 <= d / n <= 1.0
    ensures (d / n) * n == d
    ensures d / n == 0.0 <==> d == 0.0
    ensures d / n > 0.0 <==> d > 0.0
  {
    var c := d / n;
    assert c * n == d;
    assert c > 1.0 ==> c * n > 1.0 * n;
    assert c < -1.0 ==> c * n < -1.0 * n;
    assert c > 0.0 ==> c * n > 0.0;
    assert c < 0.0 ==> c * n < 0.0;
  }

  /** c (a b) == d and a b == d with a, b > 0 force c == 1. */
  lemma UnitFactor(c: real, a: real, b: real, d: real)
    requires a > 0.0 && b > 0.0 && c * (a * b) == d && a * b == d
    ensures c == 1.0
  {
    assert (a * b) * (c - 1.0) == 0.0;
    ProductZero(a * b, c - 1.0);
  }

  function Abs(k: real): (r: real)
    ensures r >= 0.0 && (r == k || r == -k)
  {
    if k >= 0.0 then k else -k
  }

  /** A product is positive exactly when its factors share a sign, and negative
      exactly when their signs differ. */
  lemma ProductSign(x: real, y: real)
    ensures x * y > 0.0 <==> (x > 0.0 && y > 0.0) || (x < 0.0 && y < 0.0)
    ensures x * y < 0.0 <==> (x > 0.0 && y < 0.0) || (x < 0.0 && y > 0.0)
  {
    if x > 0.0 && y < 0.0 {
      assert x * -y > 0.0;
    } else if x < 0.0 && y > 0.0 {
      assert -x * y > 0.0;
    } else if x < 0.0 && y < 0.0 {
      assert -x * -y > 0.0;
    }
  }

  /** Multiplying by a factor of magnitude at most 1 cannot grow a magnitude. */
  lemma ProductShrinks(x: real, y: real)
    requires -1.0 <= y <= 1.0
    ensures Abs(x * y) <= Abs(x)
  {
    var m := Abs(x);
    ProductNonNegative(m, 1.0 - y);
    ProductNonNegative(m, 1.0 + y);
    assert x * y == m * y || x * y == -(m * y);
  }

  /** c' is c with the sign of k when c' (a' b) == k d, c (a b) == d and a' == |k| a. */
  lemma ScaledFactor(c': real, c: real, k: real, a: real, a': real, b: real, d: real, d': real)
    requires a > 0.0 && b > 0.0 && k != 0.0
    requires a' == Abs(k) * a && d' == k * d
    requires c * (a * b) == d && c' * (a' * b) == d'
    ensures c' == (if k > 0.0 then c else -c)
  {
    var q := if k > 0.0 then c else -c;
    var ab := a * b;
    ProductPositive(a, b);
    assert c' * (a' * b) == c' * (Abs(k) * ab);
    assert k * d == q * (Abs(k) * ab);
    ProductPositive(Abs(k), ab);
    assert (Abs(k) * ab) * (c' - q) == 0.0;
    ProductZero(Abs(k) * ab, c' - q);
  }

  /** A quotient by a positive real keeps the sign of the dividend. */
  lemma QuotientSign(a: real, n: real)
    requires n > 0.0
    ensures (a / n) * n == a
    ensures a >= 0.0 ==> a / n >= 0.0
    ensures a <= 0.0 ==> a / n <= 0.0
  {
    var q := a / n;
    assert q * n == a;
    assert q < 0.0 ==> q * n < 0.0;
    assert q > 0.0 ==> q * n > 0.0;
  }

  /** Dividing by a positive real preserves order. */
  lemma QuotientMonotone(a: real, b: real, n: real)
    requires n > 0.0 && a <= b
    ensures a / n <= b / n
  {
    var qa, qb := a / n, b / n;
    assert qa * n == a && qb * n == b;
    assert qa > qb ==> qa * n > qb * n;
  }
}

=== FILE: stats.dfy ===
/** Column reductions as pandas performs them: `mean`, `sum` and `max` skip
    missing (NaN) cells. The mean of a column with no defined cell is missing,
    its sum is 0, and its max is missing.
 */
module Stats {
  import opened Wrappers

  /** The defined cells of a column, in order. */
  function Present(xs: seq<Option<real>>): (r: seq<real>)
    ensures |r| <= |xs|
    ensures |r| == 0 <==> forall k :: 0 <= k < |xs| ==> xs[k].None?
  {
    if |xs| == 0 then []
    else (if xs[0].Some? then [xs[0].value] else []) + Present(xs[1..])
  }

  function Total(vs: seq<real>): real {
    if |vs| == 0 then 0.0 else vs[0] + Total(vs[1..])
  }

  /** `Series.sum()`: the total of the defined cells. */
  function Sum(xs: seq<Option<real>>): real {
    Total(Present(xs))
  }

  /** `Series.mean()`: the average of the defined cells, missing when there are none. */
  function Mean(xs: seq<Option<real>>): (r: Option<real>)
    ensures r.None? <==> forall k :: 0 <= k < |xs| ==> xs[k].None?
  {
    var n := |Present(xs)|;
    if n == 0 then None else Some(Sum(xs) / n as real)
  }

  lemma {:induction false} PresentAppend(xs: seq<Option<real>>, ys: seq<Option<real>>)
    ensures Present(xs + ys) == Present(xs) + Present(ys)
    decreases |xs|
  {
    if |xs| > 0 {
      PresentAppend(xs[1..], ys);
      assert (xs + ys)[1..] == xs[1..] + ys;
    } else {
      assert xs + ys == ys;
    }
  }

  lemma {:induction false} TotalAppend(us: seq<real>, vs: seq<real>)
    ensures Total(us + vs) == Total(us) + Total(vs)
    decreases |us|
  {
    if |us| > 0 {
      TotalAppend(us[1..], vs);
      assert (us + vs)[1..] == us[1..] + vs;
    } else {
      assert us + vs == vs;
    }
  }

  /** Summing a column in two pieces gives the same total. */
  lemma SumAppend(xs: seq<Option<real>>, ys: seq<Option<real>>)
    ensures Sum(xs + ys) == Sum(xs) + Sum(ys)
  {
    PresentAppend(xs, ys);
    TotalAppend(Present(xs), Present(ys));
  }

  lemma {:induction false} PresentBounds(xs: seq<Option<real>>, lo: real, hi: real)
    requires forall k :: 0 <= k < |xs| && xs[k].Some? ==> lo <= xs[k].value <= hi
    ensures forall k :: 0 <= k < |Present(xs)| ==> lo <= Present(xs)[k] <= hi
    decreases |xs|
  {
    if |xs| > 0 {
      assert forall k :: 0 <= k < |xs| - 1 ==> xs[1..][k] == xs[k + 1];
      PresentBounds(xs[1..], lo, hi);
    }
  }

  lemma {:induction false} TotalBounds(vs: seq<real>, lo: real, hi: real)
    requires forall k :: 0 <= k < |vs| ==> lo <= vs[k] <= hi
    ensures lo * (|vs| as real) <= Total(vs) <= hi * (|vs| as real)
    decreases |vs|
  {
    if |vs| > 0 {
      TotalBounds(vs[1..], lo, hi);
      assert lo * (|vs| as real) == lo + lo * ((|vs| - 1) as real);
      assert hi * (|vs| as real) == hi + hi * ((|vs| - 1) as real);
    }
  }

  /** The mean lies between any bounds of the defined cells. */
  lemma MeanBounds(xs: seq<Option<real>>, lo: real, hi: real)
    requires forall k :: 0 <= k < |xs| && xs[k].Some? ==> lo <= xs[k].value <= hi
    ensures Mean(xs).Some? ==> lo <= Mean(xs).value <= hi
  {
    var vs := Present(xs);
    PresentBounds(xs, lo, hi);
    if |vs| > 0 {
      var n := |vs| as real;
      TotalBounds(vs, lo, hi);
      QuotientBounds(Total(vs), n, lo, hi);
      assert Mean(xs) == Some(Total(vs) / n);
    }
  }

  /** The sum is the mean times the number of defined cells. */
  lemma SumIsMeanTimesCount(xs: seq<Option<real>>)
    ensures Mean(xs).Some? ==> Sum(xs) == Mean(xs).value * (|Present(xs)| as real)
  {
    var s := Sum(xs);
    var n := |Present(xs)|;
    if n > 0 {
      var q := s / n as real;
      assert q * (n as real) == s;
    }
  }

  /** A column with no defined cell sums to 0 and has no mean. */
  lemma SumOfNothing(xs: seq<Option<real>>)
    ensures Mean(xs).None? ==> Sum(xs) == 0.0
  {
    if Mean(xs).None? {
      assert Present(xs) == [];
    }
  }

  lemma {:induction false} PresentAtLeast(xs: seq<Option<real>>, lo: real)
    requires forall k :: 0 <= k < |xs| && xs[k].Some? ==> lo <= xs[k].value
    ensures forall k :: 0 <= k < |Present(xs)| ==> lo <= Present(xs)[k]
    decreases |xs|
  {
    if |xs| > 0 {
      assert forall k :: 0 <= k < |xs| - 1 ==> xs[1..][k] == xs[k + 1];
      PresentAtLeast(xs[1..], lo);
    }
  }

  lemma {:induction false} TotalAtLeast(vs: seq<real>, lo: real)
    requires forall k :: 0 <= k < |vs| ==> lo <= vs[k]
    ensures lo * (|vs| as real) <= Total(vs)
    decreases |vs|
  {
    if |vs| > 0 {
      TotalAtLeast(vs[1..], lo);
      assert lo * (|vs| as real) == lo + lo * ((|vs| - 1) as real);
    }
  }

  /** A lower bound of the defined cells bounds the mean, and the sum when it is 0 or less. */
  lemma MeanAtLeast(xs: seq<Option<real>>, lo: real)
    requires forall k :: 0 <= k < |xs| && xs[k].Some? ==> lo <= xs[k].value
    ensures Mean(xs).Some? ==> lo <= Mean(xs).value
    ensures lo == 0.0 ==> Sum(xs) >= 0.0
  {
    var vs := Present(xs);
    PresentAtLeast(xs, lo);
    TotalAtLeast(vs, lo);
    if |vs| > 0 {
      var n := |vs| as real;
      var q := Total(vs) / n;
      assert q * n == Total(vs);
      assert q < lo ==> q * n < lo * n;
      assert Mean(xs) == Some(q);
    }
  }

  lemma QuotientBounds(t: real, n: real, lo: real, hi: real)
    requires n > 0.0 && lo * n <= t <= hi * n
    ensures lo <= t / n <= hi
  {
    var q := t / n;
    assert q * n == t;
    assert q < lo ==> q * n < lo * n;
    assert q > hi ==> q * n > hi * n;
  }

  /** `Series.max()` of an id column: the largest defined id, missing when there is none. */
  function MaxId(xs: seq<Option<int>>): (r: Option<int>)
    ensures r.None? <==> forall k :: 0 <= k < |xs| ==> xs[k].None?
    ensures r.Some? ==> (exists k :: 0 <= k < |xs| && xs[k] == r)
                        && forall k :: 0 <= k < |xs| && xs[k].Some? ==> xs[k].value <= r.value
  {
    if |xs| == 0 then None
    else
      var rest := MaxId(xs[1..]);
      assert forall k :: 1 <= k < |xs| ==> xs[k] == xs[1..][k - 1];
      if xs[0].None? then rest
      else if rest.None? || rest.value <= xs[0].value then xs[0]
      else rest
  }
}

=== FILE: window.dfy ===
/** The play window: which ball frames belong to the pass rush
    (`determine_pertinent_frames` in nfl_frame_builder.py, duplicated verbatim in
    nfl_functions.py).

    The scanner walks the ordered event labels of the ball frames. A `ball_snap`
    records the position after it (1-based) and arms the scan; once armed, any
    label outside the fixed skip list ends the window at the position after it.
    A later `ball_snap` re-records the start. Without a snap, or without an
    ending label after it, nothing is returned.
 */
module Window {
  import opened Wrappers

  const BallSnap: string := "ball_snap"

  /** Labels that never end the window once the scan is armed. */
  const NonTerminal: set<string> := {"None", "autoevent_ballsnap", "autoevent_passforward",
                                     "play_action", "first_contact", "shift", "man_in_motion", "line_set"}

  /** A label that ends an armed scan. */
  predicate Terminal(name: string) {
    name != BallSnap && name !in NonTerminal
  }

  /** 1-based positions of the snap frame and of the frame that ends the window. */
  datatype Bounds = Bounds(snap: nat, end: nat)

  /** Some `ball_snap` occurs strictly before position j (0-based). */
  ghost predicate Armed(events: seq<string>, j: int) {
    exists s :: 0 <= s < j && s < |events| && events[s] == BallSnap
  }

  /** Position j (0-based) holds an ending label that an armed scan would stop at. */
  ghost predicate Closes(events: seq<string>, j: int) {
    0 <= j < |events| && Terminal(events[j]) && Armed(events, j)
  }

  /** The declarative meaning of a window: the first closing label ends it, and
      the start is just after the last snap before that label. */
  ghost predicate IsWindow(events: seq<string>, b: Bounds) {
    && 1 <= b.snap < b.end <= |events|
    && events[b.snap - 1] == BallSnap
    && Terminal(events[b.end - 1])
    && (forall j :: b.snap <= j < b.end - 1 ==> events[j] in NonTerminal)
    && (forall j :: 0 <= j < b.end - 1 ==> !Closes(events, j))
  }

  /** What the scan knows after reading events[..i] with recorded start `snap`. */
  ghost predicate ScanState(events: seq<string>, i: nat, snap: Option<nat>) {
    && i <= |events|
    && (forall j :: 0 <= j < i ==> !Closes(events, j))
    && (snap.None? ==> forall s :: 0 <= s < i ==> events[s] != BallSnap)
    && (snap.Some? ==>
          && 1 <= snap.value <= i
          && events[snap.value - 1] == BallSnap
          && forall j :: snap.value <= j < i ==> events[j] in NonTerminal)
  }

  /** The loop of `determine_pertinent_frames` from position i on, with the
      recorded snap position (None while the trigger is off). */
  function Scan(events: seq<string>, i: nat, snap: Option<nat>): (r: Option<Bounds>)
    requires ScanState(events, i, snap)
    ensures r.Some? ==> IsWindow(events, r.value)
    ensures r.None? ==> forall j :: 0 <= j < |events| ==> !Closes(events, j)
    decreases |events| - i
  {
    if i == |events| then None
    else if events[i] == BallSnap then
      assert forall j :: 0 <= j < i + 1 ==> !Closes(events, j);
      Scan(events, i + 1, Some(i + 1))
    else if snap.Some? && events[i] !in NonTerminal then
      Some(Bounds(snap.value, i + 1))
    else
      assert !Closes(events, i);
      Scan(events, i + 1, snap)
  }

  /** `determine_pertinent_frames`: the window of the event list, if any. */
  function PertinentFrames(events: seq<string>): (r: Option<Bounds>)
    ensures r.Some? ==> IsWindow(events, r.value) && r.value.snap < r.value.end
    ensures r.None? <==> forall j :: 0 <= j < |events| ==> !Closes(events, j)
  {
    var r := Scan(events, 0, None);
    assert r.Some? ==> Closes(events, r.value.end - 1);
    r
  }

  /** The found window starts on a snap and ends on an ending label. */
  lemma WindowEnds(events: seq<string>, b: Bounds)
    requires PertinentFrames(events) == Some(b)
    ensures 1 <= b.snap < b.end <= |events|
    ensures events[b.snap - 1] == BallSnap && Terminal(events[b.end - 1])
  {
  }

  /** At most one window fits an event list. */
  lemma WindowUnique(events: seq<string>, b1: Bounds, b2: Bounds)
    requires IsWindow(events, b1) && IsWindow(events, b2)
    ensures b1 == b2
  {
    assert Closes(events, b1.end - 1);
    assert Closes(events, b2.end - 1);
    assert b1.end == b2.end;
    assert events[b1.snap - 1] !in NonTerminal;
    assert events[b2.snap - 1] !in NonTerminal;
  }

  /** The scanner finds exactly the windows of the declarative definition. */
  lemma PertinentFramesIff(events: seq<string>, b: Bounds)
    ensures PertinentFrames(events) == Some(b) <==> IsWindow(events, b)
  {
    if IsWindow(events, b) {
      assert Closes(events, b.end - 1);
      WindowUnique(events, PertinentFrames(events).value, b);
    }
  }

  /** Whether position j is armed depends only on the events before it. */
  lemma ArmedPrefix(events: seq<string>, more: seq<string>, j: int)
    requires 0 <= j < |events|
    ensures Armed(events + more, j) == Armed(events, j)
  {
    if Armed(events + more, j) {
      var s :| 0 <= s < j && s < |events + more| && (events + more)[s] == BallSnap;
      assert events[s] == BallSnap;
    }
    if Armed(events, j) {
      var s :| 0 <= s < j && s < |events| && events[s] == BallSnap;
      assert (events + more)[s] == BallSnap;
    }
  }

  /** Events after the window's end never change it. */
  lemma WindowPrefixStable(events: seq<string>, more: seq<string>)
    requires PertinentFrames(events).Some?
    ensures PertinentFrames(events + more) == PertinentFrames(events)
  {
    var b := PertinentFrames(events).value;
    var all := events + more;
    forall j | 0 <= j < b.end - 1
      ensures !Closes(all, j)
    {
      assert !Closes(events, j);
      ArmedPrefix(events, more, j);
      assert all[j] == events[j];
    }
    assert IsWindow(all, b);
    PertinentFramesIff(all, b);
  }

  /** Dropping the last event (as the frame builder does before searching) keeps
      every window that ends before it, and can only lose one that ends on it. */
  lemma WindowDropLast(events: seq<string>)
    requires |events| > 0
    ensures PertinentFrames(events[..|events| - 1]).Some? ==>
              PertinentFrames(events[..|events| - 1]) == PertinentFrames(events)
    ensures PertinentFrames(events).Some? && PertinentFrames(events).value.end < |events| ==>
              PertinentFrames(events[..|events| - 1]) == PertinentFrames(events)
  {
    var front := events[..|events| - 1];
    assert events == front + [events[|events| - 1]];
    if PertinentFrames(front).Some? {
      WindowPrefixStable(front, [events[|events| - 1]]);
    }
    if PertinentFrames(events).Some? && PertinentFrames(events).value.end < |events| {
      var b := PertinentFrames(events).value;
      forall j | 0 <= j < b.end - 1
        ensures !Closes(front, j)
      {
        ArmedPrefix(front, [events[|events| - 1]], j);
        assert front[j] == events[j];
      }
      assert IsWindow(front, b);
      PertinentFramesIff(front, b);
    }
  }

  /** Without a `ball_snap`, no window is found. */
  lemma NoSnapNoWindow(events: seq<string>)
    requires forall j :: 0 <= j < |events| ==> events[j] != BallSnap
    ensures PertinentFrames(events) == None
  {
  }

  /** `nfl_functions.determine_pertinent_frames`, written as the loop it is: a
      trigger, a recorded snap index and an early return. */
  method LegacyPertinentFrames(events: seq<string>) returns (r: Option<Bounds>)
    ensures r == PertinentFrames(events)
  {
    var trigger := 0;
    var snapIndex := 0;
    var i := 0;
    while i < |events|
      invariant 0 <= i <= |events|
      invariant trigger == 0 || trigger == 1
      invariant ScanState(events, i, if trigger == 1 then Some(snapIndex) else None)
      invariant Scan(events, i, if trigger == 1 then Some(snapIndex) else None) == Scan(events, 0, None)
      decreases |events| - i
    {
      var event := events[i];
      if event == BallSnap {
        assert forall j :: 0 <= j < i + 1 ==> !Closes(events, j);
        snapIndex := i + 1;
        trigger := 1;
        i := i + 1;
        continue;
      }
      if trigger == 1 {
        if event in NonTerminal {
          i := i + 1;
          continue;
        } else {
          return Some(Bounds(snapIndex, i + 1));
        }
      } else {
        assert !Closes(events, i);
        i := i + 1;
        continue;
      }
    }
    return None;
  }

  /** Pass forward three frames after the snap: the window runs from position 1 to 4. */
  lemma ExamplePassAfterSkips()
    ensures PertinentFrames(["ball_snap", "None", "None", "pass_forward"]) == Some(Bounds(1, 4))
  {
  }

  /** A second snap restarts the window; labels before any snap are ignored. */
  lemma ExampleRepeatedSnap()
    ensures PertinentFrames(["pass_forward", "ball_snap", "line_set", "ball_snap", "sack"]) == Some(Bounds(4, 5))
  {
  }
}

=== FILE: wrappers.dfy ===
/** Failure-compatible wrappers used throughout the model.
    - Option<T>: a value that may be absent. In the metric pipeline `None` also
      stands for a NaN cell of a data frame.
    - Result<T, E>: a computation that either succeeds or raises.
 */
module Wrappers {

  datatype Option<+T> = None | Some(value: T) {

    predicate IsFailure() {
      None?
    }

    function PropagateFailure<U>(): Option<U>
      requires None?
    {
      None
    }

    function Extract(): T
      requires Some?
    {
      value
    }
  }

  datatype Result<+T, +E> = Success(value: T) | Failure(error: E) {

    predicate IsFailure() {
      Failure?
    }

    function PropagateFailure<U>(): Result<U, E>
      requires Failure?
    {
      Failure(error)
    }

    function Extract(): T
      requires Success?
    {
      value
    }
  }

  /** Turns an absent value into the given error. */
  function Need<T, E>(o: Option<T>, error: E): (r: Result<T, E>)
    ensures r.Success? <==> o.Some?
    ensures r.Success? ==> r.value == o.value
    ensures r.Failure? ==> r.error == error
  {
    match o
    case Some(v) => Success(v)
    case None => Failure(error)
  }
}
